=== FILE: README.md ===
# ECS game engine core in Dafny

This project models the core of a small C++ entity-component-system game
engine, a platformer with stars, spawners and a score display, and proves
properties about that model. The modelled parts are:

- **ComponentStorage.** A per-type slot array with a validity bitmap, a
  last-in first-out free list and a live count.
- **Pack.** The compile-time type list that numbers the component types.
- **EntityManager.** Entity ids with their own free list, and a table from
  (entity, type index) to a storage handle. A missing component is
  represented by `INVALID_COMPONENT_INDEX`.
- **MathUtil geometry.** `Point2D` and `Rect`.
- **Components.** The component records and their constructors.
- **Frame systems.** The systems that run every frame: collision snapshot,
  collision resolution and the pairwise collision pass, movement, gravity,
  player input, timers, spawners and the score display.
- **Camera.** The window's world/pixel coordinate mapping.
- **Map loading.** The tile-map loader, which works over pre-split lines.

Every `Manager` is explained through one abstraction, `EntityManager.SlotOf`.
An id is either `Vacant`, or `Live(name, comps)`, where `comps` is a map from
type index to component value. Every operation and every system is specified
through that view. The representation invariant `EntityManager.Inv` ties the
view to the storages and the table:

- every handle in the table is live in its storage;
- no two entities share a handle;
- every live storage slot is owned by some entity;
- free ids are dead and distinct.

At engine level the storages hold `Components.Component`, a tagged union of
the twelve registered component types. `World.WF` adds to the invariant that
every stored component sits under its own type index.

The source's systems skip a slot whose stored id is 0: entity 0 is never
processed, and a removed slot has its id reset to 0. `World.Visited` is that
guard. `World.Pass` is the generic per-entity loop, and each simple system is
a `Pass` with a rule over one entity's components.

Coordinates are `real`, because the source's `float` arithmetic uses only
`+ - * /`, min and max. Rectangle width and height are `int`, as in the
source. Float-to-int conversions are modelled as truncation toward zero
(`MathUtil.Trunc`).

Decisions that depart from a literal reading:

- **Asserts.** A C++ `assert` followed by an unchecked access becomes a
  `requires`. An assert followed by a release-mode `HasComponent` skip is
  modelled as the skip.
- **Sounds and camera shakes.** These are emitted as event sequences.
  `InputSystem.Input` returns the ids that play the jump sound, and
  `CollisionSystem.Collide` returns the stars that sparkled and the shake
  requests.
- **Pair loop.** The two nested loops of CollisionSystem are methods
  (`CollisionSystem.Inner`, `CollisionSystem.Outer`) over a per-pair step
  given as a function value. The recursive folds `InnerUpTo` and
  `PairsUpTo` define what the loops compute, and `CollisionSystem.Collide`
  runs them with `PairStep`, the source's loop body.
- **Random and opaque inputs.** Random spawn velocities and sprite sizes are
  function parameters.
- **Spawn pass.** The source creates entities inside the range-for over the
  entity list, and the entity manager documents that this invalidates its
  iterators. The model walks the ids that exist when the pass starts.
  Spawned entities hold no spawner, so visiting them would change nothing.
- **Score pass.** The source documents that the first entity with a score
  component is processed. The code, however, skips a scorer whose display
  list is empty and goes on to the next one. The model follows the code
  (`ScoreSystem.FirstScorer`).

## Model

| member | source | states |
|---|---|---|
| Pack.Size | engine/core/pack.h:11-15 | the recursive pack size equals the number of types in the list |
| Pack.IndexFrom | engine/core/pack.h:43-50 | the accumulator walk yields -1 exactly when the type is absent, otherwise the accumulated position of its first occurrence |
| Pack.Index | engine/core/pack.h:52-53 | the index lies in [-1, size), is -1 iff the type is absent, and otherwise names the first occurrence |
| Pack.TypeAt | engine/core/pack.h:17-33 | defined only for 0 <= i < size, and yields the i-th type |
| Pack.ContainsIsMembership | engine/core/pack.h:73 | contains holds iff the type is in the list |
| Pack.IndexTypeAtInverse | engine/core/pack.h:64-70 | in a pack without repeats, index and type are inverse bijections |
| Pack.IndexOfRepeat | engine/core/pack.h:47-50 | a worked example of the first-occurrence rule that Pack.Index proves for all packs: in [0, 1, 1] the index of 1 is 1, although type_at 2 is also 1 |
| ComponentStorage.Empty | engine/core/ComponentStorage.h:15-22 | a default storage satisfies the invariant, has size 0 and no valid handle |
| ComponentStorage.Get | engine/core/ComponentStorage.h:87-92 | requires a live handle, and returns the value that the handle maps to in the live view |
| ComponentStorage.Peek | engine/core/ComponentStorage.h:94 | the unchecked read agrees with Get on live handles and yields the blank T{} on dead ones |
| ComponentStorage.Put | engine/core/ComponentStorage.h:87-92 | writing through operator[] updates exactly that handle's value, and keeps the size, the validity bits and the invariant |
| ComponentStorage.Store | engine/core/ComponentStorage.h:28-75 | the handle was dead and is now live and holds the value; size grows by one; the last freed slot is reused (and popped), otherwise the handle is the old length; every other handle keeps its validity |
| ComponentStorage.Remove | engine/core/ComponentStorage.h:77-85 | requires a live handle; afterwards the handle is dead, is dropped from the view and is pushed on the free list; the size drops by one and other handles are unaffected |
| ComponentStorage.RemoveThenStore | engine/core/ComponentStorage.h:33-39 | storing right after a removal reuses the removed handle, and amounts to an in-place write |
| ComponentStorage.StoreThenRemove | engine/core/ComponentStorage.h:28-85 | removing the handle just stored restores the live view and the size |
| ComponentStorage.ReuseKeepsInv | engine/core/ComponentStorage.h:33-39 | the free-list branch of store keeps the invariant (the count equals the live slots, the free list holds distinct dead slots) |
| ComponentStorage.ReuseView | engine/core/ComponentStorage.h:33-39 | the free-list branch gives the last freed slot the value, and every other handle keeps its value |
| ComponentStorage.AppendKeepsInv | engine/core/ComponentStorage.h:40-45 | the append branch of store keeps the invariant |
| ComponentStorage.AppendView | engine/core/ComponentStorage.h:40-45 | the append branch adds one handle, the old size, holding the value, and every other handle keeps its value |
| ComponentStorage.RemoveKeepsInv | engine/core/ComponentStorage.h:79-84 | remove keeps the invariant: the count still equals the live slots, and the freed slot joins the free list once |
| ComponentStorage.RemoveView | engine/core/ComponentStorage.h:79-84 | remove drops exactly that handle from the view, and every other handle keeps its value |
| ComponentStorage.CountValidSet | engine/core/ComponentStorage.h:39 | setting a clear validity bit raises the live count by one |
| ComponentStorage.CountValidClear | engine/core/ComponentStorage.h:81 | clearing a set validity bit lowers the live count by one |
| ComponentStorage.CountValidAppend | engine/core/ComponentStorage.h:44 | appending a set bit raises the live count by one |
| EntityManager.Init | engine/managers/EntityManager.h:186-194 | an empty manager satisfies the invariant, and every id is vacant |
| EntityManager.GetEntityName | engine/managers/EntityManager.h:240-245 | the name returned is the name in the entity's live view |
| EntityManager.HasComponentMeansHeld | engine/managers/EntityManager.h:140-146 | the table holds a handle iff the entity's view holds that component type |
| EntityManager.GetComponent | engine/managers/EntityManager.h:153-163 | requires the component to be present, and returns the value that the entity's view holds for that type |
| EntityManager.CreateEntity | engine/managers/EntityManager.h:199-233 | the id was vacant and is now live with the given name and no components; the last freed id is reused, otherwise the id is the table length; no other id changes; the slot's stored id is the id itself |
| EntityManager.AddComponent | engine/managers/EntityManager.h:97-109 | requires a live entity without that type; afterwards the entity holds the value under that type, nothing else changes, and the invariant holds |
| EntityManager.SetComponent | engine/managers/EntityManager.h:153-163 | writing through the reference from GetComponent replaces that one value and changes nothing else |
| EntityManager.RemoveComponent | engine/managers/EntityManager.h:115-133 | a no-op on an invalid entity or an absent type; otherwise exactly that type disappears from the entity, and other entities and other types are unchanged |
| EntityManager.RemoveComponentByIndex | engine/managers/EntityManager.h:247-274 | dispatch on the type index removes exactly that handle from exactly that storage |
| EntityManager.ClearFrom | engine/managers/EntityManager.h:283-291 | the loop over type indices frees every component of the entity, so that its row is all absent |
| EntityManager.ClearOthers | engine/managers/EntityManager.h:283-291 | that loop leaves every other entity's view alone |
| EntityManager.RemoveEntity | engine/managers/EntityManager.h:276-302 | a no-op on an invalid id; otherwise the id becomes vacant and is pushed on the free list, its slot gets id 0 and an empty name, and no other id changes |
| EntityManager.RemoveEntityIdempotent | engine/managers/EntityManager.h:278-280 | removing an entity twice is the same as removing it once |
| EntityManager.RemoveThenCreateReuses | engine/managers/EntityManager.h:205-214 | the next creation after a removal reuses the removed id, which starts with no components |
| EntityManager.CreateThenRemove | engine/managers/EntityManager.h:199-302 | removing a freshly created entity restores the view of every id |
| EntityManager.AddThenRemove | engine/managers/EntityManager.h:97-133 | adding a component and then removing it restores the view of every id |
| EntityManager.CompsHandle | engine/managers/EntityManager.h:140-163 | under the invariant, a type is in an entity's view iff its table entry is a handle, and the value is the one stored under that handle |
| EntityManager.ReviveKeepsInv | engine/managers/EntityManager.h:205-214 | reviving the last freed id keeps the invariant, and the revived id starts with no components |
| EntityManager.GrowKeepsInv | engine/managers/EntityManager.h:215-230 | appending a new id keeps the invariant, and the new id starts with no components |
| EntityManager.AttachKeepsInv | engine/managers/EntityManager.h:104-108 | storing a component and recording its handle keeps the invariant, and adds exactly that component |
| EntityManager.OverwriteKeepsInv | engine/managers/EntityManager.h:153-163 | an in-place write through a held handle keeps the invariant and changes only that value |
| EntityManager.DetachKeepsInv | engine/managers/EntityManager.h:128-131 | freeing a handle and clearing its table entry keeps the invariant, and removes exactly that component |
| Components.NewMovement | engine/components/MovementComponent.h:27-31 | a new movement has the given velocity and the default max speed of 300 |
| Components.NewCollision | engine/components/CollisionComponent.h:60-72 | the offset is the box's corner; the current and previous boxes are the box; not yet initialised; all face flags false; standing-last true and wall-last false |
| Components.ClearCollisions | engine/components/CollisionComponent.h:75-81 | exactly the four face flags become false, and every other field is kept |
| Components.NewSpawn | engine/components/SpawnComponent.h:45-53 | a new spawner is due at once with a zero count, and carries its interval, type, sprite and quota |
| Components.NewTime | engine/components/TimeComponent.h:35-41 | a new timer is full and is running iff its duration is positive |
| Components.TypeId | src/main.cpp:58-62 | every registered component kind has an index below the registry size |
| Components.RegistryIndices | src/main.cpp:58-62 | the twelve-type registry has no repeats; the pack index of each kind is its type id, and the type at that index is the kind |
| World.VisitedIsLiveNonZero | engine/managers/EntityManager.h:219 | a slot is visited by the systems iff it is a live entity other than id 0 |
| World.ContactOf | engine/systems/GravitySystem.h:46-54 | an entity without a collision component has no contact on any side |
| World.Set | engine/managers/EntityManager.h:153-163 | replacing one typed component keeps well-formedness, and changes only that entity's view |
| World.Replace | engine/managers/EntityManager.h:153-163 | writing a whole component map of the same shape changes only that entity |
| World.ReplaceFrom | engine/managers/EntityManager.h:153-163 | the type-by-type write loop leaves the entity with the merge of old and new components |
| World.Remove | engine/managers/EntityManager.h:276-302 | removing a live entity makes it vacant and leaves every other id alone |
| World.AddTyped | engine/managers/EntityManager.h:97-109 | adding a typed component keeps well-formedness, and adds it to that entity only |
| World.AddFrom | engine/managers/EntityManager.h:97-109 | adding a whole component map type by type leaves the entity holding exactly that map |
| World.CreateWith | engine/managers/EntityManager.h:199-233 | creating an entity and adding its components yields a previously vacant id that now holds exactly that name and map |
| World.Merge | engine/managers/EntityManager.h:153-163 | merging new values over a component map keeps its key set |
| World.MergeEnds | engine/managers/EntityManager.h:153-163 | merging from index 0 gives the new map, and merging from K gives the old one |
| World.Below | engine/managers/EntityManager.h:97-109 | the restriction of a component map to indices below k |
| World.BelowAll | engine/managers/EntityManager.h:97-109 | a typed map restricted below K is the whole map |
| World.PassFrom | engine/systems/MovementSystem.h:29-43 | the loop from id e applies the rule to every visited slot from e on, and changes nothing else |
| World.Pass | engine/systems/MovementSystem.h:29-43 | a per-entity pass applies the rule to exactly the visited slots, and keeps well-formedness and every id's liveness and name |
| MathUtil.Trunc | engine/core/MathUtil.h:300 | float-to-int conversion truncates toward zero |
| MathUtil.TruncIntegral | engine/core/MathUtil.h:300 | truncating a whole number loses nothing |
| MathUtil.Add | engine/core/MathUtil.h:96 | point addition is undone by subtraction |
| MathUtil.Sub | engine/core/MathUtil.h:112 | point subtraction is undone by addition |
| MathUtil.AddScalar | engine/core/MathUtil.h:104 | adding a scalar adds it to both coordinates, and is undone by subtracting it |
| MathUtil.SubScalar | engine/core/MathUtil.h:120 | adding the scalar back to both coordinates restores the point |
| MathUtil.ScaleLaws | engine/core/MathUtil.h:128 | scaling is linear: 1 is the identity, 0 gives the origin, factors compose by multiplication, and it distributes over point sums and over sums of factors |
| MathUtil.MulIntLaws | engine/core/MathUtil.h:190-195 | multiplying by the int 1 is the identity, integer factors compose by multiplication, and the product distributes over point sums |
| MathUtil.DivInt | engine/core/MathUtil.h:203-210 | dividing by a nonzero int is undone by multiplying by it |
| MathUtil.ProductLaws | engine/core/MathUtil.h:226-234 | the member dot product is symmetric and non-negative on a vector with itself; the cross product is antisymmetric |
| MathUtil.StaticDot | engine/core/MathUtil.h:242 | corrected static Dot: equals the member dot product |
| MathUtil.StaticDotIsNotDot | engine/core/MathUtil.h:242 | the static Dot as written gives 0 for (1,0)·(1,0), where the dot product is 1 |
| MathUtil.StaticCross | engine/core/MathUtil.h:250-253 | the static Cross equals the member cross product |
| MathUtil.RectFromFloats | engine/core/MathUtil.h:311-316 | the corner is kept, and the width and height are the float extents truncated toward zero |
| MathUtil.RectFromFloatsExact | engine/core/MathUtil.h:311-316 | whole-number extents are stored exactly |
| MathUtil.RectFromPoints | engine/core/MathUtil.h:339-344 | the corner is the componentwise minimum, and the extents are the truncated absolute differences |
| MathUtil.RectAround | engine/core/MathUtil.h:352-357 | a square whose corner is the centre minus the radius; its side is the diameter truncated toward zero, for a negative radius as well |
| MathUtil.Union | engine/core/MathUtil.h:365-380 | the corner is the componentwise minimum; the far edges lie within one unit of the maximum, because of truncation |
| MathUtil.UnionContainsBoth | engine/core/MathUtil.h:365-380 | for proper rectangles with whole-number corners, the union contains both operands |
| MathUtil.UnionMayTruncate | engine/core/MathUtil.h:374-377 | off the grid, truncation can make the union miss an operand |
| MathUtil.UnionPoint | engine/core/MathUtil.h:388-404 | growing by a point: the corner is the minimum, and the far edges lie within one unit of the maximum |
| MathUtil.UnionPointContains | engine/core/MathUtil.h:388-404 | on the grid, the grown rectangle contains the point and the old rectangle |
| MathUtil.RectIntersectSymmetric | engine/core/MathUtil.h:441-457 | the intersection test is symmetric |
| MathUtil.EdgeContactIsNotIntersection | engine/core/MathUtil.h:451-452 | rectangles that only share an edge do not intersect |
| MathUtil.Intersect | engine/core/MathUtil.h:413-433 | leaves the rectangle unchanged when there is no intersection; otherwise, for operands of non-negative width and height, the result is proper and lies inside both operands |
| MathUtil.Inset | engine/core/MathUtil.h:465-475 | the corner moves in by d; width and height are each the old extent minus 2d truncated, never negative, and clamped to 0 when the inset exceeds them |
| MathUtil.IsInsideAlwaysFalse | engine/core/MathUtil.h:483-496 | as written, IsInside is false for every point whenever the height is non-negative |
| MathUtil.IsInsideCounterexample | engine/core/MathUtil.h:491 | the 10x10 rectangle at the origin does not contain (5,5) as written, but does under the corrected test |
| MathUtil.IsInsideMeansInterior | engine/core/MathUtil.h:483-496 | corrected IsInside holds iff the point is strictly inside, and is preserved by a containing rectangle |
| Collision.CalculateOverlap | engine/systems/CollisionSystem.h:35-54 | each overlap component is at most the corresponding extent of either box |
| Collision.OverlapMeansIntersect | engine/systems/CollisionSystem.h:35-54 | the overlap is symmetric; positive overlap on both axes implies intersection, and boxes of positive size that intersect have positive overlap |
| Collision.Opposite | engine/systems/CollisionSystem.h:105-124 | the complementary face is a different face |
| Collision.Mark | engine/systems/CollisionSystem.h:115-123 | setting a face flag keeps the box |
| Collision.MarkBody | engine/systems/CollisionSystem.h:115-123 | setting a face flag changes nothing but that flag |
| Collision.ShiftX | engine/systems/CollisionSystem.h:110-124 | position and box move together by d horizontally; the vertical placement and size are kept |
| Collision.ShiftY | engine/systems/CollisionSystem.h:153-167 | position and box move together by d vertically; the horizontal placement and size are kept |
| Collision.SetVX | engine/systems/CollisionSystem.h:126-147 | only the horizontal velocity changes |
| Collision.SetVY | engine/systems/CollisionSystem.h:178-191 | only the vertical velocity changes |
| Collision.ExchangeX | engine/systems/CollisionSystem.h:126-147 | only velocities change: two non-players swap vx, each damped by 0.7; a non-player against the player reverses its vx, damped, and the player is untouched; two players, or a body without movement, change nothing |
| Collision.ExchangeY | engine/systems/CollisionSystem.h:170-191 | only velocities change: two bodies without input swap vy, each damped by 0.7, and both stop sideways when both new vertical speeds are below 10, otherwise keep vx; a body with input, or without movement, changes nothing |
| Collision.DynamicH | engine/systems/CollisionSystem.h:105-147 | both bodies keep their shape, and complementary left/right flags are set by relative position |
| Collision.DynamicV | engine/systems/CollisionSystem.h:148-192 | both bodies keep their shape, and complementary top/bottom flags are set by relative position |
| Collision.DynamicSeparatesH | engine/systems/CollisionSystem.h:105-124 | the two bodies move by opposite amounts, and when one is left of the other they end up touching edge to edge without intersecting |
| Collision.DynamicSeparatesV | engine/systems/CollisionSystem.h:149-167 | the same holds vertically |
| Collision.DynamicExchange | engine/systems/CollisionSystem.h:126-147 | after a side-by-side separation two non-players hold each other's vx damped by 0.7 and their own vy, so the summed vx is scaled by 0.7; exchanging again returns each its own vx damped twice |
| Collision.PlayerExchange | engine/systems/CollisionSystem.h:138-146 | after a side-by-side separation a non-player meeting the player reverses its vx, damped, while the player's movement is untouched; two players keep theirs |
| Collision.DynamicExchangeV | engine/systems/CollisionSystem.h:169-191 | after a vertical separation two bodies without input swap vy, damped, and stop sideways exactly when both are slower than 10; with input on either, no velocity changes |
| Collision.WallBounce | engine/systems/CollisionSystem.h:226-253 | only the velocity changes: a non-player moving into the wall gets -0.7 vx, one moving away keeps vx, and vy is kept; the player gets vx 0 and vy capped at 150, and a horizontal shake iff it was not touching a wall last frame |
| Collision.FloorBounce | engine/systems/CollisionSystem.h:286-316 | only the velocity changes: moving into the surface, a non-player gets -0.7 vy and the player 0; moving away keeps vy; a non-player on top with a new vertical speed below 10 gets vx 0, every other case keeps vx; the player gets a vertical shake iff it was not standing last frame |
| Collision.StaticH | engine/systems/CollisionSystem.h:197-255 | both bodies keep their shape, and complementary left/right flags are set |
| Collision.StaticV | engine/systems/CollisionSystem.h:257-319 | both bodies keep their shape, and complementary top/bottom flags are set |
| Collision.StaticBodyStays | engine/systems/CollisionSystem.h:196-224 | the static body's position, velocity and box never change |
| Collision.StaticSeparates | engine/systems/CollisionSystem.h:196-284 | the dynamic body is pushed by the full overlap to the static body's edge, and no longer intersects it |
| Collision.NothingMovesIntoStatic | engine/systems/CollisionSystem.h:226-307 | after the push, the dynamic body's velocity does not point into the static one on the contact axis, and its speed on that axis never grows; a player on a wall gets vx 0 and vy capped at 150 |
| Collision.StaticBounce | engine/systems/CollisionSystem.h:226-307 | the velocity values after a static contact: -0.7 v on the contact axis for a non-player moving in, kept when moving away; a slow non-player landing stops sideways; a player at a wall gets vx 0 and vy capped at 150, and loses vy only when moving into a floor or ceiling |
| Collision.ShakeOnOnset | engine/systems/CollisionSystem.h:246-251 | a shake is requested iff a player with position and movement was not touching the wall (or not standing) in the previous frame; a wall shake is horizontal and a floor shake vertical |
| Collision.ContactSide | engine/systems/CollisionSystem.h:93 | the horizontal axis is chosen iff its overlap is strictly smaller (ties go vertical), and the face follows the relative position |
| Collision.Resolve | engine/systems/CollisionSystem.h:69-320 | both bodies keep their shape, and a dynamic pair never requests a shake |
| Collision.ResolveFlagsMutual | engine/systems/CollisionSystem.h:69-320 | apart from a dynamic pair lacking a position, which is left alone, the two bodies get complementary face flags on the chosen side |
| Collision.ResolveStaticStays | engine/systems/CollisionSystem.h:196-319 | a static body is never moved by resolution |
| Collision.ResolveShakesOnlyForPlayer | engine/systems/CollisionSystem.h:246-251 | only a dynamic player can cause a shake |
| CollisionSystem.SnapshotRule | engine/systems/CollisionSystemUpdate.h:37-40 | only the previous box changes: a dynamic box, or a static one not yet initialised, copies the current box; everything else stays |
| CollisionSystem.SnapshotRuleIdempotent | engine/systems/CollisionSystemUpdate.h:37-40 | snapshotting twice is snapshotting once |
| CollisionSystem.Snapshot | engine/systems/CollisionSystemUpdate.h:26-45 | the snapshot rule is applied to exactly the visited entities |
| CollisionSystem.SnapshotIdempotent | engine/systems/CollisionSystemUpdate.h:26-45 | the whole snapshot pass is idempotent |
| CollisionSystem.Placed | engine/systems/CollisionSystem.h:358 | the refreshed box sits at position plus offset, with the size kept |
| CollisionSystem.RefreshRule | engine/systems/CollisionSystem.h:345-367 | face flags are cleared; a box that tracks its entity and has a position is placed and marked initialised; the latched flags, offset and previous box are kept |
| CollisionSystem.RefreshRuleIdempotent | engine/systems/CollisionSystem.h:345-367 | refreshing twice is refreshing once |
| CollisionSystem.RefreshPlaces | engine/systems/CollisionSystem.h:345-367 | an entity with a position ends up initialised; an initialised static box never moves |
| CollisionSystem.Refresh | engine/systems/CollisionSystem.h:336-378 | the refresh rule is applied to exactly the visited entities, with liveness and names kept |
| CollisionSystem.CollidersFrom | engine/systems/CollisionSystem.h:340-378 | the ascending list of colliding entities from id e on |
| CollisionSystem.Colliders | engine/systems/CollisionSystem.h:340-378 | the ascending list holds exactly the visited entities with a collision component |
| CollisionSystem.LastBelow | engine/systems/CollisionSystem.h:336-377 | the last entity below e that plays the role, or 0 when none does |
| CollisionSystem.Find | engine/systems/CollisionSystem.h:336-377 | the last entity that plays the role (player or camera); 0 means that none does |
| CollisionSystem.BodyOf | engine/systems/CollisionSystem.h:70-103 | the body read from an entity carries its collision component, and its position and movement iff present |
| CollisionSystem.WriteBody | engine/systems/CollisionSystem.h:69-320 | writing a resolved body back changes only position, movement and collision, and reading it again gives the body |
| CollisionSystem.WriteBodyOf | engine/systems/CollisionSystem.h:69-320 | writing back an unchanged body is the identity |
| CollisionSystem.Resolution | engine/systems/CollisionSystem.h:424-428 | resolving a pair yields bodies that fit the entities' components |
| CollisionSystem.ResolvePair | engine/systems/CollisionSystem.h:424-428 | only the two entities change, each to its resolved body, and both stay within the pass's allowed changes |
| CollisionSystem.AddScore | engine/systems/CollisionSystem.h:404-410 | the player's score field rises by exactly 10; the rest of its ScoreComponent, its other components, its name and every other entity are unchanged; a player without a score is left alone |
| CollisionSystem.PickupEffect | engine/systems/CollisionSystem.h:404-421 | the star, and only the star, goes from live to vacant; the player's score rises by 10; a live player keeps its name and every component other than its score, position included; no other entity changes |
| CollisionSystem.ResolvePairEvolves | engine/systems/CollisionSystem.h:424-428 | resolving a pair removes no entity, and keeps every entity within the allowed changes |
| CollisionSystem.ResolvePairScores | engine/systems/CollisionSystem.h:424-428 | resolving a pair leaves the score unchanged |
| CollisionSystem.ResolutionShakes | engine/systems/CollisionSystem.h:246-251 | a shake arises only from a pair that includes the player |
| CollisionSystem.PairStep | engine/systems/CollisionSystem.h:387-428 | one pair either picks up a star, resolves the collision, or does nothing, and each keeps the pass's step property |
| CollisionSystem.PairStepLawful | engine/systems/CollisionSystem.h:387-428 | the per-pair step is defined on every well-formed world and pair of distinct ids, and keeps the step property |
| CollisionSystem.InnerUpTo | engine/systems/CollisionSystem.h:382-429 | the inner loop as a recursive fold: the step on (cols[i], cols[i+1]), ..., (cols[i], cols[j-1]) in order; the world stays well-formed |
| CollisionSystem.PairsUpTo | engine/systems/CollisionSystem.h:381-430 | the outer loop as a recursive fold: the inner loops of positions 0, ..., i-1 in order; the world stays well-formed |
| CollisionSystem.InnerProgress | engine/systems/CollisionSystem.h:382-429 | every prefix of the inner loop keeps the pass invariant (lives evolve as allowed, sparkles are exactly and without repeats the entities that vanished, 10 points per sparkle, shakes only from a colliding player, non-colliders untouched) |
| CollisionSystem.PairsProgress | engine/systems/CollisionSystem.h:381-430 | every prefix of the outer loop keeps the same pass invariant |
| CollisionSystem.Inner | engine/systems/CollisionSystem.h:382-429 | the while loop over j > i computes exactly the inner-loop fold |
| CollisionSystem.Outer | engine/systems/CollisionSystem.h:381-430 | the while loop over i computes exactly the outer-loop fold |
| CollisionSystem.Pairs | engine/systems/CollisionSystem.h:381-430 | the result is exactly the fold of the step over every pair i<j in the source's order, and it keeps the pass invariant: the sparkles are exactly, and without repeats, the entities that went from live to vacant; the score rises by 10 per sparkle; a shake requires the player to collide; non-colliders other than the player are untouched |
| CollisionSystem.Latched | engine/systems/CollisionSystem.h:433-437 | wall-last becomes left or right, and standing-last becomes bottom; nothing else changes |
| CollisionSystem.LatchedIdempotent | engine/systems/CollisionSystem.h:433-437 | latching twice is latching once |
| CollisionSystem.LatchIn | engine/systems/CollisionSystem.h:433-437 | latching touches only the collision component |
| CollisionSystem.Latch | engine/systems/CollisionSystem.h:433-437 | only the player's flags are latched, and only when the player is live with a collision component |
| CollisionSystem.Shaken | engine/systems/CollisionSystem.h:248-250 | a shake request sets the camera shake running with the requested direction, and changes nothing else |
| CollisionSystem.ApplyShake | engine/systems/CollisionSystem.h:311-313 | the last shake request reaches the camera, if any was made, and nothing else changes |
| CollisionSystem.RefreshKeepsRoles | engine/systems/CollisionSystem.h:336-378 | the refresh changes neither the set of colliders nor the player and camera found |
| CollisionSystem.RefreshKeepsScore | engine/systems/CollisionSystem.h:345-367 | the refresh keeps every score |
| CollisionSystem.AroundPairs | engine/systems/CollisionSystem.h:332-438 | whatever the pair loop did within the pass invariant, the refresh, shake and latch around it create and rename no entity, keep the 10 points per star, and leave non-colliders other than the player and camera untouched |
| CollisionSystem.Collide | engine/systems/CollisionSystem.h:332-438 | the whole collision system: the world, sparkles and shakes are exactly the refresh, then the pair-loop fold with PairStep, then the shake and the latch; no entity is created or renamed; the sparkles are exactly the stars removed, none of which is the player; the score rises by 10 per star; a shake needs a colliding player; an entity that neither collides nor plays the player or camera is untouched |
| MovementSystem.Moved | engine/systems/MovementSystem.h:40-41 | the position moves by exactly velocity times dt |
| MovementSystem.MovedComposes | engine/systems/MovementSystem.h:40-41 | moving by a then by b is moving by a+b; dt 0 is the identity, and moving by -a undoes moving by a |
| MovementSystem.MoveRule | engine/systems/MovementSystem.h:31-41 | only the location of an entity with both location and movement changes; velocity is never touched |
| MovementSystem.MoveSlotComposes | engine/systems/MovementSystem.h:31-41 | per entity, two moves compose and dt 0 is the identity |
| MovementSystem.Movement | engine/systems/MovementSystem.h:26-43 | the move rule is applied to exactly the visited entities |
| MovementSystem.MovementComposes | engine/systems/MovementSystem.h:26-43 | two movement passes equal one pass with the summed dt, and a pass with dt 0 changes nothing |
| GravitySystem.Pull | engine/systems/GravitySystem.h:20-21 | gravity is 980·dt, scaled to 0.3 while wall sliding |
| GravitySystem.GravityRule | engine/systems/GravitySystem.h:40-75 | an entity without movement, or one standing on something, is unchanged; otherwise only vy grows, by the pull |
| GravitySystem.GravityPullsDown | engine/systems/GravitySystem.h:57-75 | vy never decreases and vx is kept; with dt>0 it is unchanged iff grounded, and grows by less than the full pull iff wall sliding |
| GravitySystem.Gravity | engine/systems/GravitySystem.h:34-77 | the gravity rule is applied to exactly the visited entities |
| InputSystem.Direction | engine/systems/InputSystem.h:80-86 | the horizontal intent is -1 for A alone, +1 for D alone, and 0 for both or neither |
| InputSystem.Accelerate | engine/systems/InputSystem.h:88-107 | the speed stays within max speed; vx moves toward the target by at most accel·dt, without overshooting |
| InputSystem.Decelerate | engine/systems/InputSystem.h:108-116 | vx moves toward 0 by decel·dt or stops at 0, and never changes sign |
| InputSystem.JumpOf | engine/systems/InputSystem.h:119-140 | a jump needs W or Space; it is a ground jump iff grounded, and a wall jump needs falling while pushing into a wall |
| InputSystem.Steer | engine/systems/InputSystem.h:56-145 | the max speed is kept |
| InputSystem.SteerJumps | engine/systems/InputSystem.h:124-145 | a ground jump sets vy -400; a wall jump sets vy -350 and vx ±250 away from the wall; S adds exactly 200 after the jump rule |
| InputSystem.SteerKeepsSpeedLimit | engine/systems/InputSystem.h:88-116 | without a wall jump, \|vx\| stays within max speed |
| InputSystem.SteerIdle | engine/systems/InputSystem.h:108-116 | with no keys, \|vx\| does not grow and vy is kept |
| InputSystem.InputRule | engine/systems/InputSystem.h:56-145 | only movement and the standing flag change for a steered entity: its movement is steered, and standing-last is cleared when falling |
| InputSystem.JumpersFrom | engine/systems/InputSystem.h:124-140 | the ascending list of visited entities from e on that jump |
| InputSystem.Input | engine/systems/InputSystem.h:40-147 | the input rule is applied to exactly the visited entities; the jump sounds are exactly, in ascending order, the entities that jumped |
| TimeSystem.Tick | engine/systems/TimeSystem.h:38-56 | a stopped timer is unchanged; a running one counts down by dt, and on reaching 0 refills to the full duration and keeps running iff it restarts |
| TimeSystem.TickKeepsCharged | engine/systems/TimeSystem.h:43-56 | with a positive duration and dt>=0, a running timer keeps 0 < remaining <= duration |
| TimeSystem.TickStops | engine/systems/TimeSystem.h:46-55 | a one-shot timer stops iff dt reaches the remaining time; a restarting timer never stops; a stopped timer stays put |
| TimeSystem.CountDown | engine/systems/TimeSystem.h:43 | n ticks before expiry take exactly n·dt off a fresh timer |
| TimeSystem.TimeRule | engine/systems/TimeSystem.h:38-56 | only the time component changes, by one tick |
| TimeSystem.TimeStep | engine/systems/TimeSystem.h:28-58 | the time rule is applied to exactly the visited entities |
| SpawnSystem.Countdown | engine/systems/SpawnSystem.h:56-62 | the spawner's identity, interval and quota are kept |
| SpawnSystem.CountdownTimer | engine/systems/SpawnSystem.h:56-62 | when the spawner fires the timer resets to the interval, otherwise it drops by dt; the count rises by one iff it fires |
| SpawnSystem.NoSpawnWhileWaiting | engine/systems/SpawnSystem.h:59 | no spawn happens while time remains |
| SpawnSystem.CountdownKeepsQuota | engine/systems/SpawnSystem.h:61-62 | a bounded spawner never exceeds its quota, and at the quota its count stays put |
| SpawnSystem.QuotaOverFrames | engine/systems/SpawnSystem.h:61-62 | over any number of frames the quota holds, and the count grows by at most one per frame |
| SpawnSystem.Footprint | engine/systems/SpawnSystem.h:84-98 | the spawned sprite rectangle sits on the entity's bottom-left corner, with the sprite's size |
| SpawnSystem.Offspring | engine/systems/SpawnSystem.h:72-101 | a spawned entity holds exactly location at the spawner's position, movement with max speed 50, a live world-space sprite, and a dynamic collision box equal to the sprite rectangle |
| SpawnSystem.SpawnerAtIsGuard | engine/systems/SpawnSystem.h:49-51 | a spawner is a visited entity with a spawn component |
| SpawnSystem.Counted | engine/systems/SpawnSystem.h:56-62 | only the spawn component changes, by one countdown |
| SpawnSystem.VisitSpawner | engine/systems/SpawnSystem.h:49-106 | the spawner counts down, and a child is created iff it fires; nothing else changes |
| SpawnSystem.Spawns | engine/systems/SpawnSystem.h:37-108 | the firing spawners are exactly, in ascending order, the visited spawners whose timer and quota allow it; each gets one child of the prescribed shape, and the children are pairwise distinct fresh entities; every spawner counts down; other entities are kept |
| ScoreSystem.Shown | engine/systems/ScoreSystem.h:44 | the displayed value is the score capped at 999 |
| ScoreSystem.DigitSeq | engine/systems/ScoreSystem.h:44-51 | display i shows digit i of the value, most significant first |
| ScoreSystem.DigitsInRange | engine/systems/ScoreSystem.h:66-71 | for a non-negative value every digit lies in 0..9 |
| ScoreSystem.DigitsRebuild | engine/systems/ScoreSystem.h:45-51 | the n digits, read as a decimal number, give back the value modulo 10^n (leading zeros included) |
| ScoreSystem.ThreeDisplaysShowScore | engine/systems/ScoreSystem.h:44-51 | three displays show exactly the capped score |
| ScoreSystem.QuotRem | engine/systems/ScoreSystem.h:46-47 | the C++ truncating division and remainder agree with Dafny's on non-negative values, and satisfy the division identity |
| ScoreSystem.ExtractDigits | engine/systems/ScoreSystem.h:44-51 | the extracted digit list is the digit sequence of the capped score |
| ScoreSystem.FirstScorer | engine/systems/ScoreSystem.h:29-37 | the lowest visited entity with a score component and a non-empty display list, or none |
| ScoreSystem.WithSprite | engine/systems/ScoreSystem.h:66-71 | a display gets the given sprite id, and nothing else changes |
| ScoreSystem.WithSpriteTwice | engine/systems/ScoreSystem.h:66-71 | the later sprite write wins |
| ScoreSystem.SetSprite | engine/systems/ScoreSystem.h:66-71 | only that display entity changes |
| ScoreSystem.ScoreStep | engine/systems/ScoreSystem.h:26-77 | with no scorer nothing changes; otherwise each display entity ends as written by the last loop iteration naming it. The precondition DigitsFit is the source's assert that each shown digit lies in 0..9, because the ten digit sprites make that the bound of the sprite lookup |
| ScoreSystem.ScoreStepShows | engine/systems/ScoreSystem.h:53-72 | entities outside the display list, or without a sprite, are unchanged; display i, when it is the last mention of its entity, shows the sprite of digit i of the capped score |
| ScoreSystem.NonNegativeFits | engine/systems/ScoreSystem.h:66-71 | a non-negative score with enough digit sprites satisfies the digit precondition |
| Window.Create | engine/managers/WindowManager.cpp:12-27 | a new window looks at the world origin at scale 1, so the origin shows at the window centre |
| Window.RoundTripX | engine/managers/WindowManager.cpp:78-92 | the horizontal conversions are inverse to each other for a positive scale |
| Window.RoundTripY | engine/managers/WindowManager.cpp:94-108 | the vertical conversions are inverse to each other for a positive scale |
| Window.RoundTrip | engine/managers/WindowManager.cpp:128-136 | the point conversions are inverse to each other |
| Window.WorldToWindowAffine | engine/managers/WindowManager.cpp:86-108 | the camera centre shows at the window centre, and world distances appear divided by the scale |
| Window.SetCamera | engine/managers/WindowManager.cpp:41-61 | afterwards the world point shows at the given pixel; size and scale are kept |
| Window.SetCameraUnique | engine/managers/WindowManager.cpp:41-61 | that camera is the only one of the same size and scale that does so |
| Window.CenterOn | engine/managers/WindowManager.cpp:65-68 | afterwards the world point shows at the window centre |
| Window.CenterOnIsSetCamera | engine/managers/WindowManager.cpp:65-68 | centring on a point is SetCamera with the window centre as the pixel |
| Window.SetWorldScale | engine/managers/WindowManager.cpp:70-74 | requires a positive scale; sets it, and keeps the camera centre at the window centre |
| Window.WindowToWorldRect | engine/managers/WindowManager.cpp:110-117 | the corner is converted as a point; width and height are each the scaled extent truncated, and stay non-negative |
| Window.WorldToWindowRect | engine/managers/WindowManager.cpp:119-126 | the corner is converted as a point; width and height are each the extent divided by the scale, truncated, and stay non-negative |
| Window.RectRoundTrip | engine/managers/WindowManager.cpp:110-126 | there and back, a rectangle keeps its corner and can only shrink |
| Window.RectRoundTripExact | engine/managers/WindowManager.cpp:110-126 | when the scaled sizes are whole numbers, the round trip is exact |
| MapLoader.DefOf | src/MapLoader.h:151-167 | a definition keeps its symbol, texture and sprite rectangle, and has collision iff it is not from dictionary 1 |
| MapLoader.MapLineIndex | src/MapLoader.h:139-145 | the first line starting with "map origin" at or after k, or the end |
| MapLoader.LastDef | src/MapLoader.h:151-167 | the last definition line for a symbol before n |
| MapLoader.Defs | src/MapLoader.h:151-167 | the dictionary defines exactly the symbols with a definition line, each by its last one |
| MapLoader.DefsKeepLast | src/MapLoader.h:167 | a definition not followed by another for the same symbol is the one that counts |
| MapLoader.GridLines | src/MapLoader.h:186-191 | the grid is the non-empty lines after the metadata, in order |
| MapLoader.RowCells | src/MapLoader.h:197-198 | the cells of one row within both the declared width and the text, in column order |
| MapLoader.GridCells | src/MapLoader.h:194-198 | the cells within both the declared size and the text, in row-major order |
| MapLoader.Tiles | src/MapLoader.h:200-211 | exactly the cells that are neither '.' nor space and have a definition, in order |
| MapLoader.NatToString | src/MapLoader.h:220-221 | a non-empty string of decimal digits |
| MapLoader.NatToStringRoundTrip | src/MapLoader.h:220-221 | parsing the decimal text gives the number back |
| MapLoader.SplitAtUnderscore | src/MapLoader.h:220-221 | a digit string followed by '_' splits back into its parts |
| MapLoader.TileNamesDistinct | src/MapLoader.h:220-221 | two cells with the same entity name are the same cell |
| MapLoader.TileBox | src/MapLoader.h:239-247 | the collision box is the definition's box, shifted up by the tile height |
| MapLoader.TileComps | src/MapLoader.h:216-247 | a tile holds a location at (originX + col·tileW, originY + (row+1)·tileH) and a live sprite of the tile's size; it holds a static collision box iff the definition has collision and the symbol is collidable |
| MapLoader.GetEntities | src/MapLoader.h:52-59 | an unknown symbol has no entities |
| MapLoader.AddEntity | src/MapLoader.h:66-68 | the id is appended to that symbol's list only |
| MapLoader.IdsForMembers | src/MapLoader.h:250 | the ids recorded for a symbol are exactly those of its tiles |
| MapLoader.PlaceOne | src/MapLoader.h:214-250 | one tile creates a previously vacant entity with its name and components, registers its sprite and records its id; nothing else changes |
| MapLoader.PlaceTilesPlaced | src/MapLoader.h:194-252 | after n tiles, each has its own entity that was vacant before, holding what the loop body gave it; nothing else changed; textures are registered in tile order; the layer lists each symbol's ids in order |
| MapLoader.TileStep | src/MapLoader.h:214-250 | one more tile keeps that invariant |
| MapLoader.Parse | src/MapLoader.h:128-191 | a plan exists only for a valid dictionary header and valid metadata; its definitions have collision iff the file is dictionary 2 |
| MapLoader.LoadMapLayer | src/MapLoader.h:99-259 | a file that cannot be opened or parsed changes nothing; otherwise every tile is placed and the layer lists each symbol's ids |
| MapLoader.RejectedFiles | src/MapLoader.h:131-134 | a bad dictionary header, a missing map line or bad metadata yields empty layer data and an unchanged world |
| MapLoader.TileCells | src/MapLoader.h:194-211 | a cell is a tile iff it lies within both the declared size and the text, is not '.' or space, and has a definition |
| MapLoader.TileEntities | src/MapLoader.h:216-247 | each tile's entity was vacant and now has the tile's name, position, sprite and collision |
| MapLoader.TileSlotShape | src/MapLoader.h:216-247 | the placed entity has the prescribed shape |
| MapLoader.BackgroundHasNoCollision | src/MapLoader.h:151-156 | no entity created from a dictionary-1 file has a collision component |
| MapLoader.LayerLists | src/MapLoader.h:52-59 | an id is listed under a symbol iff it was created for a tile with that symbol; a symbol with no tiles has an empty list |
| MapLoader.LoadOnlyCreates | src/MapLoader.h:222-247 | loading never changes an entity that existed before |
| MapLoader.LaterDefinitionWins | src/MapLoader.h:151-167 | the last definition of a symbol is the one used |

## Left out

- Rendering, windowing, events and audio (SpriteSystem, ProcessEvents, SpriteManager, SoundManager, the WindowManager constructor's SFML window, the engine's run loop): these are foreign I/O. A jump sound is the id in `InputSystem.Input`'s output. A star's sparkle and a camera shake are outputs of `CollisionSystem.Collide`.
- CameraSystem: its shake offset uses sine and cosine, and its dead zone needs the live window size.
- The trigonometric and square-root helpers of MathUtil (`Distance`, `FindAngleBetween`, `RotatePointAround`, `Normalize`, `Line`): these are transcendental floating-point numerics.
- Member `Point2D::Dot` and `Point2D::Cross` are plain definitions: their laws are stated in `MathUtil.ProductLaws`.
- IEEE float rounding: coordinates are `real`. The source's `0.7f` is 7/10, and the other float constants are used exactly as written.
- Random spawn velocities and the sprite size looked up by SpawnSystem are function parameters of `SpawnSystem.Spawns`.
- `SpawnComponent`'s four-argument constructor leaves `maxSpawns` uninitialised. The main program sets it afterwards, so `Components.NewSpawn` takes the quota as a parameter.
- SpawnSystem.Spawns: visits the ids that exist at the start of the pass, rather than the source's invalidated range-for iterator.
- File I/O and token parsing in the map loader: the file arrives as an optional, pre-split header line followed by typed lines, and `None` stands for a file that cannot be opened.
- MapLoader.LoadMapLayer: the texture cache of the sprite manager is not modelled. The i-th tile's sprite id is `firstSprite + i`, and the registration (path and rectangle) is recorded in `registrations`.
- MapLoader.Parse: a file with no "map origin" line is rejected. The source would then parse the last line it read as metadata, which is either a dictionary line or empty, and that fails the keyword check in the same way.
- CollisionSystem.Collide: shake requests are applied to the camera after the pair loop; the source writes them during it. A camera without a CameraShake component is skipped.
- CollisionSystem.AddScore: a player without a score component is skipped and its pickup removes the star without scoring. The source reads the player's ScoreComponent, and the star's SpriteComponent, without a check. The game's player always carries a score.
- CollisionSystem.PickupEffect: the star's sprite is marked dead before the star is removed, and removal resets the slot, so that write is not observable in the model.
- InputSystem.Input: requires every steered entity to hold an acceleration component, because the source reads it without a check.
- EntityManager: the property "each storage's size equals the number of live entities holding that type" is implied by the invariant but not stated as a cardinality. The invariant says that every table handle is live, that no two entities share a handle, and that every live slot is owned; together these make the handles a bijection.
- C++ template mechanics (the fold-expression dispatch and the perfect-forwarding overloads): these become index dispatch on a tagged union. The two `store` overloads are one function.
- Bootstrap code (the main program, the player and score loaders) and the plain data components: these appear only as record datatypes and the type registry.

## Findings

| source | as written | input that shows it | evidently intended | confidence | as-written member | corrected member |
|---|---|---|---|---|---|---|
| engine/core/MathUtil.h:483-496 | the vertical test rejects every y that is at most top + height or at least top; when height >= 0 that covers every y | the 10x10 rectangle at (0,0) and the point (5,5) | a point is inside iff it lies strictly between left and right and between top and bottom | not executed | MathUtil.IsInsideCounterexample | MathUtil.IsInsideMeansInterior |
| engine/core/MathUtil.h:242 | the static Dot computes a.x·b.y + a.y·b.x | (1,0)·(1,0) gives 0 | the dot product a.x·b.x + a.y·b.y, as the member Dot computes | not executed | MathUtil.StaticDotIsNotDot | MathUtil.StaticDot |

=== FILE: collision.dfy ===
/** The geometry of one colliding pair: the penetration depths of two
    bounding boxes, and ResolveCollision, which pushes the pair apart along
    the axis of smaller penetration, sets the contact flags, bounces or stops
    the velocities and reports a camera shake for the player. */
module Collision {
  import opened MathUtil
  import opened Components
  import opened Wrappers

  /** Penetration depth on each axis. */
  datatype Overlap = Overlap(horizontal: real, vertical: real)

  /** CalculateOverlap: the extent of the boxes' intersection on each axis,
      zero or negative when they are apart on that axis. It never exceeds
      either box's own extent. */
  function CalculateOverlap(a: Rect, b: Rect): (o: Overlap)
    ensures o.horizontal <= Right(a) - Left(a) && o.horizontal <= Right(b) - Left(b)
    ensures o.vertical <= Bottom(a) - Top(a) && o.vertical <= Bottom(b) - Top(b)
  {
    Overlap(Min(Right(a), Right(b)) - Max(Left(a), Left(b)), Min(Bottom(a), Bottom(b)) - Max(Top(a), Top(b)))
  }

  /** Boxes of positive size intersect exactly when they overlap on both
      axes, and the overlap does not depend on the order of the boxes. */
  lemma OverlapMeansIntersect(a: Rect, b: Rect)
    ensures CalculateOverlap(a, b).horizontal > 0.0 && CalculateOverlap(a, b).vertical > 0.0 ==> RectIntersect(a, b)
    ensures RectIntersect(a, b) && a.width > 0 && a.height > 0 && b.width > 0 && b.height > 0 ==>
      CalculateOverlap(a, b).horizontal > 0.0 && CalculateOverlap(a, b).vertical > 0.0
    ensures CalculateOverlap(a, b) == CalculateOverlap(b, a)
  {
  }

  // ---------------------------------------------------------------------------
  // Contact flags

  /** The side of a body at which it touched something. */
  datatype Side = OnTop | OnBottom | OnLeft | OnRight

  function Opposite(s: Side): (o: Side)
    ensures o != s
  {
    match s
    case OnTop => OnBottom
    case OnBottom => OnTop
    case OnLeft => OnRight
    case OnRight => OnLeft
  }

  /** Raises the flag of one side. */
  function Mark(c: Collision, s: Side): (r: Collision)
    ensures r.currentBoundingBox == c.currentBoundingBox
  {
    match s
    case OnTop => c.(collidedTop := true)
    case OnBottom => c.(collidedBottom := true)
    case OnLeft => c.(collidedLeft := true)
    case OnRight => c.(collidedRight := true)
  }

  /** `after` is `before` with at most its box moved and the flag of side
      `s` raised. */
  predicate Touch(before: Collision, after: Collision, s: Side)
  {
    after == Mark(before.(currentBoundingBox := after.currentBoundingBox), s)
  }

  // ---------------------------------------------------------------------------
  // Bodies

  /** What ResolveCollision reads and writes of one entity: its collision
      component, its location and movement if it has them, whether it is the
      player (the last entity with an input component), and whether it has
      an input component at all. */
  datatype Body = Body(col: Collision, loc: Option<Location>, mv: Option<Movement>, isPlayer: bool, hasInput: bool)

  function Box(b: Body): Rect
  {
    b.col.currentBoundingBox
  }

  function MarkBody(b: Body, s: Side): (r: Body)
    ensures FrameOf(r) == FrameOf(b) && Box(r) == Box(b) && r.loc == b.loc && r.mv == b.mv
    ensures Touch(b.col, r.col, s)
  {
    MarkKeepsFrame(b, s);
    b.(col := Mark(b.col, s))
  }

  lemma MarkKeepsFrame(b: Body, s: Side)
    ensures FrameOf(b.(col := Mark(b.col, s))) == FrameOf(b)
  {
  }

  /** Moves the location and the box together along x. */
  function ShiftX(b: Body, d: real): (r: Body)
    ensures Left(Box(r)) == Left(Box(b)) + d && Right(Box(r)) == Right(Box(b)) + d
    ensures Top(Box(r)) == Top(Box(b)) && Box(r).height == Box(b).height
    ensures FrameOf(r) == FrameOf(b) && r.mv == b.mv
    ensures r.col == b.col.(currentBoundingBox := Box(r))
  {
    var p := Box(b).topLeft;
    b.(loc := if b.loc.Some? then Some(Location(Point(b.loc.value.position.x + d, b.loc.value.position.y))) else None,
       col := b.col.(currentBoundingBox := Box(b).(topLeft := Point(p.x + d, p.y))))
  }

  /** Moves the location and the box together along y. */
  function ShiftY(b: Body, d: real): (r: Body)
    ensures Top(Box(r)) == Top(Box(b)) + d && Bottom(Box(r)) == Bottom(Box(b)) + d
    ensures Left(Box(r)) == Left(Box(b)) && Box(r).width == Box(b).width
    ensures FrameOf(r) == FrameOf(b) && r.mv == b.mv
    ensures r.col == b.col.(currentBoundingBox := Box(r))
  {
    var p := Box(b).topLeft;
    b.(loc := if b.loc.Some? then Some(Location(Point(b.loc.value.position.x, b.loc.value.position.y + d))) else None,
       col := b.col.(currentBoundingBox := Box(b).(topLeft := Point(p.x, p.y + d))))
  }

  function VX(b: Body): real
    requires b.mv.Some?
  {
    b.mv.value.velocity.x
  }

  function VY(b: Body): real
    requires b.mv.Some?
  {
    b.mv.value.velocity.y
  }

  function SetVX(b: Body, vx: real): (r: Body)
    requires b.mv.Some?
    ensures r.mv.Some? && VX(r) == vx && VY(r) == VY(b)
    ensures FrameOf(r) == FrameOf(b) && r.col == b.col && r.loc == b.loc
  {
    b.(mv := Some(b.mv.value.(velocity := Point(vx, VY(b)))))
  }

  function SetVY(b: Body, vy: real): (r: Body)
    requires b.mv.Some?
    ensures r.mv.Some? && VY(r) == vy && VX(r) == VX(b)
    ensures FrameOf(r) == FrameOf(b) && r.col == b.col && r.loc == b.loc
  {
    b.(mv := Some(b.mv.value.(velocity := Point(VX(b), vy))))
  }

  /** What resolution leaves alone in a body: which components it has, its
      speed limit, who it is, and all of its collision component except the
      contact flags and the position of the box. */
  datatype Frame = Frame(hasLoc: bool, hasMv: bool, maxSpeed: real, isPlayer: bool, hasInput: bool, col: Collision)

  function FrameOf(b: Body): Frame
  {
    var box := Box(b);
    Frame(b.loc.Some?, b.mv.Some?, if b.mv.Some? then b.mv.value.maxSpeed else 0.0, b.isPlayer, b.hasInput,
      b.col.(collidedTop := false, collidedBottom := false, collidedLeft := false, collidedRight := false,
             currentBoundingBox := box.(topLeft := Point(0.0, 0.0))))
  }

  predicate SameShape(b: Body, r: Body)
  {
    FrameOf(r) == FrameOf(b)
  }

  const BOUNCE_DAMPING: real := 0.7

  /** A body on the far side of a contact (to the right of it, or below it)
      moves into it with a negative velocity on that axis; a body on the near
      side, with a positive one. */
  predicate MovingInto(v: real, farSide: bool)
  {
    (farSide && v < 0.0) || (!farSide && v > 0.0)
  }

  // ---------------------------------------------------------------------------
  // Two dynamic bodies

  /** A change of velocity only. */
  predicate OnlyVelocity(b: Body, r: Body)
  {
    r.col == b.col && r.loc == b.loc && FrameOf(r) == FrameOf(b)
  }

  /** Horizontal velocities after two dynamic bodies met side by side: two
      non-players exchange theirs, damped; a non-player meeting the player
      bounces back, damped; the player keeps its own. */
  function ExchangeX(c1: Body, c2: Body): (r: (Body, Body))
    ensures OnlyVelocity(c1, r.0) && OnlyVelocity(c2, r.1)
    ensures r.0.mv.Some? == c1.mv.Some? && r.1.mv.Some? == c2.mv.Some?
    ensures c1.mv.Some? && c2.mv.Some? && !c1.isPlayer && !c2.isPlayer ==>
      && VX(r.0) == BOUNCE_DAMPING * VX(c2) && VY(r.0) == VY(c1)
      && VX(r.1) == BOUNCE_DAMPING * VX(c1) && VY(r.1) == VY(c2)
    ensures c1.mv.Some? && c2.mv.Some? && !c1.isPlayer && c2.isPlayer ==>
      VX(r.0) == -BOUNCE_DAMPING * VX(c1) && VY(r.0) == VY(c1) && r.1 == c2
    ensures c1.mv.Some? && c2.mv.Some? && c1.isPlayer && !c2.isPlayer ==>
      r.0 == c1 && VX(r.1) == -BOUNCE_DAMPING * VX(c2) && VY(r.1) == VY(c2)
    ensures c1.isPlayer && c2.isPlayer ==> r == (c1, c2)
    ensures c1.mv.None? || c2.mv.None? ==> r == (c1, c2)
  {
    if c1.mv.Some? && c2.mv.Some? then
      if !c1.isPlayer && !c2.isPlayer then (SetVX(c1, VX(c2) * BOUNCE_DAMPING), SetVX(c2, VX(c1) * BOUNCE_DAMPING))
      else if !c1.isPlayer && c2.isPlayer then (SetVX(c1, -VX(c1) * BOUNCE_DAMPING), c2)
      else if c1.isPlayer && !c2.isPlayer then (c1, SetVX(c2, -VX(c2) * BOUNCE_DAMPING))
      else (c1, c2)
    else (c1, c2)
  }

  /** Vertical velocities after two dynamic bodies met one above the other:
      two bodies without input exchange theirs, damped, and both stop
      sideways once both are slower than 10. */
  function ExchangeY(c1: Body, c2: Body): (r: (Body, Body))
    ensures OnlyVelocity(c1, r.0) && OnlyVelocity(c2, r.1)
    ensures r.0.mv.Some? == c1.mv.Some? && r.1.mv.Some? == c2.mv.Some?
    ensures c1.mv.Some? && c2.mv.Some? && !c1.hasInput && !c2.hasInput ==>
      && VY(r.0) == BOUNCE_DAMPING * VY(c2) && VY(r.1) == BOUNCE_DAMPING * VY(c1)
      && (Abs(VY(r.0)) < 10.0 && Abs(VY(r.1)) < 10.0 ==> VX(r.0) == 0.0 && VX(r.1) == 0.0)
      && (!(Abs(VY(r.0)) < 10.0 && Abs(VY(r.1)) < 10.0) ==> VX(r.0) == VX(c1) && VX(r.1) == VX(c2))
    ensures c1.mv.None? || c2.mv.None? || c1.hasInput || c2.hasInput ==> r == (c1, c2)
  {
    if c1.mv.Some? && c2.mv.Some? && !c1.hasInput && !c2.hasInput then
      var v1 := VY(c2) * BOUNCE_DAMPING;
      var v2 := VY(c1) * BOUNCE_DAMPING;
      var e1 := SetVY(c1, v1);
      var e2 := SetVY(c2, v2);
      if Abs(v1) < 10.0 && Abs(v2) < 10.0 then (SetVX(e1, 0.0), SetVX(e2, 0.0)) else (e1, e2)
    else (c1, c2)
  }

  /** Horizontal separation of two dynamic bodies: each moves half the
      overlap away from the other, then the velocities are exchanged. */
  function DynamicH(b1: Body, b2: Body, ov: Overlap): (r: (Body, Body))
    ensures SameShape(b1, r.0) && SameShape(b2, r.1)
    ensures var s := if Left(Box(b1)) < Left(Box(b2)) then OnRight else OnLeft;
      Touch(b1.col, r.0.col, s) && Touch(b2.col, r.1.col, Opposite(s))
  {
    var half := ov.horizontal / 2.0;
    var left1 := Left(Box(b1)) < Left(Box(b2));
    var d := if left1 then -half else half;
    var c1 := MarkBody(ShiftX(b1, d), if left1 then OnRight else OnLeft);
    var c2 := MarkBody(ShiftX(b2, -d), if left1 then OnLeft else OnRight);
    ExchangeX(c1, c2)
  }

  /** Vertical separation of two dynamic bodies: each moves half the overlap
      away from the other, then the velocities are exchanged. */
  function DynamicV(b1: Body, b2: Body, ov: Overlap): (r: (Body, Body))
    ensures SameShape(b1, r.0) && SameShape(b2, r.1)
    ensures var s := if Top(Box(b1)) < Top(Box(b2)) then OnBottom else OnTop;
      Touch(b1.col, r.0.col, s) && Touch(b2.col, r.1.col, Opposite(s))
  {
    var half := ov.vertical / 2.0;
    var above1 := Top(Box(b1)) < Top(Box(b2));
    var d := if above1 then -half else half;
    var c1 := MarkBody(ShiftY(b1, d), if above1 then OnBottom else OnTop);
    var c2 := MarkBody(ShiftY(b2, -d), if above1 then OnTop else OnBottom);
    ExchangeY(c1, c2)
  }

  /** Two dynamic bodies whose boxes overlap without one sticking out past
      the other end up exactly touching: the push is split evenly, and
      afterwards the boxes no longer intersect. */
  lemma DynamicSeparatesH(b1: Body, b2: Body)
    requires Proper(Box(b1)) && Proper(Box(b2))
    ensures var ov := CalculateOverlap(Box(b1), Box(b2)); var r := DynamicH(b1, b2, ov);
      && Left(Box(r.0)) - Left(Box(b1)) == -(Left(Box(r.1)) - Left(Box(b2)))
      && (Left(Box(b1)) < Left(Box(b2)) && Right(Box(b1)) <= Right(Box(b2)) ==>
            Right(Box(r.0)) == Left(Box(r.1)) && !RectIntersect(Box(r.0), Box(r.1)))
  {
    var ov := CalculateOverlap(Box(b1), Box(b2));
    var r := DynamicH(b1, b2, ov);
    if Left(Box(b1)) < Left(Box(b2)) && Right(Box(b1)) <= Right(Box(b2)) {
      assert ov.horizontal == Right(Box(b1)) - Left(Box(b2));
      EdgeContactIsNotIntersection(Box(r.0), Box(r.1));
    }
  }

  lemma DynamicSeparatesV(b1: Body, b2: Body)
    requires Proper(Box(b1)) && Proper(Box(b2))
    ensures var ov := CalculateOverlap(Box(b1), Box(b2)); var r := DynamicV(b1, b2, ov);
      && Top(Box(r.0)) - Top(Box(b1)) == -(Top(Box(r.1)) - Top(Box(b2)))
      && (Top(Box(b1)) < Top(Box(b2)) && Bottom(Box(b1)) <= Bottom(Box(b2)) ==>
            Bottom(Box(r.0)) == Top(Box(r.1)) && !RectIntersect(Box(r.0), Box(r.1)))
  {
    var ov := CalculateOverlap(Box(b1), Box(b2));
    var r := DynamicV(b1, b2, ov);
    if Top(Box(b1)) < Top(Box(b2)) && Bottom(Box(b1)) <= Bottom(Box(b2)) {
      assert ov.vertical == Bottom(Box(b1)) - Top(Box(b2));
      EdgeContactIsNotIntersection(Box(r.0), Box(r.1));
    }
  }

  /** Two non-players meeting side by side swap their horizontal
      velocities, each damped, and keep their vertical ones; so their
      combined horizontal velocity is scaled by the damping factor, and a
      second exchange gives each body back its own velocity, damped twice. */
  lemma DynamicExchange(b1: Body, b2: Body, ov: Overlap)
    requires b1.mv.Some? && b2.mv.Some? && !b1.isPlayer && !b2.isPlayer
    ensures var r := DynamicH(b1, b2, ov);
      && VX(r.0) == BOUNCE_DAMPING * VX(b2) && VX(r.1) == BOUNCE_DAMPING * VX(b1)
      && VY(r.0) == VY(b1) && VY(r.1) == VY(b2)
      && VX(r.0) + VX(r.1) == BOUNCE_DAMPING * (VX(b1) + VX(b2))
    ensures var r := ExchangeX(ExchangeX(b1, b2).0, ExchangeX(b1, b2).1);
      VX(r.0) == BOUNCE_DAMPING * BOUNCE_DAMPING * VX(b1) && VX(r.1) == BOUNCE_DAMPING * BOUNCE_DAMPING * VX(b2)
  {
  }

  /** A non-player meeting the player side by side reverses its horizontal
      velocity, damped, and the player's velocity is not touched; two
      players leave each other's velocity alone. */
  lemma PlayerExchange(b1: Body, b2: Body, ov: Overlap)
    requires b1.mv.Some? && b2.mv.Some?
    ensures var r := DynamicH(b1, b2, ov);
      && (!b1.isPlayer && b2.isPlayer ==> VX(r.0) == -BOUNCE_DAMPING * VX(b1) && r.1.mv == b2.mv)
      && (b1.isPlayer && !b2.isPlayer ==> r.0.mv == b1.mv && VX(r.1) == -BOUNCE_DAMPING * VX(b2))
      && (b1.isPlayer && b2.isPlayer ==> r.0.mv == b1.mv && r.1.mv == b2.mv)
  {
  }

  /** Two bodies without input meeting one above the other swap their
      vertical velocities, damped; the pair stops sideways exactly when both
      new vertical speeds are below 10, and otherwise keeps its horizontal
      velocities. A body with input exchanges nothing. */
  lemma DynamicExchangeV(b1: Body, b2: Body, ov: Overlap)
    requires b1.mv.Some? && b2.mv.Some?
    ensures var r := DynamicV(b1, b2, ov);
      && (!b1.hasInput && !b2.hasInput ==>
            && VY(r.0) == BOUNCE_DAMPING * VY(b2) && VY(r.1) == BOUNCE_DAMPING * VY(b1)
            && (Abs(VY(r.0)) < 10.0 && Abs(VY(r.1)) < 10.0 ==> VX(r.0) == 0.0 && VX(r.1) == 0.0)
            && (!(Abs(VY(r.0)) < 10.0 && Abs(VY(r.1)) < 10.0) ==> VX(r.0) == VX(b1) && VX(r.1) == VX(b2)))
      && (b1.hasInput || b2.hasInput ==> r.0.mv == b1.mv && r.1.mv == b2.mv)
  {
  }

  // ---------------------------------------------------------------------------
  // A dynamic body against a static one

  /** The dynamic and static body after resolution, and the camera shake to
      start, if any: Some(true) for a horizontal, Some(false) for a vertical
      shake. */
  datatype Pushed = Pushed(dyn: Body, stat: Body, shake: Option<bool>)

  /** The velocity of a dynamic body pushed sideways out of a static one
      (`right`: it sits to the right of it): a non-player moving into the
      wall bounces back, damped; the player stops sideways, its fall is
      capped at 150 (wall slide), and a first wall contact asks for a
      horizontal camera shake. */
  function WallBounce(b: Body, right: bool): (r: (Body, Option<bool>))
    requires b.mv.Some?
    ensures OnlyVelocity(b, r.0) && r.0.mv.Some?
    ensures !b.isPlayer && MovingInto(VX(b), right) ==> VX(r.0) == -BOUNCE_DAMPING * VX(b)
    ensures !b.isPlayer && !MovingInto(VX(b), right) ==> VX(r.0) == VX(b)
    ensures !b.isPlayer ==> VY(r.0) == VY(b) && r.1 == None
    ensures b.isPlayer ==> VX(r.0) == 0.0 && VY(r.0) == Min(VY(b), 150.0)
    ensures b.isPlayer ==> r.1 == if b.col.wasTouchingWallLast then None else Some(true)
  {
    if !b.isPlayer then
      var vx := VX(b);
      var into := MovingInto(vx, right);
      (if into then SetVX(b, -vx * BOUNCE_DAMPING) else b, None)
    else
      var vy := VY(b);
      (SetVY(SetVX(b, 0.0), if vy > 150.0 then 150.0 else vy), if !b.col.wasTouchingWallLast then Some(true) else None)
  }

  /** The velocity of a dynamic body pushed vertically out of a static one
      (`below`: it sits below it): a non-player moving into the surface
      bounces back, damped, and stops sideways once it rests slowly on top;
      the player's vertical speed into the surface is cancelled, and a
      contact after not standing asks for a vertical camera shake. */
  function FloorBounce(b: Body, below: bool): (r: (Body, Option<bool>))
    requires b.mv.Some?
    ensures OnlyVelocity(b, r.0) && r.0.mv.Some?
    ensures MovingInto(VY(b), below) ==> VY(r.0) == if b.isPlayer then 0.0 else -BOUNCE_DAMPING * VY(b)
    ensures !MovingInto(VY(b), below) ==> VY(r.0) == VY(b)
    ensures !b.isPlayer && !below && Abs(VY(r.0)) < 10.0 ==> VX(r.0) == 0.0
    ensures !(!b.isPlayer && !below && Abs(VY(r.0)) < 10.0) ==> VX(r.0) == VX(b)
    ensures !b.isPlayer ==> r.1 == None
    ensures b.isPlayer ==> r.1 == if b.col.wasStandingLast then None else Some(false)
  {
    var vy := VY(b);
    if !b.isPlayer then
      var into := MovingInto(vy, below);
      var vy' := if into then -vy * BOUNCE_DAMPING else vy;
      var b' := SetVY(b, vy');
      (if !below && Abs(vy') < 10.0 then SetVX(b', 0.0) else b', None)
    else
      var vy' := if !below && vy > 0.0 then 0.0 else if below && vy < 0.0 then 0.0 else vy;
      (SetVY(b, vy'), if !b.col.wasStandingLast then Some(false) else None)
  }

  /** Horizontal contact with a static body: both get their flag, the
      dynamic body takes the whole push away from the static one, then
      bounces. */
  function StaticH(dyn: Body, stat: Body, ov: Overlap): (p: Pushed)
    ensures SameShape(dyn, p.dyn) && SameShape(stat, p.stat)
    ensures var s := if Left(Box(dyn)) > Left(Box(stat)) then OnLeft else OnRight;
      Touch(dyn.col, p.dyn.col, s) && Touch(stat.col, p.stat.col, Opposite(s))
  {
    var right := Left(Box(dyn)) > Left(Box(stat));
    var stat' := MarkBody(stat, if right then OnRight else OnLeft);
    var moved := if dyn.loc.Some? then ShiftX(dyn, if right then ov.horizontal else -ov.horizontal) else dyn;
    var dyn' := MarkBody(moved, if right then OnLeft else OnRight);
    if dyn.loc.None? || dyn.mv.None? then Pushed(dyn', stat', None)
    else
      var v := WallBounce(dyn', right);
      Pushed(v.0, stat', v.1)
  }

  /** Vertical contact with a static body: both get their flag, the dynamic
      body takes the whole push away from the static one, then bounces. */
  function StaticV(dyn: Body, stat: Body, ov: Overlap): (p: Pushed)
    ensures SameShape(dyn, p.dyn) && SameShape(stat, p.stat)
    ensures var s := if Top(Box(dyn)) > Top(Box(stat)) then OnTop else OnBottom;
      Touch(dyn.col, p.dyn.col, s) && Touch(stat.col, p.stat.col, Opposite(s))
  {
    var below := Top(Box(dyn)) > Top(Box(stat));
    var stat' := MarkBody(stat, if below then OnBottom else OnTop);
    var moved := if dyn.loc.Some? then ShiftY(dyn, if below then ov.vertical else -ov.vertical) else dyn;
    var dyn' := MarkBody(moved, if below then OnTop else OnBottom);
    if dyn.loc.None? || dyn.mv.None? then Pushed(dyn', stat', None)
    else
      var v := FloorBounce(dyn', below);
      Pushed(v.0, stat', v.1)
  }

  /** The static body is never moved and its velocity is untouched. */
  lemma StaticBodyStays(dyn: Body, stat: Body, ov: Overlap)
    ensures StaticH(dyn, stat, ov).stat.loc == stat.loc && StaticH(dyn, stat, ov).stat.mv == stat.mv
    ensures Box(StaticH(dyn, stat, ov).stat) == Box(stat)
    ensures StaticV(dyn, stat, ov).stat.loc == stat.loc && StaticV(dyn, stat, ov).stat.mv == stat.mv
    ensures Box(StaticV(dyn, stat, ov).stat) == Box(stat)
  {
  }

  /** A dynamic body that overlaps a static one without sticking out past
      its far side ends up flush against it and no longer intersects it. */
  lemma StaticSeparates(dyn: Body, stat: Body)
    requires dyn.loc.Some? && Proper(Box(dyn)) && Proper(Box(stat))
    ensures var ov := CalculateOverlap(Box(dyn), Box(stat)); var d := StaticH(dyn, stat, ov).dyn;
      && (Left(Box(dyn)) > Left(Box(stat)) && Right(Box(dyn)) >= Right(Box(stat)) ==>
            Left(Box(d)) == Right(Box(stat)) && !RectIntersect(Box(d), Box(stat)))
      && (Left(Box(dyn)) <= Left(Box(stat)) && Right(Box(dyn)) <= Right(Box(stat)) ==>
            Right(Box(d)) == Left(Box(stat)) && !RectIntersect(Box(d), Box(stat)))
    ensures var ov := CalculateOverlap(Box(dyn), Box(stat)); var d := StaticV(dyn, stat, ov).dyn;
      && (Top(Box(dyn)) > Top(Box(stat)) && Bottom(Box(dyn)) >= Bottom(Box(stat)) ==>
            Top(Box(d)) == Bottom(Box(stat)) && !RectIntersect(Box(d), Box(stat)))
      && (Top(Box(dyn)) <= Top(Box(stat)) && Bottom(Box(dyn)) <= Bottom(Box(stat)) ==>
            Bottom(Box(d)) == Top(Box(stat)) && !RectIntersect(Box(d), Box(stat)))
  {
    var ov := CalculateOverlap(Box(dyn), Box(stat));
    var d := StaticH(dyn, stat, ov).dyn;
    if Left(Box(dyn)) > Left(Box(stat)) && Right(Box(dyn)) >= Right(Box(stat)) {
      assert ov.horizontal == Right(Box(stat)) - Left(Box(dyn));
      EdgeContactIsNotIntersection(Box(stat), Box(d));
      RectIntersectSymmetric(Box(stat), Box(d));
    }
    if Left(Box(dyn)) <= Left(Box(stat)) && Right(Box(dyn)) <= Right(Box(stat)) {
      assert ov.horizontal == Right(Box(dyn)) - Left(Box(stat));
      EdgeContactIsNotIntersection(Box(d), Box(stat));
    }
    var e := StaticV(dyn, stat, ov).dyn;
    if Top(Box(dyn)) > Top(Box(stat)) && Bottom(Box(dyn)) >= Bottom(Box(stat)) {
      assert ov.vertical == Bottom(Box(stat)) - Top(Box(dyn));
      EdgeContactIsNotIntersection(Box(stat), Box(e));
      RectIntersectSymmetric(Box(stat), Box(e));
    }
    if Top(Box(dyn)) <= Top(Box(stat)) && Bottom(Box(dyn)) <= Bottom(Box(stat)) {
      assert ov.vertical == Bottom(Box(dyn)) - Top(Box(stat));
      EdgeContactIsNotIntersection(Box(e), Box(stat));
    }
  }

  /** After a contact with a static body no dynamic body, player or not,
      keeps moving into it, and a non-player only loses speed. */
  lemma NothingMovesIntoStatic(dyn: Body, stat: Body, ov: Overlap)
    requires dyn.loc.Some? && dyn.mv.Some?
    ensures var d := StaticH(dyn, stat, ov).dyn;
      && (Left(Box(dyn)) > Left(Box(stat)) ==> VX(d) >= 0.0)
      && (Left(Box(dyn)) <= Left(Box(stat)) ==> VX(d) <= 0.0)
      && (!dyn.isPlayer ==> Abs(VX(d)) <= Abs(VX(dyn)) && VY(d) == VY(dyn))
      && (dyn.isPlayer ==> VX(d) == 0.0 && VY(d) == Min(VY(dyn), 150.0))
    ensures var d := StaticV(dyn, stat, ov).dyn;
      && (Top(Box(dyn)) > Top(Box(stat)) ==> VY(d) >= 0.0)
      && (Top(Box(dyn)) <= Top(Box(stat)) ==> VY(d) <= 0.0)
      && (!dyn.isPlayer ==> Abs(VY(d)) <= Abs(VY(dyn)))
      && (dyn.isPlayer ==> Abs(VY(d)) <= Abs(VY(dyn)))
  {
  }

  /** The velocity a contact with a static body leaves: a non-player moving
      into the static body reverses on that axis, damped to 0.7, and one
      moving away keeps its velocity; a non-player resting slowly on top
      stops sideways; the player stops sideways at a wall with its fall
      capped at 150, and loses its vertical speed only when moving into a
      floor or ceiling. */
  lemma StaticBounce(dyn: Body, stat: Body, ov: Overlap)
    requires dyn.loc.Some? && dyn.mv.Some?
    ensures var right := Left(Box(dyn)) > Left(Box(stat)); var d := StaticH(dyn, stat, ov).dyn;
      && (!dyn.isPlayer && MovingInto(VX(dyn), right) ==> VX(d) == -BOUNCE_DAMPING * VX(dyn))
      && (!dyn.isPlayer && !MovingInto(VX(dyn), right) ==> VX(d) == VX(dyn))
      && (!dyn.isPlayer ==> VY(d) == VY(dyn))
      && (dyn.isPlayer ==> VX(d) == 0.0 && VY(d) == Min(VY(dyn), 150.0))
    ensures var below := Top(Box(dyn)) > Top(Box(stat)); var d := StaticV(dyn, stat, ov).dyn;
      && (!dyn.isPlayer && MovingInto(VY(dyn), below) ==> VY(d) == -BOUNCE_DAMPING * VY(dyn))
      && (dyn.isPlayer && MovingInto(VY(dyn), below) ==> VY(d) == 0.0)
      && (!MovingInto(VY(dyn), below) ==> VY(d) == VY(dyn))
      && (!dyn.isPlayer && !below && Abs(VY(d)) < 10.0 ==> VX(d) == 0.0)
      && (!(!dyn.isPlayer && !below && Abs(VY(d)) < 10.0) ==> VX(d) == VX(dyn))
  {
  }

  /** Only the player shakes the camera, and only on the first frame of a
      wall contact (horizontal) or of a landing or ceiling hit (vertical). */
  lemma ShakeOnOnset(dyn: Body, stat: Body, ov: Overlap)
    ensures StaticH(dyn, stat, ov).shake.Some? <==>
      dyn.isPlayer && dyn.loc.Some? && dyn.mv.Some? && !dyn.col.wasTouchingWallLast
    ensures StaticV(dyn, stat, ov).shake.Some? <==>
      dyn.isPlayer && dyn.loc.Some? && dyn.mv.Some? && !dyn.col.wasStandingLast
    ensures StaticH(dyn, stat, ov).shake.Some? ==> StaticH(dyn, stat, ov).shake.value
    ensures StaticV(dyn, stat, ov).shake.Some? ==> !StaticV(dyn, stat, ov).shake.value
  {
  }

  // ---------------------------------------------------------------------------
  // ResolveCollision

  datatype Resolved = Resolved(b1: Body, b2: Body, shake: Option<bool>)

  /** ResolveCollision: separates along the axis of smaller overlap (ties go
      vertical). The caller never passes two static bodies. Two dynamic
      bodies of which one has no location are left alone. */
  function Resolve(b1: Body, b2: Body, ov: Overlap): (r: Resolved)
    requires !(b1.col.isStatic && b2.col.isStatic)
    ensures SameShape(b1, r.b1) && SameShape(b2, r.b2)
    ensures !b1.col.isStatic && !b2.col.isStatic ==> r.shake == None
  {
    var horizontal := ov.horizontal < ov.vertical;
    if !b1.col.isStatic && !b2.col.isStatic then
      if b1.loc.None? || b2.loc.None? then Resolved(b1, b2, None)
      else
        var p := if horizontal then DynamicH(b1, b2, ov) else DynamicV(b1, b2, ov);
        Resolved(p.0, p.1, None)
    else if !b1.col.isStatic then
      var p := if horizontal then StaticH(b1, b2, ov) else StaticV(b1, b2, ov);
      Resolved(p.dyn, p.stat, p.shake)
    else
      var p := if horizontal then StaticH(b2, b1, ov) else StaticV(b2, b1, ov);
      Resolved(p.stat, p.dyn, p.shake)
  }

  /** The side of the first body that the contact is on, as an independent
      statement of the direction rules: horizontal exactly when the
      horizontal overlap is the smaller, and facing the other body. */
  function ContactSide(b1: Body, b2: Body, ov: Overlap): (s: Side)
    ensures (s == OnLeft || s == OnRight) <==> ov.horizontal < ov.vertical
    ensures s == OnRight ==> Left(Box(b1)) <= Left(Box(b2))
    ensures s == OnLeft ==> Left(Box(b1)) >= Left(Box(b2))
    ensures s == OnBottom ==> Top(Box(b1)) <= Top(Box(b2))
    ensures s == OnTop ==> Top(Box(b1)) >= Top(Box(b2))
  {
    if ov.horizontal < ov.vertical then
      if b2.col.isStatic && !b1.col.isStatic then (if Left(Box(b1)) > Left(Box(b2)) then OnLeft else OnRight)
      else (if Left(Box(b1)) < Left(Box(b2)) then OnRight else OnLeft)
    else
      if b2.col.isStatic && !b1.col.isStatic then (if Top(Box(b1)) > Top(Box(b2)) then OnTop else OnBottom)
      else (if Top(Box(b1)) < Top(Box(b2)) then OnBottom else OnTop)
  }

  /** Contacts are mutual: the first body's flag for its contact side and the
      second body's flag for the opposite side are raised, and no other flag
      changes — except for two dynamic bodies of which one has no location,
      which are not touched at all. */
  lemma ResolveFlagsMutual(b1: Body, b2: Body, ov: Overlap)
    requires !(b1.col.isStatic && b2.col.isStatic)
    ensures var r := Resolve(b1, b2, ov); var s := ContactSide(b1, b2, ov);
      if !b1.col.isStatic && !b2.col.isStatic && (b1.loc.None? || b2.loc.None?) then r == Resolved(b1, b2, None)
      else Touch(b1.col, r.b1.col, s) && Touch(b2.col, r.b2.col, Opposite(s))
  {
  }

  /** A static body of the pair keeps its place, its box and its velocity. */
  lemma ResolveStaticStays(b1: Body, b2: Body, ov: Overlap)
    requires !(b1.col.isStatic && b2.col.isStatic)
    ensures var r := Resolve(b1, b2, ov);
      && (b1.col.isStatic ==> r.b1.loc == b1.loc && r.b1.mv == b1.mv && Box(r.b1) == Box(b1))
      && (b2.col.isStatic ==> r.b2.loc == b2.loc && r.b2.mv == b2.mv && Box(r.b2) == Box(b2))
  {
    StaticBodyStays(b1, b2, ov);
    StaticBodyStays(b2, b1, ov);
  }

  /** Only a dynamic player shakes the camera. */
  lemma ResolveShakesOnlyForPlayer(b1: Body, b2: Body, ov: Overlap)
    requires !(b1.col.isStatic && b2.col.isStatic)
    ensures Resolve(b1, b2, ov).shake.Some? ==>
      (b1.isPlayer && !b1.col.isStatic) || (b2.isPlayer && !b2.col.isStatic)
  {
    if !b1.col.isStatic && b2.col.isStatic {
      ShakeOnOnset(b1, b2, ov);
    } else if b1.col.isStatic && !b2.col.isStatic {
      ShakeOnOnset(b2, b1, ov);
    }
  }
}

=== FILE: collision_system.dfy ===
/** The two collision passes over the game's manager: CollisionSystemUpdate,
    which snapshots every box before anything moves, and CollisionSystem,
    which clears the contact flags and places the boxes, walks every pair of
    colliders once, picks up stars, resolves the rest with ResolveCollision,
    and latches the player's contacts for the next frame. */
module CollisionSystem {
  import opened MathUtil
  import opened Components
  import opened Wrappers
  import opened World
  import Res = Collision
  import EM = EntityManager

  /** Whether a collision component's box follows its entity this frame: a
      dynamic body always, a static one until it was placed once. */
  predicate Tracks(col: Collision)
  {
    !col.isStatic || !col.boundingBoxInitialized
  }

  // ---------------------------------------------------------------------------
  // CollisionSystemUpdate

  /** The loop body of CollisionSystemUpdate: the previous box becomes the
      current one for a body whose box follows its entity. */
  function SnapshotRule(c: map<nat, Component>): (r: map<nat, Component>)
    ensures r.Keys == c.Keys
    ensures forall k :: k in c && k != COLLISION ==> r[k] == c[k]
    ensures !HasCollision(c) || !Tracks(c[COLLISION].collision) ==> r == c
    ensures HasCollision(c) ==>
      var col := c[COLLISION].collision;
      && r[COLLISION].CCollision?
      && r[COLLISION].collision.(previousBoundingBox := col.previousBoundingBox) == col
      && (Tracks(col) ==> r[COLLISION].collision.previousBoundingBox == col.currentBoundingBox)
  {
    if HasCollision(c) && Tracks(c[COLLISION].collision) then
      var col := c[COLLISION].collision;
      c[COLLISION := CCollision(col.(previousBoundingBox := col.currentBoundingBox))]
    else c
  }

  lemma SnapshotRuleOk()
    ensures RuleOk(SnapshotRule)
  {
  }

  /** Taking the snapshot twice is taking it once. */
  lemma SnapshotRuleIdempotent(c: map<nat, Component>)
    ensures SnapshotRule(SnapshotRule(c)) == SnapshotRule(c)
  {
  }

  /** CollisionSystemUpdate(entityManager). */
  function Snapshot(w: World): (r: World)
    requires WF(w)
    ensures WF(r) && SameSkeleton(w, r)
    ensures forall x: nat :: EM.SlotOf(r, x) == if Visited(w, x) then Apply(EM.SlotOf(w, x), SnapshotRule) else EM.SlotOf(w, x)
  {
    SnapshotRuleOk();
    Pass(w, SnapshotRule)
  }

  /** The snapshot pass is idempotent. */
  lemma SnapshotIdempotent(w: World)
    requires WF(w)
    ensures forall x: nat :: EM.SlotOf(Snapshot(Snapshot(w)), x) == EM.SlotOf(Snapshot(w), x)
  {
    forall x: nat
      ensures EM.SlotOf(Snapshot(Snapshot(w)), x) == EM.SlotOf(Snapshot(w), x)
    {
      if Visited(w, x) {
        SnapshotRuleIdempotent(EM.SlotOf(w, x).comps);
      }
    }
  }

  // ---------------------------------------------------------------------------
  // The first loop of CollisionSystem

  /** The world box of a component placed at `position`. */
  function Placed(col: Collision, position: Point): (box: Rect)
    ensures box.topLeft == Add(position, col.boundingBoxOffset)
    ensures box.width == col.currentBoundingBox.width && box.height == col.currentBoundingBox.height
  {
    col.currentBoundingBox.(topLeft := Add(position, col.boundingBoxOffset))
  }

  /** The first loop's work on one entity: its contact flags are cleared,
      and a body with a location whose box follows it is placed at the
      location plus the offset and marked initialised. A body without a
      location keeps its box (the source asserts it has one). */
  function RefreshRule(c: map<nat, Component>): (r: map<nat, Component>)
    ensures r.Keys == c.Keys
    ensures forall k :: k in c && k != COLLISION ==> r[k] == c[k]
    ensures !HasCollision(c) ==> r == c
    ensures HasCollision(c) ==>
      var col := c[COLLISION].collision;
      && r[COLLISION].CCollision?
      && var col' := r[COLLISION].collision;
      && !col'.collidedTop && !col'.collidedBottom && !col'.collidedLeft && !col'.collidedRight
      && col'.wasStandingLast == col.wasStandingLast && col'.wasTouchingWallLast == col.wasTouchingWallLast
      && col'.isStatic == col.isStatic && col'.boundingBoxOffset == col.boundingBoxOffset
      && col'.previousBoundingBox == col.previousBoundingBox
      && (HasLocation(c) && Tracks(col) ==>
            col'.currentBoundingBox == Placed(col, c[LOCATION].location.position) && col'.boundingBoxInitialized)
      && (!(HasLocation(c) && Tracks(col)) ==>
            col'.currentBoundingBox == col.currentBoundingBox && col'.boundingBoxInitialized == col.boundingBoxInitialized)
  {
    if HasCollision(c) then
      var col := ClearCollisions(c[COLLISION].collision);
      var col' := if HasLocation(c) && Tracks(col) then
          col.(currentBoundingBox := Placed(col, c[LOCATION].location.position), boundingBoxInitialized := true)
        else col;
      c[COLLISION := CCollision(col')]
    else c
  }

  lemma RefreshRuleOk()
    ensures RuleOk(RefreshRule)
  {
  }

  /** Refreshing twice is refreshing once: a placed static box stays where it
      was put, a dynamic one is placed at the same spot again. */
  lemma RefreshRuleIdempotent(c: map<nat, Component>)
    ensures RefreshRule(RefreshRule(c)) == RefreshRule(c)
  {
  }

  /** After the refresh every body with a location has an initialised box,
      and a static body that was already placed has not moved. */
  lemma RefreshPlaces(c: map<nat, Component>)
    requires HasCollision(c)
    ensures HasLocation(c) ==> RefreshRule(c)[COLLISION].collision.boundingBoxInitialized
    ensures c[COLLISION].collision.isStatic && c[COLLISION].collision.boundingBoxInitialized ==>
      RefreshRule(c)[COLLISION].collision.currentBoundingBox == c[COLLISION].collision.currentBoundingBox
  {
  }

  /** The flag-clearing and box-placing part of CollisionSystem's first
      loop, over every visited entity. */
  function Refresh(w: World): (r: World)
    requires WF(w)
    ensures WF(r) && SameSkeleton(w, r)
    ensures forall x: nat :: EM.SlotOf(r, x) == if Visited(w, x) then Apply(EM.SlotOf(w, x), RefreshRule) else EM.SlotOf(w, x)
    ensures forall x: nat :: SameLife(EM.SlotOf(w, x), EM.SlotOf(r, x))
  {
    RefreshRuleOk();
    Pass(w, RefreshRule)
  }

  /** An entity the first loop pushes onto its `entities` vector. */
  predicate Collider(w: World, x: nat)
  {
    Visited(w, x) && HasCollision(EM.Comps(w, x))
  }

  /** The colliders from id `e` on, in loop order. */
  function CollidersFrom(w: World, e: nat): (s: seq<nat>)
    ensures forall i :: 0 <= i < |s| ==> e <= s[i] && Collider(w, s[i])
    ensures forall x: nat :: e <= x && Collider(w, x) ==> x in s
    ensures forall i, j :: 0 <= i < j < |s| ==> s[i] < s[j]
  {
    Select((x: nat) => Collider(w, x), |w.entities|, e)
  }

  /** The `entities` vector: every collider once, in increasing id order. */
  function Colliders(w: World): (s: seq<nat>)
    ensures forall x: nat :: x in s <==> Collider(w, x)
    ensures forall i, j :: 0 <= i < j < |s| ==> s[i] < s[j]
  {
    CollidersFrom(w, 0)
  }

  /** The two entities the first loop looks for: the camera by name, the
      player by its input component. */
  datatype Role = CameraRole | PlayerRole

  predicate Plays(w: World, x: nat, role: Role)
  {
    Visited(w, x) &&
    match role
    case CameraRole => w.entities[x].name == "main_camera"
    case PlayerRole => HasInput(EM.Comps(w, x))
  }

  /** The last id below `e` that plays the role, or 0 when there is none:
      each later match overwrites the variable. */
  function LastBelow(w: World, role: Role, e: nat): (r: nat)
    ensures r != 0 ==> r < e && Plays(w, r, role)
    ensures forall x: nat :: r < x < e ==> !Plays(w, x, role)
  {
    if e == 0 then 0
    else if Plays(w, e - 1, role) then e - 1
    else LastBelow(w, role, e - 1)
  }

  /** theCamera and thePlayer: the last visited entity in the role, 0 when
      none exists (entity 0 itself is never visited). */
  function Find(w: World, role: Role): (r: nat)
    requires WF(w)
    ensures r != 0 ==> Plays(w, r, role)
    ensures forall x: nat :: r < x ==> !Plays(w, x, role)
    ensures r == 0 <==> forall x: nat :: !Plays(w, x, role)
  {
    VisitedIsLiveNonZero(w, 0);
    LastBelow(w, role, |w.entities|)
  }

  // ---------------------------------------------------------------------------
  // Bodies in a components map

  /** What ResolveCollision sees of an entity with a collision component. */
  function BodyOf(c: map<nat, Component>, isPlayer: bool): (b: Res.Body)
    requires HasCollision(c)
    ensures b.col == c[COLLISION].collision && b.isPlayer == isPlayer && b.hasInput == HasInput(c)
    ensures b.loc.Some? <==> HasLocation(c)
    ensures b.mv.Some? <==> HasMovement(c)
  {
    Res.Body(c[COLLISION].collision,
      if HasLocation(c) then Some(c[LOCATION].location) else None,
      if HasMovement(c) then Some(c[MOVEMENT].movement) else None,
      isPlayer, HasInput(c))
  }

  /** A body that can be written back over these components. */
  predicate Fits(c: map<nat, Component>, b: Res.Body)
  {
    HasCollision(c) && (b.loc.Some? <==> HasLocation(c)) && (b.mv.Some? <==> HasMovement(c)) && b.hasInput == HasInput(c)
  }

  /** Writes a body's collision component, location and movement back. */
  function WriteBody(c: map<nat, Component>, b: Res.Body): (r: map<nat, Component>)
    requires Fits(c, b)
    ensures r.Keys == c.Keys
    ensures forall k :: k in c && k != LOCATION && k != MOVEMENT && k != COLLISION ==> r[k] == c[k]
    ensures HasCollision(r) && BodyOf(r, b.isPlayer) == b
    ensures Typed(c) ==> Typed(r)
  {
    var c1 := c[COLLISION := CCollision(b.col)];
    var c2 := if b.loc.Some? then c1[LOCATION := CLocation(b.loc.value)] else c1;
    if b.mv.Some? then c2[MOVEMENT := CMovement(b.mv.value)] else c2
  }

  /** Writing back the body just read changes nothing. */
  lemma WriteBodyOf(c: map<nat, Component>, isPlayer: bool)
    requires HasCollision(c)
    ensures WriteBody(c, BodyOf(c, isPlayer)) == c
  {
  }

  /** The location, movement and box of a body: what a static body keeps. */
  function Pose(c: map<nat, Component>): (Option<Location>, Option<Movement>, Rect)
    requires HasCollision(c)
  {
    var b := BodyOf(c, false);
    (b.loc, b.mv, Res.Box(b))
  }

  /** The components the pair loop may write: location, movement and
      collision of a collider, and the score of the player. */
  predicate Writable(k: nat, collides: bool, isPlayer: bool)
  {
    (collides && (k == LOCATION || k == MOVEMENT || k == COLLISION)) || (isPlayer && k == SCORE)
  }

  /** How the pair loop may change a surviving entity: same component types;
      only writable components change; a collider keeps its speed limit and
      all of its collision component but the contact flags and the box
      position; a static collider does not move at all; a score stays a
      score. */
  ghost predicate Keeps(c0: map<nat, Component>, c: map<nat, Component>, isPlayer: bool)
  {
    && c.Keys == c0.Keys
    && (forall k :: k in c0 && !Writable(k, HasCollision(c0), isPlayer) ==> c[k] == c0[k])
    && (HasCollision(c0) ==>
          && HasCollision(c) && Res.FrameOf(BodyOf(c, isPlayer)) == Res.FrameOf(BodyOf(c0, isPlayer))
          && (c0[COLLISION].collision.isStatic ==> Pose(c) == Pose(c0)))
    && (HasScore(c0) ==> HasScore(c))
  }

  /** How the pair loop may change the meaning of an id: a vacant id stays
      vacant; a live one either keeps its name and evolves as Keeps allows,
      or it was a star other than the player and has been removed. */
  ghost predicate Evolves(s0: EM.Slot<Component>, s: EM.Slot<Component>, isPlayer: bool)
  {
    match s0
    case Vacant => s.Vacant?
    case Live(n, c0) =>
      if s.Vacant? then n == "star" && !isPlayer && HasCollision(c0)
      else s.name == n && Keeps(c0, s.comps, isPlayer)
  }

  lemma KeepsRefl(c: map<nat, Component>, isPlayer: bool)
    ensures Keeps(c, c, isPlayer)
  {
  }

  lemma EvolvesTrans(s0: EM.Slot<Component>, s1: EM.Slot<Component>, s2: EM.Slot<Component>, isPlayer: bool)
    requires Evolves(s0, s1, isPlayer) && Evolves(s1, s2, isPlayer)
    ensures Evolves(s0, s2, isPlayer)
  {
  }

  /** Writing back a resolved body keeps the components as Keeps allows. */
  lemma WriteKeeps(c: map<nat, Component>, b: Res.Body, isPlayer: bool)
    requires HasCollision(c) && Res.SameShape(BodyOf(c, isPlayer), b)
    requires c[COLLISION].collision.isStatic ==>
      b.loc == BodyOf(c, isPlayer).loc && b.mv == BodyOf(c, isPlayer).mv && Res.Box(b) == Res.Box(BodyOf(c, isPlayer))
    ensures Fits(c, b) && Keeps(c, WriteBody(c, b), isPlayer)
  {
    assert Fits(c, b);
    var r := WriteBody(c, b);
    assert BodyOf(r, isPlayer) == b;
  }

  // ---------------------------------------------------------------------------
  // One pair

  /** The player holds a score component. */
  predicate Scoring(w: World, p: nat)
  {
    EM.ValidEntity(w, p) && HasScore(EM.Comps(w, p))
  }

  function ScoreAt(w: World, p: nat): int
    requires Scoring(w, p)
  {
    EM.Comps(w, p)[SCORE].score.score
  }

  /** The precondition of ResolveCollision on a pair of live colliders. */
  predicate Resolvable(w: World, e1: nat, e2: nat)
  {
    && e1 != e2 && EM.ValidEntity(w, e1) && EM.ValidEntity(w, e2)
    && HasCollision(EM.Comps(w, e1)) && HasCollision(EM.Comps(w, e2))
    && !(EM.Comps(w, e1)[COLLISION].collision.isStatic && EM.Comps(w, e2)[COLLISION].collision.isStatic)
  }

  /** ResolveCollision on the pair's bodies and their overlap. */
  function Resolution(w: World, player: nat, e1: nat, e2: nat): (res: Res.Resolved)
    requires Resolvable(w, e1, e2)
    ensures Fits(EM.Comps(w, e1), res.b1) && Fits(EM.Comps(w, e2), res.b2)
  {
    var b1 := BodyOf(EM.Comps(w, e1), e1 == player);
    var b2 := BodyOf(EM.Comps(w, e2), e2 == player);
    Res.Resolve(b1, b2, Res.CalculateOverlap(Res.Box(b1), Res.Box(b2)))
  }

  /** The resolved bodies written back keep each entity's components as Keeps allows. */
  lemma ResolutionKeeps(w: World, player: nat, e1: nat, e2: nat)
    requires Resolvable(w, e1, e2)
    ensures var res := Resolution(w, player, e1, e2);
      && Keeps(EM.Comps(w, e1), WriteBody(EM.Comps(w, e1), res.b1), e1 == player)
      && Keeps(EM.Comps(w, e2), WriteBody(EM.Comps(w, e2), res.b2), e2 == player)
  {
    var c1 := EM.Comps(w, e1);
    var c2 := EM.Comps(w, e2);
    var b1 := BodyOf(c1, e1 == player);
    var b2 := BodyOf(c2, e2 == player);
    var res := Resolution(w, player, e1, e2);
    Res.ResolveStaticStays(b1, b2, Res.CalculateOverlap(Res.Box(b1), Res.Box(b2)));
    WriteKeeps(c1, res.b1, e1 == player);
    WriteKeeps(c2, res.b2, e2 == player);
  }

  /** The pair's two entities after ResolveCollision, written back. */
  function ResolvePair(w: World, player: nat, e1: nat, e2: nat): (r: World)
    requires WF(w) && Resolvable(w, e1, e2)
    ensures WF(r) && |r.entities| == |w.entities|
    ensures forall x :: x != e1 && x != e2 ==> EM.SlotOf(r, x) == EM.SlotOf(w, x)
    ensures EM.SlotOf(r, e1) == EM.Live(w.entities[e1].name, WriteBody(EM.Comps(w, e1), Resolution(w, player, e1, e2).b1))
    ensures EM.SlotOf(r, e2) == EM.Live(w.entities[e2].name, WriteBody(EM.Comps(w, e2), Resolution(w, player, e1, e2).b2))
    ensures Evolves(EM.SlotOf(w, e1), EM.SlotOf(r, e1), e1 == player)
    ensures Evolves(EM.SlotOf(w, e2), EM.SlotOf(r, e2), e2 == player)
  {
    var c1 := EM.Comps(w, e1);
    var c2 := EM.Comps(w, e2);
    assert EM.SlotOf(w, e1).Live? && EM.SlotOf(w, e2).Live?;
    var res := Resolution(w, player, e1, e2);
    ResolutionKeeps(w, player, e1, e2);
    var w1 := Replace(w, e1, WriteBody(c1, res.b1));
    assert EM.SlotOf(w1, e2) == EM.SlotOf(w, e2);
    Replace(w1, e2, WriteBody(c2, res.b2))
  }

  /** `score.score += 10` on the player, when it holds a score. */
  function AddScore(w: World, p: nat): (r: World)
    requires WF(w)
    ensures WF(r) && |r.entities| == |w.entities|
    ensures forall x :: x != p ==> EM.SlotOf(r, x) == EM.SlotOf(w, x)
    ensures !Scoring(w, p) ==> r == w
    ensures Scoring(w, p) ==> Scoring(r, p) && ScoreAt(r, p) == ScoreAt(w, p) + 10
    ensures Scoring(w, p) ==> Evolves(EM.SlotOf(w, p), EM.SlotOf(r, p), true)
    ensures Scoring(w, p) ==>
      && EM.SlotOf(r, p).name == EM.SlotOf(w, p).name && EM.Comps(r, p).Keys == EM.Comps(w, p).Keys
      && (forall k :: k in EM.Comps(w, p) && k != SCORE ==> EM.Comps(r, p)[k] == EM.Comps(w, p)[k])
      && EM.Comps(r, p)[SCORE].score == EM.Comps(w, p)[SCORE].score.(score := ScoreAt(w, p) + 10)
  {
    if Scoring(w, p) then
      var c := EM.Comps(w, p);
      assert EM.SlotOf(w, p).Live?;
      var v := CScore(c[SCORE].score.(score := c[SCORE].score.score + 10));
      ScoreKeeps(c, v);
      ScoreTyped(c, v);
      var r := Set(w, p, SCORE, v);
      assert EM.Comps(r, p) == c[SCORE := v];
      ScoreOnly(c, v);
      r
    else w
  }

  lemma ScoreOnly(c: map<nat, Component>, v: Component)
    requires SCORE in c
    ensures c[SCORE := v].Keys == c.Keys
    ensures forall k :: k in c && k != SCORE ==> c[SCORE := v][k] == c[k]
  {
  }

  lemma ScoreTyped(c: map<nat, Component>, v: Component)
    requires Typed(c) && HasScore(c) && v.CScore? && |v.score.digitSprites| == |c[SCORE].score.digitSprites|
    ensures Typed(c[SCORE := v])
  {
  }

  lemma ScoreKeeps(c: map<nat, Component>, v: Component)
    requires HasScore(c) && v.CScore?
    ensures Keeps(c, c[SCORE := v], true)
  {
    if HasCollision(c) {
      assert BodyOf(c[SCORE := v], true) == BodyOf(c, true);
    }
  }

  /** A star pickup: the player's score, if it has one, gains 10 and the
      star is removed. Marking the star's sprite dead is not kept: removal
      resets the slot. */
  function Pickup(w: World, player: nat, star: nat): (r: World)
    requires WF(w) && star != player && EM.ValidEntity(w, star)
    requires HasCollision(EM.Comps(w, star)) && w.entities[star].name == "star"
    ensures WF(r) && |r.entities| == |w.entities|
  {
    Remove(AddScore(w, player), star)
  }

  /** The star, and only the star, goes from live to vacant; the player's
      score gains 10; every other entity is unchanged. */
  lemma PickupEffect(w: World, player: nat, star: nat)
    requires WF(w) && star != player && EM.ValidEntity(w, star)
    requires HasCollision(EM.Comps(w, star)) && w.entities[star].name == "star"
    ensures var r := Pickup(w, player, star);
      && (forall x: nat :: Evolves(EM.SlotOf(w, x), EM.SlotOf(r, x), x == player))
      && (forall x: nat :: EM.SlotOf(w, x).Live? && EM.SlotOf(r, x).Vacant? <==> x == star)
      && (Scoring(w, player) ==> Scoring(r, player) && ScoreAt(r, player) == ScoreAt(w, player) + 10)
      && (forall x :: x != star && x != player ==> EM.SlotOf(r, x) == EM.SlotOf(w, x))
      && (EM.ValidEntity(w, player) ==>
            && EM.SlotOf(r, player).Live? && EM.SlotOf(r, player).name == EM.SlotOf(w, player).name
            && EM.Comps(r, player).Keys == EM.Comps(w, player).Keys
            && (forall k :: k in EM.Comps(w, player) && k != SCORE ==> EM.Comps(r, player)[k] == EM.Comps(w, player)[k]))
  {
    var r := Pickup(w, player, star);
    assert EM.SlotOf(r, player) == EM.SlotOf(AddScore(w, player), player);
    forall x: nat
      ensures Evolves(EM.SlotOf(w, x), EM.SlotOf(r, x), x == player)
      ensures EM.SlotOf(w, x).Live? && EM.SlotOf(r, x).Vacant? <==> x == star
    {
      PickupAt(w, player, star, x);
    }
  }

  /** The same for one id. */
  lemma PickupAt(w: World, player: nat, star: nat, x: nat)
    requires WF(w) && star != player && EM.ValidEntity(w, star)
    requires HasCollision(EM.Comps(w, star)) && w.entities[star].name == "star"
    ensures var r := Pickup(w, player, star);
      && Evolves(EM.SlotOf(w, x), EM.SlotOf(r, x), x == player)
      && (EM.SlotOf(w, x).Live? && EM.SlotOf(r, x).Vacant? <==> x == star)
  {
    var w1 := AddScore(w, player);
    var r := Remove(w1, star);
    if x == star {
      assert EM.SlotOf(w, x).Live?;
    } else if x == player {
      if EM.SlotOf(w, x).Live? && !Scoring(w, player) {
        KeepsRefl(EM.SlotOf(w, x).comps, true);
      }
    } else {
      assert EM.SlotOf(r, x) == EM.SlotOf(w, x);
      if EM.SlotOf(w, x).Live? {
        KeepsRefl(EM.SlotOf(w, x).comps, false);
      }
    }
  }

  /** Resolving a pair removes nothing and leaves every score alone. */
  lemma ResolvePairEvolves(w: World, player: nat, e1: nat, e2: nat)
    requires WF(w) && Resolvable(w, e1, e2)
    ensures var r := ResolvePair(w, player, e1, e2);
      && (forall x: nat :: Evolves(EM.SlotOf(w, x), EM.SlotOf(r, x), x == player))
      && (forall x: nat :: !(EM.SlotOf(w, x).Live? && EM.SlotOf(r, x).Vacant?))
  {
    var r := ResolvePair(w, player, e1, e2);
    forall x: nat
      ensures Evolves(EM.SlotOf(w, x), EM.SlotOf(r, x), x == player)
      ensures !(EM.SlotOf(w, x).Live? && EM.SlotOf(r, x).Vacant?)
    {
      if x != e1 && x != e2 {
        assert EM.SlotOf(r, x) == EM.SlotOf(w, x);
        if EM.SlotOf(w, x).Live? {
          KeepsRefl(EM.SlotOf(w, x).comps, x == player);
        }
      }
    }
  }

  /** Scores are read through the abstraction: equal score entries give
      equal scores. */
  lemma SameScore(w: World, r: World, p: nat)
    requires Scoring(w, p) && EM.SlotOf(w, p).Live? && EM.SlotOf(r, p).Live?
    requires SCORE in EM.SlotOf(r, p).comps && EM.SlotOf(r, p).comps[SCORE] == EM.SlotOf(w, p).comps[SCORE]
    ensures Scoring(r, p) && ScoreAt(r, p) == ScoreAt(w, p)
  {
  }

  lemma ResolvePairScores(w: World, player: nat, e1: nat, e2: nat)
    requires WF(w) && Resolvable(w, e1, e2)
    ensures var r := ResolvePair(w, player, e1, e2);
      Scoring(w, player) ==> Scoring(r, player) && ScoreAt(r, player) == ScoreAt(w, player)
  {
    var r := ResolvePair(w, player, e1, e2);
    if Scoring(w, player) {
      assert EM.SlotOf(w, player).Live?;
      var res := Resolution(w, player, e1, e2);
      if player == e1 {
        var c := EM.Comps(w, e1);
        assert EM.SlotOf(r, e1).comps == WriteBody(c, res.b1);
        WriteKeepsScore(c, res.b1);
        SameScore(w, r, player);
      } else if player == e2 {
        var c := EM.Comps(w, e2);
        assert EM.SlotOf(r, e2).comps == WriteBody(c, res.b2);
        WriteKeepsScore(c, res.b2);
        SameScore(w, r, player);
      } else {
        assert EM.SlotOf(r, player) == EM.SlotOf(w, player);
      }
    }
  }

  lemma WriteKeepsScore(c: map<nat, Component>, b: Res.Body)
    requires Fits(c, b) && SCORE in c
    ensures SCORE in WriteBody(c, b) && WriteBody(c, b)[SCORE] == c[SCORE]
  {
  }

  /** Every id keeps its meaning when nothing happens. */
  lemma EvolvesRefl(w: World, player: nat)
    ensures forall x: nat :: Evolves(EM.SlotOf(w, x), EM.SlotOf(w, x), x == player)
  {
    forall x: nat
      ensures Evolves(EM.SlotOf(w, x), EM.SlotOf(w, x), x == player)
    {
      if EM.SlotOf(w, x).Live? {
        KeepsRefl(EM.SlotOf(w, x).comps, x == player);
      }
    }
  }

  /** The outcome of one iteration of the pair loop: the new world, the
      star picked up (one "sparkle" sound), and the camera shake asked for. */
  datatype Step = Step(world: World, sparkle: Option<nat>, shake: Option<bool>)

  /** The star of a player/"star" pair, 0 when the pair is not one. */
  function StarOf(w: World, player: nat, e1: nat, e2: nat): nat
    requires EM.ValidEntity(w, e1) && EM.ValidEntity(w, e2) && |w.entities| == |w.valid|
  {
    if e1 == player && w.entities[e2].name == "star" then e2
    else if e2 == player && w.entities[e1].name == "star" then e1
    else 0
  }

  /** The contract every iteration of the inner loop keeps. */
  ghost predicate StepOk(w: World, r: Step, player: nat, e1: nat, e2: nat)
  {
    && WF(r.world) && |r.world.entities| == |w.entities|
    && (forall x: nat :: Evolves(EM.SlotOf(w, x), EM.SlotOf(r.world, x), x == player))
    && (forall x: nat :: EM.SlotOf(w, x).Live? && EM.SlotOf(r.world, x).Vacant? <==> r.sparkle == Some(x))
    && (Scoring(w, player) ==>
          Scoring(r.world, player) && ScoreAt(r.world, player) == ScoreAt(w, player) + (if r.sparkle.Some? then 10 else 0))
    && (r.shake.Some? ==> e1 == player || e2 == player)
    && (forall x :: x != e1 && x != e2 && x != player ==> EM.SlotOf(r.world, x) == EM.SlotOf(w, x))
  }

  /** The player collects a star. */
  function PickupStep(w: World, player: nat, e1: nat, e2: nat, star: nat): (r: Step)
    requires WF(w) && Resolvable(w, e1, e2) && (star == e1 || star == e2) && star != player
    requires w.entities[star].name == "star"
    ensures StepOk(w, r, player, e1, e2) && r.sparkle == Some(star)
  {
    assert EM.SlotOf(w, star).Live?;
    PickupEffect(w, player, star);
    Step(Pickup(w, player, star), Some(star), None)
  }

  /** Any other colliding pair is resolved. */
  function ResolveStep(w: World, player: nat, e1: nat, e2: nat): (r: Step)
    requires WF(w) && Resolvable(w, e1, e2)
    ensures StepOk(w, r, player, e1, e2) && r.sparkle == None
  {
    ResolvePairEvolves(w, player, e1, e2);
    ResolvePairScores(w, player, e1, e2);
    ResolutionShakes(w, player, e1, e2);
    Step(ResolvePair(w, player, e1, e2), None, Resolution(w, player, e1, e2).shake)
  }

  /** A colliding pair: a star pickup when it is the player and a star,
      ResolveCollision otherwise. */
  function Hit(w: World, player: nat, e1: nat, e2: nat): (r: Step)
    requires WF(w) && Resolvable(w, e1, e2)
    ensures StepOk(w, r, player, e1, e2)
  {
    var star := StarOf(w, player, e1, e2);
    if star != 0 then PickupStep(w, player, e1, e2, star)
    else ResolveStep(w, player, e1, e2)
  }

  /** Only the player's contacts shake the camera. */
  lemma ResolutionShakes(w: World, player: nat, e1: nat, e2: nat)
    requires Resolvable(w, e1, e2)
    ensures Resolution(w, player, e1, e2).shake.Some? ==> e1 == player || e2 == player
  {
    var b1 := BodyOf(EM.Comps(w, e1), e1 == player);
    var b2 := BodyOf(EM.Comps(w, e2), e2 == player);
    var ov := Res.CalculateOverlap(Res.Box(b1), Res.Box(b2));
    Res.ResolveShakesOnlyForPlayer(b1, b2, ov);
  }

  /** One iteration of the inner loop: skip a pair with a removed entity,
      two static bodies or boxes that do not intersect; otherwise it is a
      hit. */
  function PairStep(w: World, player: nat, e1: nat, e2: nat): (r: Step)
    requires WF(w) && e1 != e2
    ensures StepOk(w, r, player, e1, e2)
  {
    EvolvesRefl(w, player);
    if !Resolvable(w, e1, e2) then Step(w, None, None)
    else if !RectIntersect(EM.Comps(w, e1)[COLLISION].collision.currentBoundingBox,
                           EM.Comps(w, e2)[COLLISION].collision.currentBoundingBox) then Step(w, None, None)
    else Hit(w, player, e1, e2)
  }

  // ---------------------------------------------------------------------------
  // The pair loop

  function Opt<T>(o: Option<T>): (s: seq<T>)
    ensures o.None? ==> s == []
    ensures o.Some? ==> s == [o.value]
  {
    if o.Some? then [o.value] else []
  }

  /** What the pair loop has done so far, relative to the world it started
      from: every id evolved as Evolves allows; the picked-up stars are
      exactly the ids that became vacant, each once; the player's score grew
      by 10 per star; shakes come only from a player among the colliders;
      entities that are neither colliders nor the player are untouched. */
  ghost predicate Progress(w0: World, w: World, player: nat, sparkles: seq<nat>, shakes: seq<bool>, cols: seq<nat>)
  {
    && WF(w) && |w.entities| == |w0.entities|
    && (forall x: nat :: Evolves(EM.SlotOf(w0, x), EM.SlotOf(w, x), x == player))
    && (forall x: nat :: x in sparkles <==> EM.SlotOf(w0, x).Live? && EM.SlotOf(w, x).Vacant?)
    && (forall i, j :: 0 <= i < j < |sparkles| ==> sparkles[i] != sparkles[j])
    && (Scoring(w0, player) ==> Scoring(w, player) && ScoreAt(w, player) == ScoreAt(w0, player) + 10 * |sparkles|)
    && (|shakes| > 0 ==> player in cols)
    && (forall x :: x !in cols && x != player ==> EM.SlotOf(w, x) == EM.SlotOf(w0, x))
  }

  lemma ProgressStart(w0: World, player: nat, cols: seq<nat>)
    requires WF(w0)
    ensures Progress(w0, w0, player, [], [], cols)
  {
    EvolvesRefl(w0, player);
  }

  lemma ProgressStep(w0: World, w: World, st: Step, player: nat, e1: nat, e2: nat,
                     sparkles: seq<nat>, shakes: seq<bool>, cols: seq<nat>)
    requires Progress(w0, w, player, sparkles, shakes, cols)
    requires StepOk(w, st, player, e1, e2) && e1 in cols && e2 in cols
    ensures Progress(w0, st.world, player, sparkles + Opt(st.sparkle), shakes + Opt(st.shake), cols)
  {
    var w' := st.world;
    var sp := sparkles + Opt(st.sparkle);
    forall x: nat
      ensures Evolves(EM.SlotOf(w0, x), EM.SlotOf(w', x), x == player)
    {
      EvolvesTrans(EM.SlotOf(w0, x), EM.SlotOf(w, x), EM.SlotOf(w', x), x == player);
    }
    SparklesStep(w0, w, st, player, e1, e2, sparkles);
    if st.sparkle.Some? {
      assert st.sparkle.value !in sparkles;
    }
    assert |sp| == |sparkles| + (if st.sparkle.Some? then 1 else 0);
  }

  lemma SparklesStep(w0: World, w: World, st: Step, player: nat, e1: nat, e2: nat, sparkles: seq<nat>)
    requires forall x: nat :: Evolves(EM.SlotOf(w0, x), EM.SlotOf(w, x), x == player)
    requires forall x: nat :: x in sparkles <==> EM.SlotOf(w0, x).Live? && EM.SlotOf(w, x).Vacant?
    requires StepOk(w, st, player, e1, e2)
    ensures forall x: nat :: x in sparkles + Opt(st.sparkle) <==> EM.SlotOf(w0, x).Live? && EM.SlotOf(st.world, x).Vacant?
  {
    forall x: nat
      ensures x in sparkles + Opt(st.sparkle) <==> EM.SlotOf(w0, x).Live? && EM.SlotOf(st.world, x).Vacant?
    {
      assert Evolves(EM.SlotOf(w0, x), EM.SlotOf(w, x), x == player);
      assert Evolves(EM.SlotOf(w, x), EM.SlotOf(st.world, x), x == player);
    }
  }

  /** What the pair loop has produced so far: the world, the sparkle
      sounds and the shake requests. */
  datatype Sweep = Sweep(world: World, sparkles: seq<nat>, shakes: seq<bool>)

  /** One iteration's outcome added to the loop's results. */
  function After(s: Sweep, st: Step): Sweep
  {
    Sweep(st.world, s.sparkles + Opt(st.sparkle), s.shakes + Opt(st.shake))
  }

  /** A per-pair step the pair loop can run: defined on every well-formed
      world and pair of distinct ids, and keeping the world well-formed. */
  ghost predicate Defined(step: (World, nat, nat, nat) --> Step)
  {
    forall w: World, player: nat, e1: nat, e2: nat :: WF(w) && e1 != e2 ==>
      step.requires(w, player, e1, e2) && WF(step(w, player, e1, e2).world)
  }

  /** A step that also keeps StepOk. PairStep is the one CollisionSystem
      runs (PairStepLawful). */
  ghost predicate Lawful(step: (World, nat, nat, nat) --> Step)
  {
    && Defined(step)
    && forall w: World, player: nat, e1: nat, e2: nat
         {:trigger StepOk(w, step(w, player, e1, e2), player, e1, e2)} :: WF(w) && e1 != e2 ==>
         StepOk(w, step(w, player, e1, e2), player, e1, e2)
  }

  lemma PairStepLawful()
    ensures Lawful(PairStep)
  {
    forall w: World, player: nat, e1: nat, e2: nat | WF(w) && e1 != e2
      ensures StepOk(w, PairStep(w, player, e1, e2), player, e1, e2)
    {
      var r := PairStep(w, player, e1, e2);
    }
  }

  /** The inner loop for the collider at position i, up to position j:
      `step` on (cols[i], cols[i + 1]), ..., (cols[i], cols[j - 1]), in
      order, starting from s. */
  ghost function InnerUpTo(s: Sweep, cols: seq<nat>, player: nat, i: nat, j: nat,
                           step: (World, nat, nat, nat) --> Step): (r: Sweep)
    requires WF(s.world) && i < j <= |cols| && Defined(step)
    requires forall a, b :: 0 <= a < b < |cols| ==> cols[a] < cols[b]
    ensures WF(r.world)
    decreases j
  {
    if j == i + 1 then s
    else
      var t := InnerUpTo(s, cols, player, i, j - 1, step);
      After(t, step(t.world, player, cols[i], cols[j - 1]))
  }

  /** The outer loop up to position i: the inner loops of positions
      0, ..., i - 1, in order, starting from s. */
  ghost function PairsUpTo(s: Sweep, cols: seq<nat>, player: nat, i: nat,
                           step: (World, nat, nat, nat) --> Step): (r: Sweep)
    requires WF(s.world) && i <= |cols| && Defined(step)
    requires forall a, b :: 0 <= a < b < |cols| ==> cols[a] < cols[b]
    ensures WF(r.world)
  {
    if i == 0 then s
    else InnerUpTo(PairsUpTo(s, cols, player, i - 1, step), cols, player, i - 1, |cols|, step)
  }

  /** Every inner loop keeps Progress. */
  lemma {:induction false} InnerProgress(w0: World, s: Sweep, cols: seq<nat>, player: nat, i: nat, j: nat,
                                         step: (World, nat, nat, nat) --> Step)
    requires i < j <= |cols| && Lawful(step)
    requires forall a, b :: 0 <= a < b < |cols| ==> cols[a] < cols[b]
    requires Progress(w0, s.world, player, s.sparkles, s.shakes, cols)
    ensures var r := InnerUpTo(s, cols, player, i, j, step);
      Progress(w0, r.world, player, r.sparkles, r.shakes, cols)
    decreases j
  {
    if j > i + 1 {
      InnerProgress(w0, s, cols, player, i, j - 1, step);
      var t := InnerUpTo(s, cols, player, i, j - 1, step);
      var st := step(t.world, player, cols[i], cols[j - 1]);
      ProgressStep(w0, t.world, st, player, cols[i], cols[j - 1], t.sparkles, t.shakes, cols);
    }
  }

  /** The inner loop of CollisionSystem for the collider at position i:
      the pairs (cols[i], cols[j]) for every j > i, in order. */
  method Inner(s: Sweep, cols: seq<nat>, player: nat, i: nat,
               step: (World, nat, nat, nat) --> Step) returns (r: Sweep)
    requires i < |cols| && Defined(step) && WF(s.world)
    requires forall a, b :: 0 <= a < b < |cols| ==> cols[a] < cols[b]
    ensures r == InnerUpTo(s, cols, player, i, |cols|, step)
  {
    r := s;
    var j := i + 1;
    while j < |cols|
      invariant i < j <= |cols|
      invariant r == InnerUpTo(s, cols, player, i, j, step)
    {
      r := After(r, step(r.world, player, cols[i], cols[j]));
      j := j + 1;
    }
  }

  /** Progress holds of a Sweep, whatever term denotes it. */
  lemma ProgressSame(w0: World, a: Sweep, b: Sweep, player: nat, cols: seq<nat>)
    requires a == b && Progress(w0, a.world, player, a.sparkles, a.shakes, cols)
    ensures Progress(w0, b.world, player, b.sparkles, b.shakes, cols)
  {
  }

  /** Every prefix of the outer loop keeps Progress. */
  lemma {:induction false} PairsProgress(w0: World, cols: seq<nat>, player: nat, i: nat,
                                         step: (World, nat, nat, nat) --> Step)
    requires WF(w0) && i <= |cols| && Lawful(step)
    requires forall a, b :: 0 <= a < b < |cols| ==> cols[a] < cols[b]
    ensures var r := PairsUpTo(Sweep(w0, [], []), cols, player, i, step);
      Progress(w0, r.world, player, r.sparkles, r.shakes, cols)
  {
    if i == 0 {
      ProgressStart(w0, player, cols);
    } else {
      PairsProgress(w0, cols, player, i - 1, step);
      var t := PairsUpTo(Sweep(w0, [], []), cols, player, i - 1, step);
      InnerProgress(w0, t, cols, player, i - 1, |cols|, step);
      ProgressSame(w0, InnerUpTo(t, cols, player, i - 1, |cols|, step), PairsUpTo(Sweep(w0, [], []), cols, player, i, step), player, cols);
    }
  }

  /** The outer loop of CollisionSystem: the inner loop of every position
      of `cols`, in order. */
  method Outer(w0: World, cols: seq<nat>, player: nat, step: (World, nat, nat, nat) --> Step)
    returns (s: Sweep)
    requires WF(w0) && Defined(step)
    requires forall i, j :: 0 <= i < j < |cols| ==> cols[i] < cols[j]
    ensures s == PairsUpTo(Sweep(w0, [], []), cols, player, |cols|, step)
  {
    s := Sweep(w0, [], []);
    var i := 0;
    while i < |cols|
      invariant 0 <= i <= |cols|
      invariant s == PairsUpTo(Sweep(w0, [], []), cols, player, i, step)
    {
      s := Inner(s, cols, player, i, step);
      i := i + 1;
    }
  }

  /** The pair loop of CollisionSystem over the colliders in `cols`, in
      increasing id order: every pair i < j once, each handled by `step`. */
  method Pairs(w0: World, cols: seq<nat>, player: nat, step: (World, nat, nat, nat) --> Step)
    returns (s: Sweep)
    requires WF(w0) && Lawful(step)
    requires forall i, j :: 0 <= i < j < |cols| ==> cols[i] < cols[j]
    ensures Progress(w0, s.world, player, s.sparkles, s.shakes, cols)
    ensures s == PairsUpTo(Sweep(w0, [], []), cols, player, |cols|, step)
  {
    s := Outer(w0, cols, player, step);
    PairsProgress(w0, cols, player, |cols|, step);
    ProgressSame(w0, PairsUpTo(Sweep(w0, [], []), cols, player, |cols|, step), s, player, cols);
  }

  // ---------------------------------------------------------------------------
  // After the pair loop

  /** The player's contacts of this frame become last frame's: touching a
      wall is a left or right contact, standing is a bottom contact. */
  function Latched(col: Collision): (r: Collision)
    ensures r.wasTouchingWallLast <==> col.collidedLeft || col.collidedRight
    ensures r.wasStandingLast == col.collidedBottom
    ensures r.(wasTouchingWallLast := col.wasTouchingWallLast, wasStandingLast := col.wasStandingLast) == col
  {
    col.(wasTouchingWallLast := col.collidedLeft || col.collidedRight, wasStandingLast := col.collidedBottom)
  }

  /** Latching twice is latching once. */
  lemma LatchedIdempotent(col: Collision)
    ensures Latched(Latched(col)) == Latched(col)
  {
  }

  /** Latching inside a components map. */
  function LatchIn(c: map<nat, Component>): (r: map<nat, Component>)
    requires HasCollision(c)
    ensures r.Keys == c.Keys && HasCollision(r)
    ensures r[COLLISION].collision == Latched(c[COLLISION].collision)
    ensures forall k :: k in c && k != COLLISION ==> r[k] == c[k]
    ensures Typed(c) ==> Typed(r)
  {
    c[COLLISION := CCollision(Latched(c[COLLISION].collision))]
  }

  /** The last statement of CollisionSystem, on the player when there is one
      and it has a collision component. */
  function Latch(w: World, player: nat): (r: World)
    requires WF(w)
    ensures WF(r)
    ensures forall x :: x != player ==> EM.SlotOf(r, x) == EM.SlotOf(w, x)
    ensures player != 0 && EM.ValidEntity(w, player) && HasCollision(EM.Comps(w, player)) ==>
      EM.SlotOf(r, player) == EM.Live(w.entities[player].name, LatchIn(EM.Comps(w, player)))
    ensures !(player != 0 && EM.ValidEntity(w, player) && HasCollision(EM.Comps(w, player))) ==> r == w
  {
    if player != 0 && EM.ValidEntity(w, player) && HasCollision(EM.Comps(w, player)) then
      var c := EM.Comps(w, player);
      assert EM.SlotOf(w, player).Live?;
      var r := Set(w, player, COLLISION, LatchIn(c)[COLLISION]);
      assert LatchIn(c) == c[COLLISION := LatchIn(c)[COLLISION]];
      r
    else w
  }

  predicate HasCameraShake(c: map<nat, Component>) { CAMERA_SHAKE in c && c[CAMERA_SHAKE].CCameraShake? }

  /** A shake request: `isShaking = true; horizontal = h`. */
  function Shaken(c: map<nat, Component>, h: bool): (r: map<nat, Component>)
    requires HasCameraShake(c)
    ensures r.Keys == c.Keys && HasCameraShake(r)
    ensures r[CAMERA_SHAKE].shake.isShaking && r[CAMERA_SHAKE].shake.horizontal == h
    ensures forall k :: k in c && k != CAMERA_SHAKE ==> r[k] == c[k]
    ensures Typed(c) ==> Typed(r)
  {
    c[CAMERA_SHAKE := CCameraShake(c[CAMERA_SHAKE].shake.(isShaking := true, horizontal := h))]
  }

  /** The camera shake writes of the pair loop, applied together: the last
      request decides the direction. A camera without a CameraShake
      component is skipped (the source asserts it has one). */
  function ApplyShake(w: World, camera: nat, shakes: seq<bool>): (r: World)
    requires WF(w)
    ensures WF(r)
    ensures forall x :: x != camera ==> EM.SlotOf(r, x) == EM.SlotOf(w, x)
    ensures |shakes| > 0 && EM.ValidEntity(w, camera) && HasCameraShake(EM.Comps(w, camera)) ==>
      EM.SlotOf(r, camera) == EM.Live(w.entities[camera].name, Shaken(EM.Comps(w, camera), shakes[|shakes| - 1]))
    ensures !(|shakes| > 0 && EM.ValidEntity(w, camera) && HasCameraShake(EM.Comps(w, camera))) ==> r == w
  {
    if |shakes| > 0 && EM.ValidEntity(w, camera) && HasCameraShake(EM.Comps(w, camera)) then
      var c := EM.Comps(w, camera);
      assert EM.SlotOf(w, camera).Live?;
      var c' := Shaken(c, shakes[|shakes| - 1]);
      Set(w, camera, CAMERA_SHAKE, c'[CAMERA_SHAKE])
    else w
  }

  // ---------------------------------------------------------------------------
  // CollisionSystem

  /** The refresh changes no name, no component type and no liveness, so the
      colliders, the camera and the player are the same before and after. */
  lemma RefreshKeepsRoles(w: World)
    requires WF(w)
    ensures var w1 := Refresh(w);
      && (forall x: nat :: Collider(w1, x) == Collider(w, x))
      && Find(w1, PlayerRole) == Find(w, PlayerRole) && Find(w1, CameraRole) == Find(w, CameraRole)
  {
    var w1 := Refresh(w);
    forall x: nat
      ensures Collider(w1, x) == Collider(w, x)
      ensures Plays(w1, x, PlayerRole) == Plays(w, x, PlayerRole)
      ensures Plays(w1, x, CameraRole) == Plays(w, x, CameraRole)
    {
      RefreshKeepsRolesAt(w, w1, x);
    }
    FindUnique(w, w1, PlayerRole);
    FindUnique(w, w1, CameraRole);
  }

  lemma RefreshKeepsRolesAt(w: World, w1: World, x: nat)
    requires WF(w) && w1.entities == w.entities
    requires EM.SlotOf(w1, x) == if Visited(w, x) then Apply(EM.SlotOf(w, x), RefreshRule) else EM.SlotOf(w, x)
    ensures Collider(w1, x) == Collider(w, x)
    ensures Plays(w1, x, PlayerRole) == Plays(w, x, PlayerRole)
    ensures Plays(w1, x, CameraRole) == Plays(w, x, CameraRole)
  {
    if Visited(w, x) {
      VisitedIsLiveNonZero(w, x);
      var c := EM.Comps(w, x);
      assert EM.SlotOf(w, x) == EM.Live(w.entities[x].name, c);
      assert EM.SlotOf(w1, x) == EM.Live(w.entities[x].name, RefreshRule(c));
      RefreshRuleRoles(c);
    }
  }

  lemma RefreshRuleRoles(c: map<nat, Component>)
    ensures HasCollision(RefreshRule(c)) == HasCollision(c) && HasInput(RefreshRule(c)) == HasInput(c)
  {
  }

  /** Find depends only on who plays the role. */
  lemma FindUnique(w: World, w1: World, role: Role)
    requires WF(w) && WF(w1)
    requires forall x: nat :: Plays(w1, x, role) == Plays(w, x, role)
    ensures Find(w1, role) == Find(w, role)
  {
  }

  /** Two meanings of an id that agree on liveness and name. */
  predicate SameLife(a: EM.Slot<Component>, b: EM.Slot<Component>)
  {
    a.Live? == b.Live? && (a.Live? ==> a.name == b.name)
  }

  /** The shake keeps every id's liveness and name. */
  lemma ShakeSameLife(w: World, camera: nat, shakes: seq<bool>, x: nat)
    requires WF(w)
    ensures SameLife(EM.SlotOf(w, x), EM.SlotOf(ApplyShake(w, camera, shakes), x))
  {
    if x == camera && |shakes| > 0 && EM.ValidEntity(w, camera) && HasCameraShake(EM.Comps(w, camera)) {
      assert EM.SlotOf(w, x).Live?;
    }
  }

  /** So does the latch. */
  lemma LatchSameLife(w: World, player: nat, x: nat)
    requires WF(w)
    ensures SameLife(EM.SlotOf(w, x), EM.SlotOf(Latch(w, player), x))
  {
    if x == player && player != 0 && EM.ValidEntity(w, player) && HasCollision(EM.Comps(w, player)) {
      assert EM.SlotOf(w, x).Live?;
    }
  }

  /** The liveness and name of one id through the four stages of
      CollisionSystem: refresh, pair loop, shake, latch. */
  lemma ChainAt(s0: EM.Slot<Component>, s1: EM.Slot<Component>, s2: EM.Slot<Component>,
                s3: EM.Slot<Component>, s4: EM.Slot<Component>, isPlayer: bool)
    requires SameLife(s0, s1) && Evolves(s1, s2, isPlayer) && SameLife(s2, s3) && SameLife(s3, s4)
    ensures s4.Live? ==> s0.Live? && s4.name == s0.name
    ensures s0.Live? && s4.Vacant? <==> s1.Live? && s2.Vacant?
    ensures s1.Live? && s2.Vacant? ==> s0.name == "star" && !isPlayer && HasCollision(s1.comps)
  {
  }

  /** The refresh leaves an id that is not a collider alone. */
  lemma RefreshUntouched(w: World, x: nat)
    requires WF(w) && !Collider(w, x)
    ensures EM.SlotOf(Refresh(w), x) == EM.SlotOf(w, x)
  {
    if Visited(w, x) {
      VisitedIsLiveNonZero(w, x);
      assert EM.SlotOf(w, x).Live?;
    }
  }

  /** None of the stages around the pair loop touches a score. */
  lemma RefreshKeepsScore(w: World, p: nat)
    requires WF(w) && Scoring(w, p)
    ensures Scoring(Refresh(w), p) && ScoreAt(Refresh(w), p) == ScoreAt(w, p)
  {
    var w1 := Refresh(w);
    assert EM.SlotOf(w, p).Live?;
    if Visited(w, p) {
      var c := EM.Comps(w, p);
      assert EM.SlotOf(w1, p) == EM.Live(w.entities[p].name, RefreshRule(c));
    }
    SameScore(w, w1, p);
  }

  lemma ShakeKeepsScore(w: World, camera: nat, shakes: seq<bool>, p: nat)
    requires WF(w) && Scoring(w, p)
    ensures Scoring(ApplyShake(w, camera, shakes), p) && ScoreAt(ApplyShake(w, camera, shakes), p) == ScoreAt(w, p)
  {
    var r := ApplyShake(w, camera, shakes);
    assert EM.SlotOf(w, p).Live?;
    SameScore(w, r, p);
  }

  lemma LatchKeepsScore(w: World, player: nat, p: nat)
    requires WF(w) && Scoring(w, p)
    ensures Scoring(Latch(w, player), p) && ScoreAt(Latch(w, player), p) == ScoreAt(w, p)
  {
    var r := Latch(w, player);
    assert EM.SlotOf(w, p).Live?;
    SameScore(w, r, p);
  }

  /** The stages around the pair loop: whatever the loop did within
      Progress, the frame's result keeps lives and names, its sparkles are
      the stars that vanished, and the score grew by 10 per star. */
  lemma AroundPairs(w: World, w2: World, sparkles: seq<nat>, shakes: seq<bool>)
    requires WF(w)
    requires Progress(Refresh(w), w2, Find(w, PlayerRole), sparkles, shakes, Colliders(Refresh(w)))
    ensures var r := Latch(ApplyShake(w2, Find(w, CameraRole), shakes), Find(w, PlayerRole));
      && WF(r)
      && (forall x: nat :: EM.SlotOf(r, x).Live? ==> EM.SlotOf(w, x).Live? && EM.SlotOf(r, x).name == EM.SlotOf(w, x).name)
      && (forall x: nat :: x in sparkles <==> EM.SlotOf(w, x).Live? && EM.SlotOf(r, x).Vacant?)
      && (forall x :: x in sparkles ==> w.entities[x].name == "star" && x != Find(w, PlayerRole) && Collider(w, x))
      && (var p := Find(w, PlayerRole);
          Scoring(w, p) ==> Scoring(r, p) && ScoreAt(r, p) == ScoreAt(w, p) + 10 * |sparkles|)
      && (|shakes| > 0 ==> Collider(w, Find(w, PlayerRole)))
      && (forall x :: !Collider(w, x) && x != Find(w, PlayerRole) && x != Find(w, CameraRole) ==>
            EM.SlotOf(r, x) == EM.SlotOf(w, x))
  {
    var player := Find(w, PlayerRole);
    var camera := Find(w, CameraRole);
    var w1 := Refresh(w);
    RefreshKeepsRoles(w);
    var cols := Colliders(w1);
    var w3 := ApplyShake(w2, camera, shakes);
    var r := Latch(w3, player);
    forall x: nat
      ensures EM.SlotOf(r, x).Live? ==> EM.SlotOf(w, x).Live? && EM.SlotOf(r, x).name == EM.SlotOf(w, x).name
      ensures x in sparkles <==> EM.SlotOf(w, x).Live? && EM.SlotOf(r, x).Vacant?
      ensures x in sparkles ==> w.entities[x].name == "star" && x != player
    {
      ShakeSameLife(w2, camera, shakes, x);
      LatchSameLife(w3, player, x);
      ChainAt(EM.SlotOf(w, x), EM.SlotOf(w1, x), EM.SlotOf(w2, x), EM.SlotOf(w3, x), EM.SlotOf(r, x), x == player);
    }
    forall x | x in sparkles
      ensures Collider(w, x)
    {
      assert x in cols;
    }
    forall x | !Collider(w, x) && x != player && x != camera
      ensures EM.SlotOf(r, x) == EM.SlotOf(w, x)
    {
      RefreshUntouched(w, x);
      assert x !in cols;
    }
    if Scoring(w, player) {
      RefreshKeepsScore(w, player);
      ShakeKeepsScore(w2, camera, shakes, player);
      LatchKeepsScore(w3, player, player);
    }
  }

  /** CollisionSystem(entityManager, soundManager): returns the new world,
      one id per "sparkle" sound (the stars picked up, in order) and the
      camera shake requests in order (true: horizontal). */
  method Collide(w: World) returns (r: World, sparkles: seq<nat>, shakes: seq<bool>)
    requires WF(w)
    ensures WF(r)
    ensures forall x: nat :: EM.SlotOf(r, x).Live? ==> EM.SlotOf(w, x).Live? && EM.SlotOf(r, x).name == EM.SlotOf(w, x).name
    ensures forall x: nat :: x in sparkles <==> EM.SlotOf(w, x).Live? && EM.SlotOf(r, x).Vacant?
    ensures forall x :: x in sparkles ==> w.entities[x].name == "star" && x != Find(w, PlayerRole) && Collider(w, x)
    ensures forall i, j :: 0 <= i < j < |sparkles| ==> sparkles[i] != sparkles[j]
    ensures var p := Find(w, PlayerRole);
      Scoring(w, p) ==> Scoring(r, p) && ScoreAt(r, p) == ScoreAt(w, p) + 10 * |sparkles|
    ensures |shakes| > 0 ==> Collider(w, Find(w, PlayerRole))
    ensures forall x :: !Collider(w, x) && x != Find(w, PlayerRole) && x != Find(w, CameraRole) ==>
      EM.SlotOf(r, x) == EM.SlotOf(w, x)
    ensures var player := Find(w, PlayerRole);
      var w1 := Refresh(w);
      var f := PairsUpTo(Sweep(w1, [], []), Colliders(w1), player, |Colliders(w1)|, PairStep);
      && r == Latch(ApplyShake(f.world, Find(w, CameraRole), f.shakes), player)
      && sparkles == f.sparkles && shakes == f.shakes
  {
    var player := Find(w, PlayerRole);
    var camera := Find(w, CameraRole);
    var w1 := Refresh(w);
    var cols := Colliders(w1);
    PairStepLawful();
    var f := Pairs(w1, cols, player, PairStep);
    AroundPairs(w, f.world, f.sparkles, f.shakes);
    r, sparkles, shakes := Latch(ApplyShake(f.world, camera, f.shakes), player), f.sparkles, f.shakes;
  }
}

=== FILE: component_storage.dfy ===
/** ComponentStorage<T>: the per-type slot array of the registry. A slot is
    live while its validity bit is set; dead slots are remembered in a free
    list that is reused last-in first-out, and a count of live slots is kept
    alongside. */
module ComponentStorage {

  /** The fields of the C++ class; `blank` is the value-initialised `T{}`
      that a removed slot is reset to. */
  datatype Storage<T> = Storage(slots: seq<T>, valid: seq<bool>, free: seq<nat>, count: nat, blank: T)

  /** Number of set bits. */
  function CountValid(v: seq<bool>): (n: nat)
    ensures n <= |v|
  {
    if v == [] then 0 else CountValid(v[..|v| - 1]) + (if v[|v| - 1] then 1 else 0)
  }

  /** The storage invariant kept by every operation. */
  ghost predicate Inv<T>(s: Storage<T>)
  {
    && |s.valid| == |s.slots|
    && (forall i :: 0 <= i < |s.free| ==> s.free[i] < |s.slots| && !s.valid[s.free[i]])
    && (forall i, j :: 0 <= i < j < |s.free| ==> s.free[i] != s.free[j])
    && (forall id :: 0 <= id < |s.slots| && !s.valid[id] ==> id in s.free && s.slots[id] == s.blank)
    && s.count == CountValid(s.valid)
    && |s.free| + s.count == |s.slots|
  }

  /** A default-constructed storage. */
  function Empty<T>(blank: T): (s: Storage<T>)
    ensures Inv(s) && Size(s) == 0
    ensures forall id :: !Valid(s, id)
  {
    Storage([], [], [], 0, blank)
  }

  /** valid(id): in range and marked live. */
  predicate Valid<T>(s: Storage<T>, id: nat)
  {
    id < |s.valid| && s.valid[id]
  }

  /** size(): the live count. */
  function Size<T>(s: Storage<T>): nat
  {
    s.count
  }

  /** The live contents as a map from handle to value. */
  function View<T>(s: Storage<T>): map<nat, T>
  {
    map id | 0 <= id < |s.slots| && id < |s.valid| && s.valid[id] :: s.slots[id]
  }

  /** operator[]: the source asserts the handle is live. */
  function Get<T>(s: Storage<T>, id: nat): (v: T)
    requires Inv(s) && Valid(s, id)
    ensures id in View(s) && v == View(s)[id]
  {
    s.slots[id]
  }

  /** The const operator[] skips the check: any in-range slot can be read,
      and a dead one holds the blank value. */
  function Peek<T>(s: Storage<T>, id: nat): (v: T)
    requires Inv(s) && id < |s.slots|
    ensures Valid(s, id) ==> v == Get(s, id)
    ensures !Valid(s, id) ==> v == s.blank
  {
    s.slots[id]
  }

  /** Writing through the reference returned by operator[]. */
  function Put<T>(s: Storage<T>, id: nat, v: T): (r: Storage<T>)
    requires Inv(s) && Valid(s, id)
    ensures Inv(r) && Size(r) == Size(s)
    ensures View(r) == View(s)[id := v]
    ensures forall k :: Valid(r, k) == Valid(s, k)
  {
    s.(slots := s.slots[id := v])
  }

  lemma {:induction false} CountValidSet(v: seq<bool>, i: nat)
    requires i < |v| && !v[i]
    ensures CountValid(v[i := true]) == CountValid(v) + 1
    decreases |v|
  {
    var n := |v| - 1;
    assert v[i := true][..n] == if i < n then v[..n][i := true] else v[..n];
    if i < n {
      CountValidSet(v[..n], i);
    }
  }

  lemma {:induction false} CountValidClear(v: seq<bool>, i: nat)
    requires i < |v| && v[i]
    ensures CountValid(v[i := false]) + 1 == CountValid(v)
    decreases |v|
  {
    var n := |v| - 1;
    assert v[i := false][..n] == if i < n then v[..n][i := false] else v[..n];
    if i < n {
      CountValidClear(v[..n], i);
    }
  }

  lemma CountValidAppend(v: seq<bool>)
    ensures CountValid(v + [true]) == CountValid(v) + 1
  {
    assert (v + [true])[..|v|] == v;
  }

  /** The result of store(): the new storage and the handle of the value. */
  datatype Stored<T> = Stored(storage: Storage<T>, id: nat)

  /** The free-list branch of store(). */
  function Reuse<T>(s: Storage<T>, v: T): Storage<T>
    requires |s.free| > 0 && s.free[|s.free| - 1] < |s.slots| == |s.valid|
  {
    var id := s.free[|s.free| - 1];
    Storage(s.slots[id := v], s.valid[id := true], s.free[..|s.free| - 1], s.count + 1, s.blank)
  }

  /** The append branch of store(). */
  function Append<T>(s: Storage<T>, v: T): Storage<T>
  {
    Storage(s.slots + [v], s.valid + [true], s.free, s.count + 1, s.blank)
  }

  lemma ReuseKeepsInv<T>(s: Storage<T>, v: T)
    requires Inv(s) && |s.free| > 0
    ensures Inv(Reuse(s, v))
  {
    var id := s.free[|s.free| - 1];
    var r := Reuse(s, v);
    CountValidSet(s.valid, id);
    forall i | 0 <= i < |r.free|
      ensures r.free[i] < |r.slots| && !r.valid[r.free[i]]
    {
      assert r.free[i] == s.free[i];
      assert s.free[i] != id;
    }
    forall k | 0 <= k < |r.slots| && !r.valid[k]
      ensures k in r.free && r.slots[k] == r.blank
    {
      ReuseDead(s, v, k);
    }
  }

  /** A slot still dead after the reuse was on the rest of the free list. */
  lemma ReuseDead<T>(s: Storage<T>, v: T, k: nat)
    requires Inv(s) && |s.free| > 0
    requires k < |Reuse(s, v).slots| && !Reuse(s, v).valid[k]
    ensures k in Reuse(s, v).free && Reuse(s, v).slots[k] == s.blank
  {
    var id := s.free[|s.free| - 1];
    var r := Reuse(s, v);
    assert k != id && !s.valid[k];
    var i :| 0 <= i < |s.free| && s.free[i] == k;
    assert i < |r.free|;
    assert r.free[i] == k;
  }

  /** The reused slot now holds the value; no other handle changes. */
  lemma ReuseView<T>(s: Storage<T>, v: T)
    requires Inv(s) && |s.free| > 0
    ensures View(Reuse(s, v)) == View(s)[s.free[|s.free| - 1] := v]
  {
  }

  lemma AppendKeepsInv<T>(s: Storage<T>, v: T)
    requires Inv(s) && |s.free| == 0
    ensures Inv(Append(s, v))
  {
    var r := Append(s, v);
    CountValidAppend(s.valid);
    forall k | 0 <= k < |r.slots|
      ensures r.valid[k]
    {
      if k < |s.slots| {
        assert r.valid[k] == s.valid[k];
        assert k !in s.free;
      }
    }
  }

  /** The appended slot holds the value; no other handle changes. */
  lemma AppendView<T>(s: Storage<T>, v: T)
    requires Inv(s) && |s.free| == 0
    ensures View(Append(s, v)) == View(s)[|s.slots| := v]
  {
    var r := Append(s, v);
    forall k | 0 <= k < |s.slots|
      ensures k in View(r) && View(r)[k] == View(s)[k]
    {
      assert r.valid[k] == s.valid[k] && r.slots[k] == s.slots[k];
    }
    assert View(r).Keys == View(s).Keys + {|s.slots|};
  }

  /** store(value): takes the most recently freed slot if there is one,
      otherwise appends a new slot; either way the handle was dead before and
      is live afterwards, holds the value, and no other slot changes. */
  function Store<T>(s: Storage<T>, v: T): (r: Stored<T>)
    requires Inv(s)
    ensures Inv(r.storage)
    ensures !Valid(s, r.id) && Valid(r.storage, r.id)
    ensures View(r.storage) == View(s)[r.id := v]
    ensures Size(r.storage) == Size(s) + 1
    ensures |s.free| > 0 ==> r.id == s.free[|s.free| - 1] && r.storage.free == s.free[..|s.free| - 1]
    ensures |s.free| == 0 ==> r.id == |s.slots| && r.storage.free == []
    ensures forall k :: k != r.id ==> Valid(r.storage, k) == Valid(s, k)
    ensures r.storage.blank == s.blank
  {
    if |s.free| > 0 then
      ReuseKeepsInv(s, v);
      ReuseView(s, v);
      Stored(Reuse(s, v), s.free[|s.free| - 1])
    else
      AppendKeepsInv(s, v);
      AppendView(s, v);
      Stored(Append(s, v), |s.slots|)
  }

  /** The body of remove(). */
  function Cleared<T>(s: Storage<T>, id: nat): Storage<T>
    requires Inv(s) && Valid(s, id)
  {
    CountValidClear(s.valid, id);
    Storage(s.slots[id := s.blank], s.valid[id := false], s.free + [id], s.count - 1, s.blank)
  }

  lemma RemoveKeepsInv<T>(s: Storage<T>, id: nat)
    requires Inv(s) && Valid(s, id)
    ensures Inv(Cleared(s, id))
  {
    var r := Cleared(s, id);
    CountValidClear(s.valid, id);
    assert id !in s.free;
    forall i, j | 0 <= i < j < |r.free|
      ensures r.free[i] != r.free[j]
    {
      if j < |s.free| {
        assert r.free[i] == s.free[i] && r.free[j] == s.free[j];
      } else {
        assert r.free[i] == s.free[i];
      }
    }
    forall i | 0 <= i < |r.free|
      ensures r.free[i] < |r.slots| && !r.valid[r.free[i]]
    {
      if i < |s.free| {
        assert r.free[i] == s.free[i];
      }
    }
    forall k | 0 <= k < |r.slots| && !r.valid[k]
      ensures k in r.free && r.slots[k] == r.blank
    {
      if k != id {
        assert k in s.free;
      } else {
        assert r.free[|s.free|] == k;
      }
    }
  }

  /** Removing a handle takes exactly it out of the view. */
  lemma RemoveView<T>(s: Storage<T>, id: nat)
    requires Inv(s) && Valid(s, id)
    ensures View(Cleared(s, id)) == View(s) - {id}
  {
  }

  /** remove(id): the source asserts the handle is live; the slot is reset to
      the blank value and pushed on the free list. */
  function Remove<T>(s: Storage<T>, id: nat): (r: Storage<T>)
    requires Inv(s) && Valid(s, id)
    ensures Inv(r)
    ensures !Valid(r, id)
    ensures View(r) == View(s) - {id}
    ensures Size(r) + 1 == Size(s)
    ensures r.free == s.free + [id]
    ensures forall k :: k != id ==> Valid(r, k) == Valid(s, k)
    ensures r.blank == s.blank && |r.slots| == |s.slots|
  {
    RemoveKeepsInv(s, id);
    RemoveView(s, id);
    Cleared(s, id)
  }

  /** Removing a handle and storing again reuses the same slot and amounts
      to an in-place write. */
  lemma RemoveThenStore<T>(s: Storage<T>, id: nat, v: T)
    requires Inv(s) && Valid(s, id)
    ensures Store(Remove(s, id), v).id == id
    ensures Store(Remove(s, id), v).storage == Put(s, id, v)
  {
    var r := Remove(s, id);
    assert r.free[..|r.free| - 1] == s.free;
    assert s.valid[id := false][id := true] == s.valid;
  }

  /** Storing and then removing the new handle restores the live contents
      and the count. */
  lemma StoreThenRemove<T>(s: Storage<T>, v: T)
    requires Inv(s)
    ensures var st := Store(s, v);
      View(Remove(st.storage, st.id)) == View(s) && Size(Remove(st.storage, st.id)) == Size(s)
  {
    var st := Store(s, v);
    UpdateThenDrop(View(s), st.id, v);
  }

  /** Adding a fresh key and taking it out again gives the map back. */
  lemma UpdateThenDrop<T>(m: map<nat, T>, k: nat, v: T)
    requires k !in m
    ensures m[k := v] - {k} == m
  {
    assert (m[k := v] - {k}).Keys == m.Keys;
  }
}

=== FILE: components.dfy ===
/** The twelve component records of the game and the registry pack that
    numbers them. Floats are real numbers; sprite and entity ids are
    naturals; the keyboard bitset is reduced to the keys the systems read. */
module Components {
  import opened MathUtil
  import Pack

  datatype Location = Location(position: Point)

  datatype Movement = Movement(velocity: Point, maxSpeed: real)

  datatype Acceleration = Acceleration(acceleration: Point)

  /** CollisionComponent: contact flags of the current frame, the two latches
      of the previous frame, the box offset from the entity position, the
      current and previous world boxes, and whether the body is static. */
  datatype Collision = Collision(
    collidedTop: bool, collidedBottom: bool, collidedLeft: bool, collidedRight: bool,
    wasStandingLast: bool, wasTouchingWallLast: bool,
    boundingBoxOffset: Point, currentBoundingBox: Rect, previousBoundingBox: Rect,
    isStatic: bool, boundingBoxInitialized: bool)

  datatype Sprite = Sprite(spriteID: nat, spriteRect: Rect, worldSpace: bool, isAlive: bool)

  /** SpawnComponent; maxSpawns -1 means unlimited. */
  datatype Spawn = Spawn(
    entityID: nat, entityType: string, spriteID: nat,
    timeToNextSpawn: real, spawnInterval: real, spawnCount: int, maxSpawns: int)

  datatype Camera = Camera(position: Point, worldUnitsPerPixel: real)

  datatype CameraFollower = CameraFollower(entityToTrack: nat, followX: bool, followY: bool)

  /** The keys whose state the systems read. */
  datatype Key = KeyA | KeyD | KeyW | KeyS | KeySpace

  /** InputComponent: the set of keys currently held down. */
  datatype Input = Input(keydown: set<Key>)

  datatype CameraShake = CameraShake(
    isShaking: bool, horizontal: bool, magnitudeX: real, magnitudeY: real,
    frequencyX: real, frequencyY: real, elapsedTime: real)

  /** ScoreComponent: digitSprites is a fixed array of ten sprite ids. */
  datatype Score = Score(score: int, displayEntities: seq<nat>, digitSprites: seq<nat>)

  datatype Time = Time(totalDuration: real, timeRemaining: real, isRunning: bool, restart: bool)

  // ---------------------------------------------------------------------------
  // Constructors with their defaults

  const DefaultMaxSpeed: real := 300.0

  function NewMovement(velocity: Point): (m: Movement)
    ensures m.maxSpeed == 300.0 && m.velocity == velocity
  {
    Movement(velocity, DefaultMaxSpeed)
  }

  /** CollisionComponent(): no contacts, an empty box, static, not yet placed. */
  const DefaultCollision: Collision :=
    Collision(false, false, false, false, true, false, Point(0.0, 0.0), EmptyRect, EmptyRect, true, false)

  /** CollisionComponent(box, isStatic): the box's corner becomes the offset
      from the entity position; the world box is computed later. */
  function NewCollision(box: Rect, isStatic: bool): (c: Collision)
    ensures c.boundingBoxOffset == box.topLeft
    ensures c.currentBoundingBox == box && c.previousBoundingBox == box
    ensures c.isStatic == isStatic && !c.boundingBoxInitialized
    ensures !c.collidedTop && !c.collidedBottom && !c.collidedLeft && !c.collidedRight
    ensures c.wasStandingLast && !c.wasTouchingWallLast
  {
    Collision(false, false, false, false, true, false, box.topLeft, box, box, isStatic, false)
  }

  /** clearCollisions: drops the four contact flags and nothing else. */
  function ClearCollisions(c: Collision): (r: Collision)
    ensures !r.collidedTop && !r.collidedBottom && !r.collidedLeft && !r.collidedRight
    ensures r.(collidedTop := c.collidedTop, collidedBottom := c.collidedBottom,
               collidedLeft := c.collidedLeft, collidedRight := c.collidedRight) == c
  {
    c.(collidedTop := false, collidedBottom := false, collidedLeft := false, collidedRight := false)
  }

  /** SpriteComponent(): sprite 0, empty rectangle, world space, alive. */
  const DefaultSprite: Sprite := Sprite(0, EmptyRect, true, true)

  /** SpawnComponent(): unlimited spawns every second. */
  const DefaultSpawn: Spawn := Spawn(0, "", 0, 0.0, 1.0, 0, -1)

  /** SpawnComponent(entity, type, sprite, interval): the four-argument
      constructor does not initialise maxSpawns; its value is taken as a
      parameter here. */
  function NewSpawn(entity: nat, entityType: string, sprite: nat, interval: real, maxSpawns: int): (s: Spawn)
    ensures s.timeToNextSpawn == 0.0 && s.spawnCount == 0 && s.spawnInterval == interval
    ensures s.entityID == entity && s.entityType == entityType && s.spriteID == sprite
    ensures s.maxSpawns == maxSpawns
  {
    Spawn(entity, entityType, sprite, 0.0, interval, 0, maxSpawns)
  }

  /** CameraShake(): at rest with the default frequencies. */
  const DefaultCameraShake: CameraShake := CameraShake(false, false, 0.0, 0.0, 1.5, 2.1, 0.0)

  /** ScoreComponent(): zero, no display entities, ten zero sprite ids. */
  const DefaultScore: Score := Score(0, [], [0, 0, 0, 0, 0, 0, 0, 0, 0, 0])

  /** TimeComponent(): stopped at zero. */
  const DefaultTime: Time := Time(0.0, 0.0, false, false)

  /** TimeComponent(duration, restart): full and running iff the duration is
      positive. */
  function NewTime(duration: real, restart: bool): (t: Time)
    ensures t.totalDuration == duration && t.timeRemaining == duration
    ensures t.isRunning <==> duration > 0.0
    ensures t.restart == restart
  {
    Time(duration, duration, duration > 0.0, restart)
  }

  // ---------------------------------------------------------------------------
  // The registry

  datatype Kind =
    | LocationKind | MovementKind | AccelerationKind | CollisionKind | SpriteKind | SpawnKind
    | CameraKind | CameraFollowerKind | InputKind | CameraShakeKind | ScoreKind | TimeKind

  /** The component pack of the game, in declaration order. */
  const Registry: seq<Kind> := [
    LocationKind, MovementKind, AccelerationKind, CollisionKind, SpriteKind, SpawnKind,
    CameraKind, CameraFollowerKind, InputKind, CameraShakeKind, ScoreKind, TimeKind]

  const K: nat := 12

  const LOCATION: nat := 0
  const MOVEMENT: nat := 1
  const ACCELERATION: nat := 2
  const COLLISION: nat := 3
  const SPRITE: nat := 4
  const SPAWN: nat := 5
  const CAMERA: nat := 6
  const CAMERA_FOLLOWER: nat := 7
  const INPUT: nat := 8
  const CAMERA_SHAKE: nat := 9
  const SCORE: nat := 10
  const TIME: nat := 11

  /** The type index the pack assigns to each kind. */
  function TypeId(k: Kind): (i: nat)
    ensures i < K
  {
    match k
    case LocationKind => LOCATION
    case MovementKind => MOVEMENT
    case AccelerationKind => ACCELERATION
    case CollisionKind => COLLISION
    case SpriteKind => SPRITE
    case SpawnKind => SPAWN
    case CameraKind => CAMERA
    case CameraFollowerKind => CAMERA_FOLLOWER
    case InputKind => INPUT
    case CameraShakeKind => CAMERA_SHAKE
    case ScoreKind => SCORE
    case TimeKind => TIME
  }

  /** The constants agree with Pack::index over the registry, and the pack
      has twelve distinct entries. */
  lemma RegistryIndices(k: Kind)
    ensures Pack.Size(Registry) == K
    ensures Pack.Distinct(Registry)
    ensures Pack.Index(k, Registry) == TypeId(k)
    ensures Pack.TypeAt(TypeId(k), Registry) == k
  {
    assert Registry[TypeId(k)] == k;
    Pack.IndexTypeAtInverse(Registry, TypeId(k), k);
  }

  /** A stored component: the value of one of the twelve types. */
  datatype Component =
    | CLocation(location: Location)
    | CMovement(movement: Movement)
    | CAcceleration(acceleration: Acceleration)
    | CCollision(collision: Collision)
    | CSprite(sprite: Sprite)
    | CSpawn(spawn: Spawn)
    | CCamera(camera: Camera)
    | CCameraFollower(follower: CameraFollower)
    | CInput(input: Input)
    | CCameraShake(shake: CameraShake)
    | CScore(score: Score)
    | CTime(time: Time)

  function KindOf(c: Component): Kind
  {
    match c
    case CLocation(_) => LocationKind
    case CMovement(_) => MovementKind
    case CAcceleration(_) => AccelerationKind
    case CCollision(_) => CollisionKind
    case CSprite(_) => SpriteKind
    case CSpawn(_) => SpawnKind
    case CCamera(_) => CameraKind
    case CCameraFollower(_) => CameraFollowerKind
    case CInput(_) => InputKind
    case CCameraShake(_) => CameraShakeKind
    case CScore(_) => ScoreKind
    case CTime(_) => TimeKind
  }

  /** The value-initialised `T{}` of each storage, which a removed slot is
      reset to. CameraComponent and InputComponent have no constructor, so
      their value-initialised state is all zeros. */
  function Blank(i: nat): (c: Component)
    requires i < K
    ensures TypeId(KindOf(c)) == i
  {
    if i == LOCATION then CLocation(Location(Point(0.0, 0.0)))
    else if i == MOVEMENT then CMovement(Movement(Point(0.0, 0.0), DefaultMaxSpeed))
    else if i == ACCELERATION then CAcceleration(Acceleration(Point(0.0, 0.0)))
    else if i == COLLISION then CCollision(DefaultCollision)
    else if i == SPRITE then CSprite(DefaultSprite)
    else if i == SPAWN then CSpawn(DefaultSpawn)
    else if i == CAMERA then CCamera(Camera(Point(0.0, 0.0), 0.0))
    else if i == CAMERA_FOLLOWER then CCameraFollower(CameraFollower(0, true, true))
    else if i == INPUT then CInput(Input({}))
    else if i == CAMERA_SHAKE then CCameraShake(DefaultCameraShake)
    else if i == SCORE then CScore(DefaultScore)
    else CTime(DefaultTime)
  }

  /** A component whose fixed-size fields have their size. */
  predicate ComponentOk(c: Component)
  {
    c.CScore? ==> |c.score.digitSprites| == 10
  }

  /** A components map in which every entry sits under its own type index. */
  predicate Typed(c: map<nat, Component>)
  {
    forall k :: k in c ==> k < K && TypeId(KindOf(c[k])) == k && ComponentOk(c[k])
  }
}

=== FILE: entity_manager.dfy ===
/** EntityManager: entity ids with a LIFO free list, one ComponentStorage per
    component type, and a table from (entity, type) to the component's
    handle in that storage. Component types are numbered by their position
    in the pack (0 .. K-1, K = |stores|); the storages all hold one value
    type T, which at the engine level is the tagged union of components. */
module EntityManager {
  import CS = ComponentStorage

  /** Entity: the id equals the slot for a live entity, and is reset to 0
      with an empty name when the entity is removed. */
  datatype Entity = Entity(id: nat, name: string)

  /** An entry of the handle table; Absent is INVALID_COMPONENT_INDEX. */
  datatype Handle = Absent | At(slot: nat)

  datatype Manager<T> = Manager(
    entities: seq<Entity>,
    stores: seq<CS.Storage<T>>,
    table: seq<seq<Handle>>,
    free: seq<nat>,
    valid: seq<bool>)

  /** What an entity id denotes: nothing, or a named set of components keyed
      by type index. */
  datatype Slot<T> = Vacant | Live(name: string, comps: map<nat, T>)

  // ---------------------------------------------------------------------------
  // Invariant

  ghost predicate Shape<T>(m: Manager<T>)
  {
    && |m.entities| == |m.table| == |m.valid|
    && (forall e :: 0 <= e < |m.table| ==> |m.table[e]| == |m.stores|)
  }

  ghost predicate StoresOk<T>(m: Manager<T>)
  {
    forall k :: 0 <= k < |m.stores| ==> CS.Inv(m.stores[k])
  }

  /** A live entity records its own id; a dead one has id 0 and no name. */
  ghost predicate EntitiesOk<T>(m: Manager<T>)
    requires Shape(m)
  {
    forall e :: 0 <= e < |m.entities| ==>
      if m.valid[e] then m.entities[e].id == e else m.entities[e] == Entity(0, "")
  }

  /** The free list holds exactly the dead ids, each once. */
  ghost predicate FreeOk<T>(m: Manager<T>)
    requires Shape(m)
  {
    && (forall i :: 0 <= i < |m.free| ==> m.free[i] < |m.valid| && !m.valid[m.free[i]])
    && (forall i, j :: 0 <= i < j < |m.free| ==> m.free[i] != m.free[j])
    && (forall e :: 0 <= e < |m.valid| && !m.valid[e] ==> e in m.free)
  }

  /** Every handle is held by a live entity and names a live slot. */
  ghost predicate HandlesOk<T>(m: Manager<T>)
    requires Shape(m)
  {
    forall e, k {:trigger m.table[e][k]} :: 0 <= e < |m.table| && 0 <= k < |m.stores| && m.table[e][k].At? ==>
      m.valid[e] && CS.Valid(m.stores[k], m.table[e][k].slot)
  }

  /** No two entities share a slot of the same storage. */
  ghost predicate Unshared<T>(m: Manager<T>)
    requires Shape(m)
  {
    forall e1, e2, k {:trigger m.table[e1][k], m.table[e2][k]} ::
      (0 <= e1 < |m.table| && 0 <= e2 < |m.table| && 0 <= k < |m.stores| && e1 != e2 && m.table[e1][k].At?)
      ==> m.table[e2][k] != m.table[e1][k]
  }

  /** Every live slot of a storage belongs to some entity: nothing leaks. */
  ghost predicate Owned<T>(m: Manager<T>)
    requires Shape(m)
  {
    forall k, s :: 0 <= k < |m.stores| && CS.Valid(m.stores[k], s) ==> Owner(m, k, s)
  }

  /** Some entity holds slot s of the storage of type k. */
  ghost predicate Owner<T>(m: Manager<T>, k: nat, s: nat)
    requires Shape(m) && k < |m.stores|
  {
    exists e :: 0 <= e < |m.table| && m.table[e][k] == At(s)
  }

  ghost predicate Inv<T>(m: Manager<T>)
  {
    && Shape(m) && StoresOk(m) && EntitiesOk(m) && FreeOk(m)
    && HandlesOk(m) && Unshared(m) && Owned(m)
  }

  /** A fresh manager over K empty storages with the given blank values. */
  function Init<T>(blanks: seq<T>): (m: Manager<T>)
    ensures Inv(m) && |m.stores| == |blanks|
    ensures forall x :: SlotOf(m, x) == Vacant
  {
    Manager([], seq(|blanks|, k requires 0 <= k < |blanks| => CS.Empty(blanks[k])), [], [], [])
  }

  // ---------------------------------------------------------------------------
  // Abstraction

  /** ValidEntity: in range and marked live. */
  predicate ValidEntity<T>(m: Manager<T>, e: nat)
  {
    e < |m.valid| && m.valid[e]
  }

  /** The components an entity holds: type index to stored value. */
  function Comps<T>(m: Manager<T>, e: nat): map<nat, T>
  {
    map k | 0 <= k < |m.stores| && e < |m.table| && k < |m.table[e]| && m.table[e][k].At? &&
      m.table[e][k].slot in CS.View(m.stores[k]) :: CS.View(m.stores[k])[m.table[e][k].slot]
  }

  /** The meaning of an id in a manager. */
  function SlotOf<T>(m: Manager<T>, e: nat): Slot<T>
  {
    if ValidEntity(m, e) && e < |m.entities| then Live(m.entities[e].name, Comps(m, e)) else Vacant
  }

  /** Two managers agree on the meaning of every id. */
  ghost predicate SameView<T>(a: Manager<T>, b: Manager<T>)
  {
    forall x :: SlotOf(a, x) == SlotOf(b, x)
  }

  /** Under the invariant an entity holds type k exactly when its table entry
      is a handle. */
  lemma CompsHandle<T>(m: Manager<T>, e: nat, k: nat)
    requires Inv(m) && ValidEntity(m, e) && k < |m.stores|
    ensures k in Comps(m, e) <==> m.table[e][k].At?
    ensures k in Comps(m, e) ==> Comps(m, e)[k] == CS.Get(m.stores[k], m.table[e][k].slot)
  {
  }

  // ---------------------------------------------------------------------------
  // Queries

  /** GetEntityName: the source asserts the entity is live. */
  function GetEntityName<T>(m: Manager<T>, e: nat): (n: string)
    requires Inv(m) && ValidEntity(m, e)
    ensures SlotOf(m, e) == Live(n, Comps(m, e))
  {
    m.entities[e].name
  }

  /** HasComponent: the source asserts the entity is live. */
  predicate HasComponent<T>(m: Manager<T>, e: nat, k: nat)
    requires Inv(m) && ValidEntity(m, e) && k < |m.stores|
  {
    m.table[e][k].At?
  }

  lemma HasComponentMeansHeld<T>(m: Manager<T>, e: nat, k: nat)
    requires Inv(m) && ValidEntity(m, e) && k < |m.stores|
    ensures HasComponent(m, e, k) <==> SlotOf(m, e).Live? && k in SlotOf(m, e).comps
  {
    CompsHandle(m, e, k);
  }

  /** GetComponent: the source asserts a live entity and a live handle. */
  function GetComponent<T>(m: Manager<T>, e: nat, k: nat): (v: T)
    requires Inv(m) && ValidEntity(m, e) && k < |m.stores| && HasComponent(m, e, k)
    ensures SlotOf(m, e).Live? && k in SlotOf(m, e).comps && v == SlotOf(m, e).comps[k]
  {
    CompsHandle(m, e, k);
    CS.Get(m.stores[k], m.table[e][k].slot)
  }

  // ---------------------------------------------------------------------------
  // Frames

  /** Ids other than `e` keep their meaning when storages and table change
      only at `e`'s row and at slots `e` holds or that were dead. */
  lemma OthersKeepComps<T>(m: Manager<T>, r: Manager<T>, e: nat, x: nat)
    requires Inv(m) && x != e && x < |m.table|
    requires |r.stores| == |m.stores| && |r.table| == |m.table| && r.table[x] == m.table[x]
    requires forall k :: 0 <= k < |m.stores| && m.table[x][k].At? ==>
      m.table[x][k].slot in CS.View(r.stores[k]) &&
      CS.View(r.stores[k])[m.table[x][k].slot] == CS.View(m.stores[k])[m.table[x][k].slot]
    ensures Comps(r, x) == Comps(m, x)
  {
    forall k | 0 <= k < |m.stores|
      ensures (k in Comps(r, x)) == (k in Comps(m, x))
      ensures k in Comps(m, x) ==> Comps(r, x)[k] == Comps(m, x)[k]
    {
      if m.table[x][k].At? {
        assert CS.Valid(m.stores[k], m.table[x][k].slot);
      }
    }
    assert Comps(r, x).Keys == Comps(m, x).Keys;
  }

  // ---------------------------------------------------------------------------
  // CreateEntity

  /** The result of CreateEntity. */
  datatype Created<T> = Created(manager: Manager<T>, id: nat)

  /** The free-list branch of CreateEntity. */
  function Revive<T>(m: Manager<T>, name: string): Manager<T>
    requires Shape(m) && |m.free| > 0 && m.free[|m.free| - 1] < |m.valid|
  {
    var ret := m.free[|m.free| - 1];
    m.(free := m.free[..|m.free| - 1], valid := m.valid[ret := true],
       entities := m.entities[ret := Entity(ret, name)])
  }

  /** The append branch of CreateEntity. */
  function Grow<T>(m: Manager<T>, name: string): Manager<T>
  {
    m.(valid := m.valid + [true], table := m.table + [seq(|m.stores|, _ => Absent)],
       entities := m.entities + [Entity(|m.table|, name)])
  }

  /** A dead row holds no handle. */
  lemma DeadRowEmpty<T>(m: Manager<T>, e: nat, k: nat)
    requires Inv(m) && e < |m.table| && !m.valid[e] && k < |m.stores|
    ensures m.table[e][k] == Absent
  {
  }

  lemma ReviveKeepsInv<T>(m: Manager<T>, name: string)
    requires Inv(m) && |m.free| > 0
    ensures Inv(Revive(m, name))
    ensures Comps(Revive(m, name), m.free[|m.free| - 1]) == map[]
    ensures forall x :: x != m.free[|m.free| - 1] ==> SlotOf(Revive(m, name), x) == SlotOf(m, x)
  {
    var ret := m.free[|m.free| - 1];
    var r := Revive(m, name);
    forall i | 0 <= i < |r.free|
      ensures r.free[i] < |r.valid| && !r.valid[r.free[i]]
    {
      assert r.free[i] == m.free[i] && m.free[i] != ret;
    }
    forall x | 0 <= x < |r.valid| && !r.valid[x]
      ensures x in r.free
    {
      assert x != ret && x in m.free;
      var i :| 0 <= i < |m.free| && m.free[i] == x;
      assert i < |r.free| && r.free[i] == x;
    }
    forall k | 0 <= k < |m.stores|
      ensures m.table[ret][k] == Absent
    {
      DeadRowEmpty(m, ret, k);
    }
    assert Comps(r, ret) == map[];
    forall x: nat | x != ret
      ensures SlotOf(r, x) == SlotOf(m, x)
    {
      assert Comps(r, x) == Comps(m, x);
    }
  }

  lemma GrowKeepsInv<T>(m: Manager<T>, name: string)
    requires Inv(m) && |m.free| == 0
    ensures Inv(Grow(m, name))
    ensures Comps(Grow(m, name), |m.table|) == map[]
  {
    var r := Grow(m, name);
    var n := |m.table|;
    forall e | 0 <= e < |r.entities|
      ensures if r.valid[e] then r.entities[e].id == e else r.entities[e] == Entity(0, "")
    {
      if e < n {
        assert r.valid[e] == m.valid[e] && r.entities[e] == m.entities[e];
      }
    }
    forall e | 0 <= e < |r.valid| && !r.valid[e]
      ensures e in r.free
    {
      assert e < n && !m.valid[e];
    }
    forall k, s | 0 <= k < |r.stores| && CS.Valid(r.stores[k], s)
      ensures Owner(r, k, s)
    {
      var e :| 0 <= e < |m.table| && m.table[e][k] == At(s);
      assert r.table[e] == m.table[e];
    }
    forall x, k | 0 <= x < |r.table| && 0 <= k < |r.stores| && r.table[x][k].At?
      ensures r.valid[x] && CS.Valid(r.stores[k], r.table[x][k].slot)
    {
      assert x < n && r.table[x][k] == m.table[x][k];
    }
    forall x1, x2, k | 0 <= x1 < |r.table| && 0 <= x2 < |r.table| && 0 <= k < |r.stores| && x1 != x2 && r.table[x1][k].At?
      ensures r.table[x2][k] != r.table[x1][k]
    {
      assert x1 < n && r.table[x1][k] == m.table[x1][k];
      if x2 < n {
        assert r.table[x2][k] == m.table[x2][k];
      }
    }
    assert HandlesOk(r) && Unshared(r);
    assert Comps(r, n) == map[];
  }

  /** Growing the table leaves every existing id alone. */
  lemma GrowOthers<T>(m: Manager<T>, name: string)
    requires Inv(m)
    ensures forall x :: x != |m.table| ==> SlotOf(Grow(m, name), x) == SlotOf(m, x)
  {
    var r := Grow(m, name);
    var n := |m.table|;
    forall x: nat | x != n
      ensures SlotOf(r, x) == SlotOf(m, x)
    {
      if x < n {
        assert r.table[x] == m.table[x];
        assert Comps(r, x) == Comps(m, x);
      }
    }
  }

  /** CreateEntity: reuses the most recently freed id, or appends a new one;
      the id was vacant and now denotes an entity with the given name and no
      components, and nothing else changes. */
  function CreateEntity<T>(m: Manager<T>, name: string): (c: Created<T>)
    requires Inv(m)
    ensures Inv(c.manager)
    ensures SlotOf(m, c.id) == Vacant
    ensures SlotOf(c.manager, c.id) == Live(name, map[])
    ensures forall x :: x != c.id ==> SlotOf(c.manager, x) == SlotOf(m, x)
    ensures |m.free| > 0 ==> c.id == m.free[|m.free| - 1] && c.manager.free == m.free[..|m.free| - 1]
    ensures |m.free| == 0 ==> c.id == |m.table| && c.manager.free == []
    ensures c.manager.stores == m.stores && |c.manager.table| >= |m.table|
    ensures c.manager.entities[c.id] == Entity(c.id, name)
  {
    if |m.free| > 0 then
      ReviveKeepsInv(m, name);
      Created(Revive(m, name), m.free[|m.free| - 1])
    else
      GrowKeepsInv(m, name);
      GrowOthers(m, name);
      Created(Grow(m, name), |m.table|)
  }

  // ---------------------------------------------------------------------------
  // AddComponent

  function Attach<T>(m: Manager<T>, e: nat, k: nat, v: T): Manager<T>
    requires Inv(m) && ValidEntity(m, e) && k < |m.stores|
  {
    var st := CS.Store(m.stores[k], v);
    m.(stores := m.stores[k := st.storage], table := m.table[e := m.table[e][k := At(st.id)]])
  }

  lemma AttachHandleAt<T>(m: Manager<T>, e: nat, k: nat, v: T, e': nat, k': nat)
    requires Inv(m) && ValidEntity(m, e) && k < |m.stores| && m.table[e][k] == Absent
    requires e' < |m.table| && k' < |m.stores|
    ensures var r := Attach(m, e, k, v);
      r.table[e'][k'].At? ==> r.valid[e'] && CS.Valid(r.stores[k'], r.table[e'][k'].slot)
  {
    var st := CS.Store(m.stores[k], v);
    var r := Attach(m, e, k, v);
    if (e' != e || k' != k) && r.table[e'][k'].At? {
      assert r.table[e'][k'] == m.table[e'][k'];
      var s := m.table[e'][k'].slot;
      assert CS.Valid(m.stores[k'], s);
    }
  }

  lemma AttachHandles<T>(m: Manager<T>, e: nat, k: nat, v: T)
    requires Inv(m) && ValidEntity(m, e) && k < |m.stores| && m.table[e][k] == Absent
    ensures Shape(Attach(m, e, k, v)) && HandlesOk(Attach(m, e, k, v))
  {
    var r := Attach(m, e, k, v);
    forall e', k' | 0 <= e' < |r.table| && 0 <= k' < |r.stores|
      ensures r.table[e'][k'].At? ==> r.valid[e'] && CS.Valid(r.stores[k'], r.table[e'][k'].slot)
    {
      AttachHandleAt(m, e, k, v, e', k');
    }
  }

  lemma AttachUnshared<T>(m: Manager<T>, e: nat, k: nat, v: T)
    requires Inv(m) && ValidEntity(m, e) && k < |m.stores| && m.table[e][k] == Absent
    ensures Shape(Attach(m, e, k, v)) && Unshared(Attach(m, e, k, v))
  {
    var st := CS.Store(m.stores[k], v);
    var r := Attach(m, e, k, v);
    forall e1, e2, k' | 0 <= e1 < |r.table| && 0 <= e2 < |r.table| && 0 <= k' < |r.stores| &&
      e1 != e2 && r.table[e1][k'].At?
      ensures r.table[e2][k'] != r.table[e1][k']
    {
      if k' != k || (e1 != e && e2 != e) {
        assert r.table[e1][k'] == m.table[e1][k'] && r.table[e2][k'] == m.table[e2][k'];
      } else if e1 == e {
        if m.table[e2][k].At? {
          assert CS.Valid(m.stores[k], m.table[e2][k].slot);
        }
      } else {
        assert CS.Valid(m.stores[k], m.table[e1][k].slot);
      }
    }
  }

  lemma AttachOwned<T>(m: Manager<T>, e: nat, k: nat, v: T)
    requires Inv(m) && ValidEntity(m, e) && k < |m.stores| && m.table[e][k] == Absent
    ensures Shape(Attach(m, e, k, v)) && Owned(Attach(m, e, k, v))
  {
    var st := CS.Store(m.stores[k], v);
    var r := Attach(m, e, k, v);
    forall k', s | 0 <= k' < |r.stores| && CS.Valid(r.stores[k'], s)
      ensures Owner(r, k', s)
    {
      if k' == k && s == st.id {
        assert r.table[e][k] == At(s);
      } else {
        assert CS.Valid(m.stores[k'], s);
        var x :| 0 <= x < |m.table| && m.table[x][k'] == At(s);
        assert r.table[x][k'] == m.table[x][k'];
      }
    }
  }

  lemma AttachSelf<T>(m: Manager<T>, e: nat, k: nat, v: T)
    requires Inv(m) && ValidEntity(m, e) && k < |m.stores| && m.table[e][k] == Absent
    ensures Comps(Attach(m, e, k, v), e) == Comps(m, e)[k := v]
  {
    var r := Attach(m, e, k, v);
    forall j | 0 <= j < |m.stores|
      ensures (j in Comps(r, e)) == (j in Comps(m, e)[k := v])
      ensures j in Comps(r, e) ==> Comps(r, e)[j] == Comps(m, e)[k := v][j]
    {
      AttachSelfAt(m, e, k, v, j);
    }
    assert Comps(r, e).Keys == Comps(m, e)[k := v].Keys;
  }

  /** The same for one type index. */
  lemma AttachSelfAt<T>(m: Manager<T>, e: nat, k: nat, v: T, j: nat)
    requires Inv(m) && ValidEntity(m, e) && k < |m.stores| && m.table[e][k] == Absent && j < |m.stores|
    ensures (j in Comps(Attach(m, e, k, v), e)) == (j in Comps(m, e)[k := v])
    ensures j in Comps(Attach(m, e, k, v), e) ==> Comps(Attach(m, e, k, v), e)[j] == Comps(m, e)[k := v][j]
  {
    if j != k && m.table[e][j].At? {
      assert CS.Valid(m.stores[j], m.table[e][j].slot);
    }
  }

  lemma AttachOther<T>(m: Manager<T>, e: nat, k: nat, v: T, x: nat)
    requires Inv(m) && ValidEntity(m, e) && k < |m.stores| && m.table[e][k] == Absent && x != e
    ensures SlotOf(Attach(m, e, k, v), x) == SlotOf(m, x)
  {
    var st := CS.Store(m.stores[k], v);
    var r := Attach(m, e, k, v);
    if ValidEntity(m, x) && x < |m.entities| {
      forall j | 0 <= j < |m.stores| && m.table[x][j].At?
        ensures m.table[x][j].slot in CS.View(r.stores[j])
        ensures CS.View(r.stores[j])[m.table[x][j].slot] == CS.View(m.stores[j])[m.table[x][j].slot]
      {
        assert CS.Valid(m.stores[j], m.table[x][j].slot);
      }
      OthersKeepComps(m, r, e, x);
    }
  }

  lemma AttachComps<T>(m: Manager<T>, e: nat, k: nat, v: T)
    requires Inv(m) && ValidEntity(m, e) && k < |m.stores| && m.table[e][k] == Absent
    ensures Comps(Attach(m, e, k, v), e) == Comps(m, e)[k := v]
    ensures forall x :: x != e ==> SlotOf(Attach(m, e, k, v), x) == SlotOf(m, x)
  {
    AttachSelf(m, e, k, v);
    forall x: nat | x != e
      ensures SlotOf(Attach(m, e, k, v), x) == SlotOf(m, x)
    {
      AttachOther(m, e, k, v, x);
    }
  }

  lemma AttachKeepsInv<T>(m: Manager<T>, e: nat, k: nat, v: T)
    requires Inv(m) && ValidEntity(m, e) && k < |m.stores| && m.table[e][k] == Absent
    ensures Inv(Attach(m, e, k, v))
    ensures Comps(Attach(m, e, k, v), e) == Comps(m, e)[k := v]
    ensures forall x :: x != e ==> SlotOf(Attach(m, e, k, v), x) == SlotOf(m, x)
  {
    AttachHandles(m, e, k, v);
    AttachUnshared(m, e, k, v);
    AttachOwned(m, e, k, v);
    AttachComps(m, e, k, v);
  }

  /** AddComponent: the source asserts the entity is live and does not yet
      hold the type; afterwards it holds exactly one more component. */
  function AddComponent<T>(m: Manager<T>, e: nat, k: nat, v: T): (r: Manager<T>)
    requires Inv(m) && ValidEntity(m, e) && k < |m.stores|
    requires k !in SlotOf(m, e).comps
    ensures Inv(r)
    ensures SlotOf(r, e) == Live(SlotOf(m, e).name, SlotOf(m, e).comps[k := v])
    ensures forall x :: x != e ==> SlotOf(r, x) == SlotOf(m, x)
    ensures r.entities == m.entities && r.valid == m.valid && r.free == m.free
  {
    CompsHandle(m, e, k);
    AttachKeepsInv(m, e, k, v);
    Attach(m, e, k, v)
  }

  // ---------------------------------------------------------------------------
  // Writing a held component through the reference GetComponent returns

  function Overwrite<T>(m: Manager<T>, e: nat, k: nat, v: T): Manager<T>
    requires Inv(m) && ValidEntity(m, e) && k < |m.stores| && m.table[e][k].At?
  {
    m.(stores := m.stores[k := CS.Put(m.stores[k], m.table[e][k].slot, v)])
  }

  lemma OverwriteHandleAt<T>(m: Manager<T>, e: nat, k: nat, v: T, e': nat, k': nat)
    requires Inv(m) && ValidEntity(m, e) && k < |m.stores| && m.table[e][k].At?
    requires e' < |m.table| && k' < |m.stores|
    ensures var r := Overwrite(m, e, k, v);
      r.table[e'][k'].At? ==> r.valid[e'] && CS.Valid(r.stores[k'], r.table[e'][k'].slot)
  {
    if m.table[e'][k'].At? {
      assert CS.Valid(m.stores[k'], m.table[e'][k'].slot);
    }
  }

  lemma OverwriteOwnedAt<T>(m: Manager<T>, e: nat, k: nat, v: T, k': nat, s': nat)
    requires Inv(m) && ValidEntity(m, e) && k < |m.stores| && m.table[e][k].At?
    requires k' < |m.stores|
    ensures var r := Overwrite(m, e, k, v);
      CS.Valid(r.stores[k'], s') ==> Owner(r, k', s')
  {
    var r := Overwrite(m, e, k, v);
    if CS.Valid(r.stores[k'], s') {
      assert CS.Valid(m.stores[k'], s');
      var x :| 0 <= x < |m.table| && m.table[x][k'] == At(s');
      assert r.table[x][k'] == At(s');
    }
  }

  lemma OverwriteSelfAt<T>(m: Manager<T>, e: nat, k: nat, v: T, j: nat)
    requires Inv(m) && ValidEntity(m, e) && k < |m.stores| && m.table[e][k].At? && j < |m.stores|
    ensures (j in Comps(Overwrite(m, e, k, v), e)) == (j in Comps(m, e)[k := v])
    ensures j in Comps(m, e)[k := v] ==> Comps(Overwrite(m, e, k, v), e)[j] == Comps(m, e)[k := v][j]
  {
    var r := Overwrite(m, e, k, v);
    if j == k {
      var s := m.table[e][k].slot;
      assert CS.View(r.stores[k]) == CS.View(m.stores[k])[s := v];
    } else if m.table[e][j].At? {
      assert r.stores[j] == m.stores[j];
      assert CS.Valid(m.stores[j], m.table[e][j].slot);
    }
  }

  lemma OverwriteSelf<T>(m: Manager<T>, e: nat, k: nat, v: T)
    requires Inv(m) && ValidEntity(m, e) && k < |m.stores| && m.table[e][k].At?
    ensures Comps(Overwrite(m, e, k, v), e) == Comps(m, e)[k := v]
  {
    var r := Overwrite(m, e, k, v);
    forall j: nat | j < |m.stores|
      ensures (j in Comps(r, e)) == (j in Comps(m, e)[k := v])
      ensures j in Comps(m, e)[k := v] ==> Comps(r, e)[j] == Comps(m, e)[k := v][j]
    {
      OverwriteSelfAt(m, e, k, v, j);
    }
    assert Comps(r, e).Keys == Comps(m, e)[k := v].Keys;
  }

  lemma OverwriteOther<T>(m: Manager<T>, e: nat, k: nat, v: T, x: nat)
    requires Inv(m) && ValidEntity(m, e) && k < |m.stores| && m.table[e][k].At? && x != e
    ensures SlotOf(Overwrite(m, e, k, v), x) == SlotOf(m, x)
  {
    var r := Overwrite(m, e, k, v);
    if ValidEntity(m, x) && x < |m.entities| {
      forall j | 0 <= j < |m.stores| && m.table[x][j].At?
        ensures m.table[x][j].slot in CS.View(r.stores[j])
        ensures CS.View(r.stores[j])[m.table[x][j].slot] == CS.View(m.stores[j])[m.table[x][j].slot]
      {
        assert CS.Valid(m.stores[j], m.table[x][j].slot);
        if j == k {
          assert m.table[x][j] != m.table[e][k];
        }
      }
      OthersKeepComps(m, r, e, x);
    }
  }

  lemma OverwriteKeepsInv<T>(m: Manager<T>, e: nat, k: nat, v: T)
    requires Inv(m) && ValidEntity(m, e) && k < |m.stores| && m.table[e][k].At?
    ensures Inv(Overwrite(m, e, k, v))
    ensures Comps(Overwrite(m, e, k, v), e) == Comps(m, e)[k := v]
    ensures forall x :: x != e ==> SlotOf(Overwrite(m, e, k, v), x) == SlotOf(m, x)
  {
    var r := Overwrite(m, e, k, v);
    assert StoresOk(r);
    forall e', k' | 0 <= e' < |r.table| && 0 <= k' < |r.stores|
      ensures r.table[e'][k'].At? ==> r.valid[e'] && CS.Valid(r.stores[k'], r.table[e'][k'].slot)
    {
      OverwriteHandleAt(m, e, k, v, e', k');
    }
    forall k', s': nat | 0 <= k' < |r.stores|
      ensures CS.Valid(r.stores[k'], s') ==> Owner(r, k', s')
    {
      OverwriteOwnedAt(m, e, k, v, k', s');
    }
    OverwriteSelf(m, e, k, v);
    forall x: nat | x != e
      ensures SlotOf(r, x) == SlotOf(m, x)
    {
      OverwriteOther(m, e, k, v, x);
    }
  }

  /** Assigning through GetComponent's reference: the held value is replaced
      and nothing else changes. */
  function SetComponent<T>(m: Manager<T>, e: nat, k: nat, v: T): (r: Manager<T>)
    requires Inv(m) && ValidEntity(m, e) && k < |m.stores| && HasComponent(m, e, k)
    ensures Inv(r)
    ensures SlotOf(r, e) == Live(SlotOf(m, e).name, SlotOf(m, e).comps[k := v])
    ensures forall x :: x != e ==> SlotOf(r, x) == SlotOf(m, x)
    ensures r.entities == m.entities && r.valid == m.valid && r.free == m.free && r.table == m.table
  {
    OverwriteKeepsInv(m, e, k, v);
    Overwrite(m, e, k, v)
  }

  // ---------------------------------------------------------------------------
  // RemoveComponent

  /** RemoveComponentByIndex: removes one slot from the storage of type k,
      found by the runtime type index; the handle table is left to the caller. */
  function RemoveComponentByIndex<T>(stores: seq<CS.Storage<T>>, k: nat, slot: nat): (r: seq<CS.Storage<T>>)
    requires k < |stores| && CS.Inv(stores[k]) && CS.Valid(stores[k], slot)
    ensures |r| == |stores| && CS.Inv(r[k])
    ensures CS.View(r[k]) == CS.View(stores[k]) - {slot}
    ensures forall j :: 0 <= j < |stores| && j != k ==> r[j] == stores[j]
  {
    stores[k := CS.Remove(stores[k], slot)]
  }

  function Detach<T>(m: Manager<T>, e: nat, k: nat): Manager<T>
    requires Inv(m) && e < |m.table| && k < |m.stores| && m.table[e][k].At?
  {
    m.(stores := RemoveComponentByIndex(m.stores, k, m.table[e][k].slot),
       table := m.table[e := m.table[e][k := Absent]])
  }

  lemma DetachHandleAt<T>(m: Manager<T>, e: nat, k: nat, e': nat, k': nat)
    requires Inv(m) && e < |m.table| && k < |m.stores| && m.table[e][k].At?
    requires e' < |m.table| && k' < |m.stores|
    ensures var r := Detach(m, e, k);
      r.table[e'][k'].At? ==> r.valid[e'] && CS.Valid(r.stores[k'], r.table[e'][k'].slot)
  {
    var r := Detach(m, e, k);
    if r.table[e'][k'].At? {
      assert r.table[e'][k'] == m.table[e'][k'];
      assert CS.Valid(m.stores[k'], m.table[e'][k'].slot);
      if k' == k {
        assert m.table[e'][k'] != m.table[e][k];
      }
    }
  }

  lemma DetachUnsharedAt<T>(m: Manager<T>, e: nat, k: nat, e1: nat, e2: nat, k': nat)
    requires Inv(m) && e < |m.table| && k < |m.stores| && m.table[e][k].At?
    requires e1 < |m.table| && e2 < |m.table| && k' < |m.stores| && e1 != e2
    ensures var r := Detach(m, e, k);
      r.table[e1][k'].At? ==> r.table[e2][k'] != r.table[e1][k']
  {
    var r := Detach(m, e, k);
    if r.table[e1][k'].At? {
      assert r.table[e1][k'] == m.table[e1][k'];
    }
  }

  lemma DetachOwnedAt<T>(m: Manager<T>, e: nat, k: nat, k': nat, s': nat)
    requires Inv(m) && e < |m.table| && k < |m.stores| && m.table[e][k].At?
    requires k' < |m.stores|
    ensures var r := Detach(m, e, k);
      CS.Valid(r.stores[k'], s') ==> Owner(r, k', s')
  {
    var r := Detach(m, e, k);
    if CS.Valid(r.stores[k'], s') {
      assert CS.Valid(m.stores[k'], s');
      var x :| 0 <= x < |m.table| && m.table[x][k'] == At(s');
      if k' == k {
        assert x != e;
      }
      assert r.table[x][k'] == m.table[x][k'];
    }
  }

  lemma DetachSelf<T>(m: Manager<T>, e: nat, k: nat)
    requires Inv(m) && ValidEntity(m, e) && k < |m.stores| && m.table[e][k].At?
    ensures Comps(Detach(m, e, k), e) == Comps(m, e) - {k}
  {
    var r := Detach(m, e, k);
    forall j | 0 <= j < |m.stores|
      ensures (j in Comps(r, e)) == (j in Comps(m, e) - {k})
      ensures j in Comps(r, e) ==> Comps(r, e)[j] == Comps(m, e)[j]
    {
      DetachSelfAt(m, e, k, j);
    }
    assert Comps(r, e).Keys == (Comps(m, e) - {k}).Keys;
  }

  /** The same for one type index. */
  lemma DetachSelfAt<T>(m: Manager<T>, e: nat, k: nat, j: nat)
    requires Inv(m) && ValidEntity(m, e) && k < |m.stores| && m.table[e][k].At? && j < |m.stores|
    ensures (j in Comps(Detach(m, e, k), e)) == (j in Comps(m, e) - {k})
    ensures j in Comps(Detach(m, e, k), e) ==> Comps(Detach(m, e, k), e)[j] == Comps(m, e)[j]
  {
    if j != k && m.table[e][j].At? {
      assert CS.Valid(m.stores[j], m.table[e][j].slot);
    }
  }

  lemma DetachOther<T>(m: Manager<T>, e: nat, k: nat, x: nat)
    requires Inv(m) && e < |m.table| && k < |m.stores| && m.table[e][k].At? && x != e
    ensures SlotOf(Detach(m, e, k), x) == SlotOf(m, x)
  {
    var r := Detach(m, e, k);
    if ValidEntity(m, x) && x < |m.entities| {
      forall j | 0 <= j < |m.stores| && m.table[x][j].At?
        ensures m.table[x][j].slot in CS.View(r.stores[j])
        ensures CS.View(r.stores[j])[m.table[x][j].slot] == CS.View(m.stores[j])[m.table[x][j].slot]
      {
        assert CS.Valid(m.stores[j], m.table[x][j].slot);
        if j == k {
          assert m.table[x][j] != m.table[e][k];
        }
      }
      OthersKeepComps(m, r, e, x);
    }
  }

  lemma DetachKeepsInv<T>(m: Manager<T>, e: nat, k: nat)
    requires Inv(m) && ValidEntity(m, e) && k < |m.stores| && m.table[e][k].At?
    ensures Inv(Detach(m, e, k))
    ensures Comps(Detach(m, e, k), e) == Comps(m, e) - {k}
    ensures forall j :: 0 <= j < |m.stores| && j != k ==> Detach(m, e, k).table[e][j] == m.table[e][j]
  {
    DetachHandles(m, e, k);
    DetachOwned(m, e, k);
    DetachSelf(m, e, k);
  }

  /** Detaching keeps the shape, and every remaining handle live and unshared. */
  lemma DetachHandles<T>(m: Manager<T>, e: nat, k: nat)
    requires Inv(m) && e < |m.table| && k < |m.stores| && m.table[e][k].At?
    ensures Shape(Detach(m, e, k)) && StoresOk(Detach(m, e, k))
    ensures HandlesOk(Detach(m, e, k)) && Unshared(Detach(m, e, k))
  {
    var r := Detach(m, e, k);
    assert StoresOk(r);
    forall e', k' | 0 <= e' < |r.table| && 0 <= k' < |r.stores|
      ensures r.table[e'][k'].At? ==> r.valid[e'] && CS.Valid(r.stores[k'], r.table[e'][k'].slot)
    {
      DetachHandleAt(m, e, k, e', k');
    }
    forall e1, e2, k' | 0 <= e1 < |r.table| && 0 <= e2 < |r.table| && 0 <= k' < |r.stores| && e1 != e2
      ensures r.table[e1][k'].At? ==> r.table[e2][k'] != r.table[e1][k']
    {
      DetachUnsharedAt(m, e, k, e1, e2, k');
    }
  }

  /** After detaching, every live slot still has its owner. */
  lemma DetachOwned<T>(m: Manager<T>, e: nat, k: nat)
    requires Inv(m) && e < |m.table| && k < |m.stores| && m.table[e][k].At?
    requires Shape(Detach(m, e, k))
    ensures Owned(Detach(m, e, k))
  {
    var r := Detach(m, e, k);
    forall k', s' | 0 <= k' < |r.stores| && CS.Valid(r.stores[k'], s')
      ensures Owner(r, k', s')
    {
      DetachOwnedAt(m, e, k, k', s');
    }
  }

  /** Detaching leaves every other entity alone. */
  lemma DetachOthers<T>(m: Manager<T>, e: nat, k: nat)
    requires Inv(m) && e < |m.table| && k < |m.stores| && m.table[e][k].At?
    ensures forall x :: x != e ==> SlotOf(Detach(m, e, k), x) == SlotOf(m, x)
  {
    forall x: nat | x != e
      ensures SlotOf(Detach(m, e, k), x) == SlotOf(m, x)
    {
      DetachOther(m, e, k, x);
    }
  }

  /** RemoveComponent: does nothing for a dead entity or a type it does not
      hold; otherwise drops that one component. */
  function RemoveComponent<T>(m: Manager<T>, e: nat, k: nat): (r: Manager<T>)
    requires Inv(m) && k < |m.stores|
    ensures Inv(r)
    ensures !ValidEntity(m, e) || k !in SlotOf(m, e).comps ==> r == m
    ensures ValidEntity(m, e) ==> SlotOf(r, e) == Live(SlotOf(m, e).name, SlotOf(m, e).comps - {k})
    ensures forall x :: x != e ==> SlotOf(r, x) == SlotOf(m, x)
    ensures r.entities == m.entities && r.valid == m.valid && r.free == m.free
  {
    if !ValidEntity(m, e) then m
    else
      CompsHandle(m, e, k);
      if m.table[e][k] == Absent then
        assert SlotOf(m, e).comps - {k} == SlotOf(m, e).comps;
        m
      else
        DetachKeepsInv(m, e, k);
        DetachOthers(m, e, k);
        Detach(m, e, k)
  }

  lemma AddThenRemoveAt<T>(m: Manager<T>, e: nat, k: nat, v: T, x: nat)
    requires Inv(m) && ValidEntity(m, e) && k < |m.stores| && k !in SlotOf(m, e).comps
    ensures SlotOf(RemoveComponent(AddComponent(m, e, k, v), e, k), x) == SlotOf(m, x)
  {
    var a := AddComponent(m, e, k, v);
    if x == e {
      var c := SlotOf(m, e).comps;
      assert SlotOf(a, e) == Live(SlotOf(m, e).name, c[k := v]);
      assert ValidEntity(a, e);
      assert c[k := v] - {k} == c;
    }
  }

  /** Adding a component and removing it again restores every id's meaning. */
  lemma AddThenRemove<T>(m: Manager<T>, e: nat, k: nat, v: T)
    requires Inv(m) && ValidEntity(m, e) && k < |m.stores| && k !in SlotOf(m, e).comps
    ensures SameView(RemoveComponent(AddComponent(m, e, k, v), e, k), m)
  {
    forall x: nat
      ensures SlotOf(RemoveComponent(AddComponent(m, e, k, v), e, k), x) == SlotOf(m, x)
    {
      AddThenRemoveAt(m, e, k, v, x);
    }
  }

  // ---------------------------------------------------------------------------
  // RemoveEntity

  /** The entries of `c` whose key is below `k`. */
  function Below<T>(c: map<nat, T>, k: nat): (b: map<nat, T>)
    ensures forall j :: j in b <==> j in c && j < k
  {
    map j | j in c && j < k :: c[j]
  }

  lemma BelowStep<T>(c: map<nat, T>, k: nat)
    ensures Below(c - {k}, k + 1) == Below(c, k)
    ensures k !in c ==> Below(c, k + 1) == Below(c, k)
  {
    assert Below(c - {k}, k + 1).Keys == Below(c, k).Keys;
    if k !in c {
      assert Below(c, k + 1).Keys == Below(c, k).Keys;
    }
  }

  lemma BelowAll<T>(c: map<nat, T>, k: nat)
    requires forall j :: j in c ==> j < k
    ensures Below(c, k) == c
  {
    assert Below(c, k).Keys == c.Keys;
  }

  /** The loop of RemoveEntity over type indices k, k+1, .. K-1: each held
      component is removed from its storage and its handle cleared. */
  function ClearFrom<T>(m: Manager<T>, e: nat, k: nat): (r: Manager<T>)
    requires Inv(m) && ValidEntity(m, e) && k <= |m.stores|
    ensures Inv(r)
    ensures r.entities == m.entities && r.valid == m.valid && r.free == m.free
    ensures |r.stores| == |m.stores| && |r.table| == |m.table|
    ensures forall j :: 0 <= j < k ==> r.table[e][j] == m.table[e][j]
    ensures forall j :: k <= j < |m.stores| ==> r.table[e][j] == Absent
    ensures Comps(r, e) == Below(Comps(m, e), k)
    decreases |m.stores| - k
  {
    if k == |m.stores| then
      BelowAll(Comps(m, e), k);
      m
    else if m.table[e][k] == Absent then
      CompsHandle(m, e, k);
      BelowStep(Comps(m, e), k);
      ClearFrom(m, e, k + 1)
    else
      DetachKeepsInv(m, e, k);
      BelowStep(Comps(m, e), k);
      ClearFrom(Detach(m, e, k), e, k + 1)
  }

  /** The loop leaves every other entity alone. */
  lemma {:induction false} ClearFromOther<T>(m: Manager<T>, e: nat, k: nat, x: nat)
    requires Inv(m) && ValidEntity(m, e) && k <= |m.stores| && x != e
    ensures SlotOf(ClearFrom(m, e, k), x) == SlotOf(m, x)
    decreases |m.stores| - k
  {
    if k < |m.stores| {
      if m.table[e][k] == Absent {
        ClearFromOther(m, e, k + 1, x);
      } else {
        DetachKeepsInv(m, e, k);
        DetachOther(m, e, k, x);
        ClearFromOther(Detach(m, e, k), e, k + 1, x);
      }
    }
  }

  /** The last steps of RemoveEntity on a row without handles. */
  function Retire<T>(m: Manager<T>, e: nat): Manager<T>
    requires Shape(m) && e < |m.table|
  {
    m.(entities := m.entities[e := Entity(0, "")], valid := m.valid[e := false], free := m.free + [e])
  }

  lemma RetireKeepsInv<T>(m: Manager<T>, e: nat)
    requires Inv(m) && ValidEntity(m, e)
    requires forall j :: 0 <= j < |m.stores| ==> m.table[e][j] == Absent
    ensures Inv(Retire(m, e))
  {
    var r := Retire(m, e);
    forall k, s | 0 <= k < |r.stores| && CS.Valid(r.stores[k], s)
      ensures Owner(r, k, s)
    {
      var x :| 0 <= x < |m.table| && m.table[x][k] == At(s);
      assert r.table[x][k] == At(s);
    }
    assert e !in m.free;
    forall i, j | 0 <= i < j < |r.free|
      ensures r.free[i] != r.free[j]
    {
      assert r.free[i] == m.free[i];
      if j < |m.free| {
        assert r.free[j] == m.free[j];
      }
    }
    forall i | 0 <= i < |r.free|
      ensures r.free[i] < |r.valid| && !r.valid[r.free[i]]
    {
      if i < |m.free| {
        assert r.free[i] == m.free[i];
      }
    }
    forall x | 0 <= x < |r.valid| && !r.valid[x]
      ensures x in r.free
    {
      if x == e {
        assert r.free[|m.free|] == e;
      } else {
        assert x in m.free;
      }
    }
    forall x, k | 0 <= x < |r.table| && 0 <= k < |r.stores| && r.table[x][k].At?
      ensures r.valid[x] && CS.Valid(r.stores[k], r.table[x][k].slot)
    {
      assert m.table[e][k] == Absent && m.table[x][k].At?;
    }
    assert Shape(r) && StoresOk(r);
    assert EntitiesOk(r);
    assert FreeOk(r);
    assert HandlesOk(r);
    assert Unshared(r);
    assert Owned(r);
  }

  /** Retiring an id leaves every other id alone. */
  lemma RetireOthers<T>(m: Manager<T>, e: nat)
    requires Inv(m) && ValidEntity(m, e)
    ensures forall x :: x != e ==> SlotOf(Retire(m, e), x) == SlotOf(m, x)
  {
    var r := Retire(m, e);
    forall x | x != e
      ensures SlotOf(r, x) == SlotOf(m, x)
    {
      assert Comps(r, x) == Comps(m, x);
    }
  }

  /** RemoveEntity: a dead id is left alone; a live one loses every component,
      its name and its id, becomes vacant and goes on the free list. */
  function RemoveEntity<T>(m: Manager<T>, e: nat): (r: Manager<T>)
    requires Inv(m)
    ensures Inv(r)
    ensures !ValidEntity(m, e) ==> r == m
    ensures SlotOf(r, e) == Vacant
    ensures forall x :: x != e ==> SlotOf(r, x) == SlotOf(m, x)
    ensures |r.stores| == |m.stores| && |r.table| == |m.table| && |r.entities| == |m.entities|
    ensures ValidEntity(m, e) ==> r.free == m.free + [e] && r.entities[e] == Entity(0, "")
  {
    if !ValidEntity(m, e) then m
    else
      var c := ClearFrom(m, e, 0);
      ClearOthers(m, e);
      RetireKeepsInv(c, e);
      RetireOthers(c, e);
      Retire(c, e)
  }

  lemma ClearOthers<T>(m: Manager<T>, e: nat)
    requires Inv(m) && ValidEntity(m, e)
    ensures forall x :: x != e ==> SlotOf(ClearFrom(m, e, 0), x) == SlotOf(m, x)
  {
    forall x: nat | x != e
      ensures SlotOf(ClearFrom(m, e, 0), x) == SlotOf(m, x)
    {
      ClearFromOther(m, e, 0, x);
    }
  }

  /** Removing twice is removing once. */
  lemma RemoveEntityIdempotent<T>(m: Manager<T>, e: nat)
    requires Inv(m)
    ensures RemoveEntity(RemoveEntity(m, e), e) == RemoveEntity(m, e)
  {
  }

  /** A removed id is the next one handed out again. */
  lemma RemoveThenCreateReuses<T>(m: Manager<T>, e: nat, name: string)
    requires Inv(m) && ValidEntity(m, e)
    ensures CreateEntity(RemoveEntity(m, e), name).id == e
    ensures SlotOf(CreateEntity(RemoveEntity(m, e), name).manager, e) == Live(name, map[])
  {
    var r := RemoveEntity(m, e);
    assert r.free[|r.free| - 1] == e;
  }

  /** Creating an entity and removing it again leaves every id's meaning as
      it was. */
  lemma CreateThenRemove<T>(m: Manager<T>, name: string)
    requires Inv(m)
    ensures var c := CreateEntity(m, name);
      SameView(RemoveEntity(c.manager, c.id), m)
  {
    var c := CreateEntity(m, name);
    var r := RemoveEntity(c.manager, c.id);
    forall x
      ensures SlotOf(r, x) == SlotOf(m, x)
    {
      if x != c.id {
        assert SlotOf(r, x) == SlotOf(c.manager, x);
      }
    }
  }
}

=== FILE: gravity_system.dfy ===
/** GravitySystem: every visited entity with a movement component that is
    not standing on the ground is accelerated downwards (positive y), at a
    reduced rate while it slides down a wall it is pushing into. */
module GravitySystem {
  import opened MathUtil
  import opened Components
  import opened World
  import EM = EntityManager

  const GRAVITY: real := 980.0
  const WALL_SLIDE_GRAVITY_MULTIPLIER: real := 0.3

  /** Falling against a wall while holding the key towards it; only an
      entity with collision and input components can slide. */
  predicate WallSliding(c: map<nat, Component>)
    requires HasMovement(c)
  {
    && HasCollision(c) && !ContactOf(c).grounded
    && c[MOVEMENT].movement.velocity.y > 0.0
    && HasInput(c) && PushingIntoWall(ContactOf(c), c[INPUT].input.keydown)
  }

  /** The vertical speed gained in `dt` seconds. */
  function Pull(sliding: bool, dt: real): (g: real)
    ensures sliding ==> g == 294.0 * dt
    ensures !sliding ==> g == 980.0 * dt
  {
    GRAVITY * (if sliding then WALL_SLIDE_GRAVITY_MULTIPLIER else 1.0) * dt
  }

  /** One iteration of the loop body: only the vertical velocity of an
      airborne entity changes. */
  function GravityRule(c: map<nat, Component>, dt: real): (r: map<nat, Component>)
    ensures r.Keys == c.Keys
    ensures forall k :: k in c && k != MOVEMENT ==> r[k] == c[k]
    ensures !HasMovement(c) || ContactOf(c).grounded ==> r == c
    ensures HasMovement(c) && !ContactOf(c).grounded ==>
      var m := c[MOVEMENT].movement;
      r[MOVEMENT] == CMovement(m.(velocity := Point(m.velocity.x, m.velocity.y + Pull(WallSliding(c), dt))))
  {
    if !HasMovement(c) || ContactOf(c).grounded then c
    else
      var m := c[MOVEMENT].movement;
      c[MOVEMENT := CMovement(m.(velocity := Point(m.velocity.x, m.velocity.y + Pull(WallSliding(c), dt))))]
  }

  /** Gravity never slows a fall and never touches horizontal speed or the
      speed limit; wall sliding gains less speed than free fall; an entity
      on the ground gains nothing. */
  lemma GravityPullsDown(c: map<nat, Component>, dt: real)
    requires HasMovement(c) && dt >= 0.0
    ensures var m := c[MOVEMENT].movement; var m' := GravityRule(c, dt)[MOVEMENT].movement;
      && m'.velocity.y >= m.velocity.y
      && m'.velocity.x == m.velocity.x && m'.maxSpeed == m.maxSpeed
      && (dt > 0.0 ==> (ContactOf(c).grounded <==> m'.velocity.y == m.velocity.y))
      && (!ContactOf(c).grounded && dt > 0.0 ==> m'.velocity.y - m.velocity.y <= 980.0 * dt)
      && (!ContactOf(c).grounded && dt > 0.0 ==> (WallSliding(c) <==> m'.velocity.y - m.velocity.y < 980.0 * dt))
  {
  }

  lemma GravityRuleOk(dt: real)
    ensures RuleOk(c => GravityRule(c, dt))
  {
  }

  /** GravitySystem(entityManager, deltaTime): the visited entities get the
      loop body, every other id keeps its meaning. */
  function Gravity(w: World, dt: real): (r: World)
    requires WF(w)
    ensures WF(r) && SameSkeleton(w, r)
    ensures forall x: nat :: EM.SlotOf(r, x) == if Visited(w, x) then Apply(EM.SlotOf(w, x), c => GravityRule(c, dt)) else EM.SlotOf(w, x)
  {
    GravityRuleOk(dt);
    Pass(w, c => GravityRule(c, dt))
  }
}

=== FILE: input_system.dfy ===
/** InputSystem: turns the held keys of every visited entity with input and
    movement components into velocity changes — gradual horizontal
    acceleration up to the speed limit, deceleration when no direction is
    held, ground and wall jumps, and fast fall. */
module InputSystem {
  import opened MathUtil
  import opened Components
  import opened World
  import EM = EntityManager

  const PLAYER_AIR_CONTROL: real := 0.8
  const JUMP_VELOCITY: real := -400.0
  const WALL_JUMP_VELOCITY_Y: real := -350.0
  const WALL_JUMP_VELOCITY_X: real := 250.0
  const FAST_FALL_SPEED: real := 200.0

  /** -1 for A, +1 for D, 0 for both or neither. */
  function Direction(keys: set<Key>): (h: real)
    ensures h == 0.0 <==> (KeyA in keys <==> KeyD in keys)
    ensures h == -1.0 <==> KeyA in keys && KeyD !in keys
    ensures h == 1.0 <==> KeyD in keys && KeyA !in keys
  {
    (if KeyA in keys then -1.0 else 0.0) + (if KeyD in keys then 1.0 else 0.0)
  }

  /** Moves `vx` towards `target` by at most accel * dt, snapping onto the
      target when it is closer than that, then clamps to the speed limit. */
  function Accelerate(vx: real, target: real, accel: real, dt: real, maxSpeed: real): (r: real)
    ensures maxSpeed >= 0.0 ==> Abs(r) <= maxSpeed
    ensures accel * dt >= 0.0 && Abs(vx) <= maxSpeed && Abs(target) <= maxSpeed ==>
      && (vx <= target ==> vx <= r <= target)
      && (target <= vx ==> target <= r <= vx)
      && Abs(r - vx) <= accel * dt
      && (Abs(target - vx) < accel * dt ==> r == target)
  {
    var v := if Abs(target - vx) < accel * dt then target
             else vx + (if target > vx then accel * dt else -(accel * dt));
    if Abs(v) > maxSpeed then (if v > 0.0 then maxSpeed else -maxSpeed) else v
  }

  /** Brakes `vx` by decel * dt, stopping at zero rather than reversing. */
  function Decelerate(vx: real, decel: real, dt: real): (r: real)
    ensures decel * dt >= 0.0 ==> Abs(r) <= Abs(vx) && (vx >= 0.0 ==> r >= 0.0) && (vx <= 0.0 ==> r <= 0.0)
    ensures r == 0.0 || Abs(vx) - Abs(r) == decel * dt
  {
    if Abs(vx) < decel * dt then 0.0
    else vx - (if vx > 0.0 then decel * dt else -(decel * dt))
  }

  /** The horizontal velocity after the arrow keys were read. */
  function SteerX(vx: real, keys: set<Key>, maxSpeed: real, accelX: real, grounded: bool, dt: real): real
  {
    var h := Direction(keys);
    if h != 0.0 then
      Accelerate(vx, h * maxSpeed, if grounded then accelX else accelX * PLAYER_AIR_CONTROL, dt, maxSpeed)
    else
      Decelerate(vx, if grounded then accelX * 1.5 else accelX * 0.5, dt)
  }

  /** The jump a frame performs; each of the two plays the "jump" sound. */
  datatype Jump = NoJump | GroundJump | WallJump

  function JumpOf(keys: set<Key>, t: Contact, falling: bool): (j: Jump)
    ensures j != NoJump ==> KeyW in keys || KeySpace in keys
    ensures j == GroundJump <==> (KeyW in keys || KeySpace in keys) && t.grounded
    ensures j == WallJump ==> falling && PushingIntoWall(t, keys)
  {
    if !(KeyW in keys || KeySpace in keys) then NoJump
    else if t.grounded then GroundJump
    else if falling && PushingIntoWall(t, keys) then WallJump
    else NoJump
  }

  /** The movement after one iteration of the loop body. */
  function Steer(m: Movement, keys: set<Key>, accelX: real, t: Contact, dt: real): (r: Movement)
    ensures r.maxSpeed == m.maxSpeed
  {
    var vx := SteerX(m.velocity.x, keys, m.maxSpeed, accelX, t.grounded, dt);
    var j := JumpOf(keys, t, m.velocity.y > 0.0);
    var vx' := if j == WallJump && t.leftWall then WALL_JUMP_VELOCITY_X
               else if j == WallJump && t.rightWall then -WALL_JUMP_VELOCITY_X
               else vx;
    var vy := if j == GroundJump then JUMP_VELOCITY else if j == WallJump then WALL_JUMP_VELOCITY_Y else m.velocity.y;
    var vy' := if KeyS in keys then vy + FAST_FALL_SPEED else vy;
    m.(velocity := Point(vx', vy'))
  }

  /** What each jump does to the vertical speed, with S adding the fast
      fall on top; a wall jump pushes away from the wall. */
  lemma SteerJumps(m: Movement, keys: set<Key>, accelX: real, t: Contact, dt: real)
    ensures var j := JumpOf(keys, t, m.velocity.y > 0.0);
      var fall := if KeyS in keys then 200.0 else 0.0;
      && (j == NoJump ==> Steer(m, keys, accelX, t, dt).velocity.y == m.velocity.y + fall)
      && (j == GroundJump ==> Steer(m, keys, accelX, t, dt).velocity.y == -400.0 + fall)
      && (j == WallJump ==> Steer(m, keys, accelX, t, dt).velocity.y == -350.0 + fall)
      && (j == WallJump && t.leftWall ==> Steer(m, keys, accelX, t, dt).velocity.x == 250.0)
      && (j == WallJump && !t.leftWall ==> Steer(m, keys, accelX, t, dt).velocity.x == -250.0)
  {
  }

  /** Outside a wall jump, an entity within its speed limit stays within it
      for any non-negative acceleration and step. */
  lemma SteerKeepsSpeedLimit(m: Movement, keys: set<Key>, accelX: real, t: Contact, dt: real)
    requires m.maxSpeed >= 0.0 && Abs(m.velocity.x) <= m.maxSpeed && accelX >= 0.0 && dt >= 0.0
    requires JumpOf(keys, t, m.velocity.y > 0.0) != WallJump
    ensures Abs(Steer(m, keys, accelX, t, dt).velocity.x) <= m.maxSpeed
  {
    var h := Direction(keys);
    if h == 0.0 {
      var d := if t.grounded then accelX * 1.5 else accelX * 0.5;
      assert d >= 0.0;
      assert d * dt >= 0.0;
    }
  }

  /** With no key held an entity only brakes: its horizontal speed does not
      grow and its vertical speed is untouched. */
  lemma SteerIdle(m: Movement, accelX: real, t: Contact, dt: real)
    requires accelX >= 0.0 && dt >= 0.0
    ensures Abs(Steer(m, {}, accelX, t, dt).velocity.x) <= Abs(m.velocity.x)
    ensures Steer(m, {}, accelX, t, dt).velocity.y == m.velocity.y
  {
    var d := if t.grounded then accelX * 1.5 else accelX * 0.5;
    assert d * dt >= 0.0;
  }

  /** The entities the loop body acts on; the source reads the acceleration
      component without checking for it. */
  predicate Steered(c: map<nat, Component>)
  {
    HasInput(c) && HasMovement(c)
  }

  /** One iteration of the loop body: the movement is steered, and a falling
      entity with a collision component forgets that it was standing. */
  function InputRule(c: map<nat, Component>, dt: real): (r: map<nat, Component>)
    ensures r.Keys == c.Keys
    ensures forall k :: k in c && k != MOVEMENT && k != COLLISION ==> r[k] == c[k]
    ensures !(Steered(c) && HasAcceleration(c)) ==> r == c
    ensures Steered(c) && HasAcceleration(c) ==>
      r[MOVEMENT] == CMovement(Steer(c[MOVEMENT].movement, c[INPUT].input.keydown,
        c[ACCELERATION].acceleration.acceleration.x, ContactOf(c), dt))
    ensures Steered(c) && HasAcceleration(c) && HasCollision(c) ==>
      r[COLLISION] == CCollision(c[COLLISION].collision.(wasStandingLast :=
        c[COLLISION].collision.wasStandingLast && c[MOVEMENT].movement.velocity.y <= 0.0))
  {
    if !(Steered(c) && HasAcceleration(c)) then c
    else
      var m := c[MOVEMENT].movement;
      var m' := Steer(m, c[INPUT].input.keydown, c[ACCELERATION].acceleration.acceleration.x, ContactOf(c), dt);
      var c1 := c[MOVEMENT := CMovement(m')];
      if HasCollision(c) && m.velocity.y > 0.0 then
        c1[COLLISION := CCollision(c[COLLISION].collision.(wasStandingLast := false))]
      else c1
  }

  lemma InputRuleOk(dt: real)
    ensures RuleOk(c => InputRule(c, dt))
  {
  }

  /** Whether the loop body plays the "jump" sound for these components. */
  predicate Jumps(c: map<nat, Component>)
  {
    && Steered(c) && HasAcceleration(c)
    && JumpOf(c[INPUT].input.keydown, ContactOf(c), c[MOVEMENT].movement.velocity.y > 0.0) != NoJump
  }

  /** The ids, from `e` on and in loop order, whose iteration plays the
      "jump" sound. */
  function JumpersFrom(w: World, e: nat): (s: seq<nat>)
    ensures forall i :: 0 <= i < |s| ==> e <= s[i] && Visited(w, s[i]) && Jumps(EM.Comps(w, s[i]))
    ensures forall x: nat :: e <= x && Visited(w, x) && Jumps(EM.Comps(w, x)) ==> x in s
    ensures forall i, j :: 0 <= i < j < |s| ==> s[i] < s[j]
  {
    Select((x: nat) => Visited(w, x) && Jumps(EM.Comps(w, x)), |w.entities|, e)
  }

  /** The result of a pass: the new manager and the entities that jumped,
      one "jump" sound each. */
  datatype Outcome = Outcome(world: World, jumpSounds: seq<nat>)

  /** Every entity with input and movement must also hold an acceleration;
      the source asserts this when it reads the component. */
  ghost predicate Ready(w: World)
  {
    forall x: nat :: Visited(w, x) && Steered(EM.Comps(w, x)) ==> HasAcceleration(EM.Comps(w, x))
  }

  /** InputSystem(entityManager, soundManager, deltaTime). */
  function Input(w: World, dt: real): (r: Outcome)
    requires WF(w) && Ready(w)
    ensures WF(r.world) && SameSkeleton(w, r.world)
    ensures forall x: nat ::
      EM.SlotOf(r.world, x) == if Visited(w, x) then Apply(EM.SlotOf(w, x), c => InputRule(c, dt)) else EM.SlotOf(w, x)
    ensures forall x: nat :: x in r.jumpSounds <==> Visited(w, x) && Jumps(EM.Comps(w, x))
    ensures forall i, j :: 0 <= i < j < |r.jumpSounds| ==> r.jumpSounds[i] < r.jumpSounds[j]
  {
    InputRuleOk(dt);
    Outcome(Pass(w, c => InputRule(c, dt)), JumpersFrom(w, 0))
  }
}

=== FILE: map_loader.dfy ===
/** LoadMapLayer: reads a map layer — a dictionary header, tile definitions,
    a metadata line and a character grid — and creates one entity per
    defined grid cell, with a location, a sprite and, for gameplay tiles, a
    static collision box. Reading the file and splitting lines into tokens
    are not modelled: every line comes with its text and with what the
    stream extractions read from it. */
module MapLoader {
  import opened MathUtil
  import opened Components
  import opened Wrappers
  import opened World
  import EM = EntityManager

  // ---------------------------------------------------------------------------
  // Input

  /** Four floats read from a line. */
  datatype Quad = Quad(x: real, y: real, w: real, h: real)

  /** `dictLine >> dictWord >> dictType` on the first line; a failed read of
      the number leaves 0. */
  datatype DictTokens = DictTokens(word: string, kind: int)

  /** A definition line read as symbol, path, sprite rectangle and (for
      dictionary 2) bounding box. */
  datatype DefTokens = DefTokens(symbol: char, path: string, sprite: Quad, bbox: Quad)

  /** The metadata line read as `map origin x y tile w h size gw gh`. */
  datatype MetaTokens = MetaTokens(
    mapWord: string, originWord: string, originX: real, originY: real,
    tileWord: string, tileWidth: real, tileHeight: real,
    sizeWord: string, gridWidth: int, gridHeight: int)

  /** A line after the first: its text, and what reading it as a definition
      or as the metadata line yields. */
  datatype Line = Line(text: string, asDef: DefTokens, asMeta: MetaTokens)

  /** An opened map file: the first line, then the others. */
  datatype MapFile = MapFile(first: DictTokens, rest: seq<Line>)

  /** TileDef: a dictionary entry. */
  datatype TileDef = TileDef(symbol: char, texturePath: string, spriteRect: Rect, hasCollision: bool, boundingBox: Rect)

  // ---------------------------------------------------------------------------
  // Header and dictionary

  /** The first line must be `dictionary 1` or `dictionary 2`. */
  predicate ValidDictionary(d: DictTokens)
  {
    d.word == "dictionary" && (d.kind == 1 || d.kind == 2)
  }

  /** The metadata line must carry its four keywords. */
  predicate ValidMeta(m: MetaTokens)
  {
    m.mapWord == "map" && m.originWord == "origin" && m.tileWord == "tile" && m.sizeWord == "size"
  }

  /** `line.find("map origin") == 0`. */
  predicate StartsMap(text: string)
  {
    |text| >= 10 && text[..10] == "map origin"
  }

  /** A definition line: dictionary 1 has no bounding box and no collision. */
  function DefOf(kind: int, t: DefTokens): (d: TileDef)
    ensures d.symbol == t.symbol && d.texturePath == t.path
    ensures d.spriteRect == RectFromFloats(t.sprite.x, t.sprite.y, t.sprite.w, t.sprite.h)
    ensures d.hasCollision <==> kind != 1
  {
    var sprite := RectFromFloats(t.sprite.x, t.sprite.y, t.sprite.w, t.sprite.h);
    if kind == 1 then TileDef(t.symbol, t.path, sprite, false, EmptyRect)
    else TileDef(t.symbol, t.path, sprite, true, RectFromFloats(t.bbox.x, t.bbox.y, t.bbox.w, t.bbox.h))
  }

  /** Line j defines symbol s: it is not empty and reads s first. */
  predicate Defines(l: Line, s: char)
  {
    l.text != [] && l.asDef.symbol == s
  }

  /** The index of the metadata line: the first line from k on that starts
      with "map origin", or |lines| when there is none. */
  function MapLineIndex(lines: seq<Line>, k: nat): (i: nat)
    requires k <= |lines|
    ensures k <= i <= |lines|
    ensures i < |lines| ==> StartsMap(lines[i].text)
    ensures forall j :: k <= j < i ==> !StartsMap(lines[j].text)
    decreases |lines| - k
  {
    if k == |lines| then k
    else if StartsMap(lines[k].text) then k
    else MapLineIndex(lines, k + 1)
  }

  /** The last of the first n lines that defines s, or -1. */
  function LastDef(lines: seq<Line>, n: nat, s: char): (j: int)
    requires n <= |lines|
    ensures -1 <= j < n
    ensures j >= 0 ==> Defines(lines[j], s)
    ensures forall k :: j < k < n ==> !Defines(lines[k], s)
  {
    if n == 0 then -1 else if Defines(lines[n - 1], s) then n - 1 else LastDef(lines, n - 1, s)
  }

  /** The dictionary built from the first n lines: `tileDefs[symbol] = def`,
      skipping empty lines, so that the last definition of a symbol wins. */
  function Defs(lines: seq<Line>, kind: int, n: nat): (d: map<char, TileDef>)
    requires n <= |lines|
    ensures forall s :: s in d <==> LastDef(lines, n, s) >= 0
    ensures forall s :: s in d ==> d[s] == DefOf(kind, lines[LastDef(lines, n, s)].asDef)
    ensures forall s :: s in d ==> d[s].symbol == s && (d[s].hasCollision <==> kind != 1)
  {
    if n == 0 then map[]
    else
      var d := Defs(lines, kind, n - 1);
      var l := lines[n - 1];
      if l.text == [] then d else d[l.asDef.symbol := DefOf(kind, l.asDef)]
  }

  /** The last definition of a symbol among the first n lines is the one
      the dictionary keeps, and only a defined symbol is in it. */
  lemma DefsKeepLast(lines: seq<Line>, kind: int, n: nat, j: nat)
    requires j < n <= |lines| && Defines(lines[j], lines[j].asDef.symbol)
    requires forall k :: j < k < n ==> !Defines(lines[k], lines[j].asDef.symbol)
    ensures lines[j].asDef.symbol in Defs(lines, kind, n)
    ensures Defs(lines, kind, n)[lines[j].asDef.symbol] == DefOf(kind, lines[j].asDef)
  {
    var s := lines[j].asDef.symbol;
    assert LastDef(lines, n, s) == j;
  }

  /** The grid: the non-empty lines after the metadata line, in order. */
  function GridLines(lines: seq<Line>): (g: seq<string>)
    ensures |g| <= |lines|
    ensures forall i :: 0 <= i < |g| ==> g[i] != []
    ensures forall j :: 0 <= j < |lines| && lines[j].text != [] ==> lines[j].text in g
    ensures forall i :: 0 <= i < |g| ==> exists j :: 0 <= j < |lines| && lines[j].text == g[i]
  {
    if |lines| == 0 then []
    else
      var g := GridLines(lines[..|lines| - 1]);
      var last := lines[|lines| - 1];
      assert forall j :: 0 <= j < |lines| - 1 ==> lines[..|lines| - 1][j] == lines[j];
      if last.text == [] then g else g + [last.text]
  }

  // ---------------------------------------------------------------------------
  // The grid

  /** A grid cell the two loops visit. */
  datatype Cell = Cell(col: nat, row: nat, symbol: char)

  /** The loops stop at the declared size and at the text actually present. */
  predicate InGrid(grid: seq<string>, m: MetaTokens, col: nat, row: nat)
  {
    row < m.gridHeight && row < |grid| && col < m.gridWidth && col < |grid[row]|
  }

  /** Row-major visiting order. */
  predicate Before(a: Cell, b: Cell)
  {
    a.row < b.row || (a.row == b.row && a.col < b.col)
  }

  /** The inner loop over the columns of one row, from column col on. */
  function RowCells(grid: seq<string>, m: MetaTokens, row: nat, col: nat): (r: seq<Cell>)
    requires row < |grid| && row < m.gridHeight
    ensures forall i :: 0 <= i < |r| ==>
      r[i].row == row && col <= r[i].col && InGrid(grid, m, r[i].col, row) && r[i].symbol == grid[row][r[i].col]
    ensures forall k: nat :: col <= k && InGrid(grid, m, k, row) ==> Cell(k, row, grid[row][k]) in r
    ensures forall i, j :: 0 <= i < j < |r| ==> r[i].col < r[j].col
    decreases |grid[row]| - col
  {
    if col >= |grid[row]| || col >= m.gridWidth then []
    else [Cell(col, row, grid[row][col])] + RowCells(grid, m, row, col + 1)
  }

  /** The outer loop over the rows, from row on: every cell inside both
      bounds, once, in row-major order. */
  function GridCells(grid: seq<string>, m: MetaTokens, row: nat): (r: seq<Cell>)
    ensures forall i :: 0 <= i < |r| ==>
      row <= r[i].row && InGrid(grid, m, r[i].col, r[i].row) && r[i].symbol == grid[r[i].row][r[i].col]
    ensures forall k: nat, y: nat :: row <= y && InGrid(grid, m, k, y) ==> Cell(k, y, grid[y][k]) in r
    ensures forall i, j :: 0 <= i < j < |r| ==> Before(r[i], r[j])
    decreases |grid| - row
  {
    if row >= |grid| || row >= m.gridHeight then []
    else
      var here := RowCells(grid, m, row, 0);
      var rest := GridCells(grid, m, row + 1);
      assert forall i :: 0 <= i < |rest| ==> rest[i].row > row;
      here + rest
  }

  /** `.` and space are empty cells. */
  predicate Blank(symbol: char)
  {
    symbol == '.' || symbol == ' '
  }

  /** The cells that create an entity: neither blank nor undefined. */
  function Tiles(cells: seq<Cell>, defs: map<char, TileDef>): (r: seq<Cell>)
    ensures forall c :: c in r <==> c in cells && !Blank(c.symbol) && c.symbol in defs
    ensures (forall i, j :: 0 <= i < j < |cells| ==> Before(cells[i], cells[j])) ==>
      forall i, j :: 0 <= i < j < |r| ==> Before(r[i], r[j])
  {
    if |cells| == 0 then []
    else
      var rest := Tiles(cells[1..], defs);
      assert forall c :: c in cells[1..] ==> c in cells;
      assert forall c :: c in cells ==> c == cells[0] || c in cells[1..];
      if !Blank(cells[0].symbol) && cells[0].symbol in defs then
        assert (forall i, j :: 0 <= i < j < |cells| ==> Before(cells[i], cells[j])) ==>
          forall i :: 0 <= i < |rest| ==> Before(cells[0], rest[i]) by {
          if forall i, j :: 0 <= i < j < |cells| ==> Before(cells[i], cells[j]) {
            forall i | 0 <= i < |rest|
              ensures Before(cells[0], rest[i])
            {
              assert rest[i] in cells[1..];
              var k :| 0 <= k < |cells[1..]| && cells[1..][k] == rest[i];
              assert cells[k + 1] == rest[i];
            }
          }
        }
        [cells[0]] + rest
      else rest
  }

  // ---------------------------------------------------------------------------
  // Entity names

  /** The decimal digit character of d. */
  function DigitChar(d: nat): (c: char)
    requires d < 10
    ensures '0' <= c <= '9'
  {
    (48 + d) as char
  }

  /** std::to_string of a non-negative int. */
  function NatToString(n: nat): (s: string)
    ensures |s| > 0
    ensures forall i :: 0 <= i < |s| ==> '0' <= s[i] <= '9'
  {
    if n < 10 then [DigitChar(n)] else NatToString(n / 10) + [DigitChar(n % 10)]
  }

  /** Reads a string of decimal digits back. */
  function ParseNat(s: string): nat
    requires forall i :: 0 <= i < |s| ==> '0' <= s[i] <= '9'
  {
    if |s| == 0 then 0 else 10 * ParseNat(s[..|s| - 1]) + (s[|s| - 1] as int - 48)
  }

  /** The decimal text of a number reads back as that number. */
  lemma {:induction false} NatToStringRoundTrip(n: nat)
    ensures ParseNat(NatToString(n)) == n
  {
    if n >= 10 {
      var s := NatToString(n);
      assert s[..|s| - 1] == NatToString(n / 10);
      NatToStringRoundTrip(n / 10);
    }
  }

  /** `tile_<symbol>_<col>_<row>`. */
  function TileName(c: Cell): string
  {
    "tile_" + [c.symbol] + "_" + NatToString(c.col) + "_" + NatToString(c.row)
  }

  /** The position of the first `_`, or the length when there is none. */
  function FirstUnderscore(s: string): (i: nat)
    ensures i <= |s|
  {
    if |s| == 0 then 0 else if s[0] == '_' then 0 else 1 + FirstUnderscore(s[1..])
  }

  /** After a digit string, the first `_` is the one that follows it. */
  lemma {:induction false} UnderscoreAfterDigits(a: string, b: string)
    requires forall i :: 0 <= i < |a| ==> '0' <= a[i] <= '9'
    ensures FirstUnderscore(a + "_" + b) == |a|
  {
    if |a| > 0 {
      assert (a + "_" + b)[1..] == a[1..] + "_" + b;
      UnderscoreAfterDigits(a[1..], b);
    }
  }

  /** Two digit strings each followed by `_` split a string the same way. */
  lemma SplitAtUnderscore(a: string, b: string, a': string, b': string)
    requires forall i :: 0 <= i < |a| ==> '0' <= a[i] <= '9'
    requires forall i :: 0 <= i < |a'| ==> '0' <= a'[i] <= '9'
    requires a + "_" + b == a' + "_" + b'
    ensures a == a' && b == b'
  {
    var s := a + "_" + b;
    UnderscoreAfterDigits(a, b);
    UnderscoreAfterDigits(a', b');
    assert |a| == |a'|;
    assert a == s[..|a|];
    assert a' == (a' + "_" + b')[..|a'|];
    assert b == s[|a| + 1..];
    assert b' == (a' + "_" + b')[|a'| + 1..];
  }

  /** Different cells get different names. */
  lemma TileNamesDistinct(c: Cell, d: Cell)
    requires TileName(c) == TileName(d)
    ensures c == d
  {
    var n := TileName(c);
    var m := TileName(d);
    assert n[5] == c.symbol && m[5] == d.symbol;
    var restC := NatToString(c.col) + "_" + NatToString(c.row);
    var restD := NatToString(d.col) + "_" + NatToString(d.row);
    assert n == "tile_" + [c.symbol] + "_" + restC;
    assert m == "tile_" + [d.symbol] + "_" + restD;
    assert restC == n[7..];
    assert restD == m[7..];
    SplitAtUnderscore(NatToString(c.col), NatToString(c.row), NatToString(d.col), NatToString(d.row));
    NatToStringRoundTrip(c.col);
    NatToStringRoundTrip(d.col);
    NatToStringRoundTrip(c.row);
    NatToStringRoundTrip(d.row);
  }

  // ---------------------------------------------------------------------------
  // The entities

  /** Where cell (col, row) goes: its bottom-left corner. */
  function TilePosition(m: MetaTokens, c: Cell): Point
  {
    Point(m.originX + c.col as real * m.tileWidth, m.originY + (c.row + 1) as real * m.tileHeight)
  }

  /** The collision box: the definition's box, moved up by one tile height
      so that it is measured from the bottom-left corner. */
  function TileBox(m: MetaTokens, def: TileDef): (b: Rect)
    ensures b.topLeft == Point(def.boundingBox.topLeft.x, def.boundingBox.topLeft.y - m.tileHeight)
    ensures b.width == def.boundingBox.width && b.height == def.boundingBox.height
  {
    Rect(Point(def.boundingBox.topLeft.x, def.boundingBox.topLeft.y - m.tileHeight),
      def.boundingBox.width, def.boundingBox.height)
  }

  /** Whether a tile gets a collision component. */
  predicate Collides(def: TileDef, symbol: char, nonCollidable: set<char>)
  {
    def.hasCollision && symbol !in nonCollidable
  }

  /** The components of a new tile entity. */
  function TileComps(m: MetaTokens, c: Cell, def: TileDef, sprite: nat, nonCollidable: set<char>): (r: map<nat, Component>)
    ensures Typed(r)
    ensures LOCATION in r && SPRITE in r
    ensures r.Keys == if Collides(def, c.symbol, nonCollidable) then {LOCATION, SPRITE, COLLISION} else {LOCATION, SPRITE}
    ensures r[LOCATION] == CLocation(Location(TilePosition(m, c)))
    ensures r[SPRITE] == CSprite(Sprite(sprite, Rect(Point(0.0, -m.tileHeight), Trunc(m.tileWidth), Trunc(m.tileHeight)), true, true))
    ensures COLLISION in r ==> r[COLLISION] == CCollision(NewCollision(TileBox(m, def), true))
  {
    var draw := Rect(Point(0.0, -m.tileHeight), Trunc(m.tileWidth), Trunc(m.tileHeight));
    var base := map[LOCATION := CLocation(Location(TilePosition(m, c))), SPRITE := CSprite(Sprite(sprite, draw, true, true))];
    if Collides(def, c.symbol, nonCollidable) then base[COLLISION := CCollision(NewCollision(TileBox(m, def), true))]
    else base
  }

  /** SpriteManager::RegisterTexture(resourcePath + texturePath, spriteRect):
      sprite ids are handed out in registration order. */
  datatype Registration = Registration(path: string, rect: Rect)

  /** MapLayerData: the entities created for each symbol, in creation order. */
  datatype Layer = Layer(symbols: map<char, seq<nat>>)

  const EmptyLayer: Layer := Layer(map[])

  /** GetEntities: an unknown symbol has no entities. */
  function GetEntities(layer: Layer, s: char): (r: seq<nat>)
    ensures s !in layer.symbols ==> r == []
  {
    if s in layer.symbols then layer.symbols[s] else []
  }

  /** AddEntity: appends to the symbol's list. */
  function AddEntity(layer: Layer, s: char, id: nat): (r: Layer)
    ensures GetEntities(r, s) == GetEntities(layer, s) + [id]
    ensures forall t :: t != s ==> GetEntities(r, t) == GetEntities(layer, t)
  {
    Layer(layer.symbols[s := GetEntities(layer, s) + [id]])
  }

  /** The ids among the first n whose tile has symbol s, in order. */
  function IdsFor(tiles: seq<Cell>, ids: seq<nat>, s: char, n: nat): (r: seq<nat>)
    requires n <= |tiles| && n <= |ids|
    ensures |r| <= n
  {
    if n == 0 then []
    else IdsFor(tiles, ids, s, n - 1) + (if tiles[n - 1].symbol == s then [ids[n - 1]] else [])
  }

  /** The ids recorded for s are exactly those of the tiles with symbol s. */
  lemma {:induction false} IdsForMembers(tiles: seq<Cell>, ids: seq<nat>, s: char, n: nat, x: nat)
    requires n <= |tiles| && n <= |ids|
    ensures x in IdsFor(tiles, ids, s, n) <==> exists i :: 0 <= i < n && tiles[i].symbol == s && ids[i] == x
  {
    if n > 0 {
      IdsForMembers(tiles, ids, s, n - 1, x);
      var last := n - 1;
      if x in IdsFor(tiles, ids, s, n) && x !in IdsFor(tiles, ids, s, n - 1) {
        assert tiles[last].symbol == s && ids[last] == x;
      }
      if exists i :: 0 <= i < n && tiles[i].symbol == s && ids[i] == x {
        var i :| 0 <= i < n && tiles[i].symbol == s && ids[i] == x;
        if i == last {
          assert x in IdsFor(tiles, ids, s, n)[|IdsFor(tiles, ids, s, n - 1)|..];
        }
      }
    }
  }

  /** What the load produced: the manager, the layer data, the id of each
      tile's entity, and the textures registered. */
  datatype Loaded = Loaded(world: World, layer: Layer, ids: seq<nat>, registrations: seq<Registration>)

  /** What the map part of a file decided. */
  datatype Plan = Plan(kind: int, defs: map<char, TileDef>, meta: MetaTokens, tiles: seq<Cell>)

  /** The settings of the call: the resource path, the non-collidable
      symbols, and the number of sprites registered before. */
  datatype Settings = Settings(resourcePath: string, nonCollidable: set<char>, firstSprite: nat)

  /** The entity created for tile i. */
  function TileSlot(p: Plan, st: Settings, i: nat): (s: EM.Slot<Component>)
    requires i < |p.tiles| && p.tiles[i].symbol in p.defs
    ensures s.Live? && Typed(s.comps)
  {
    var c := p.tiles[i];
    EM.Live(TileName(c), TileComps(p.meta, c, p.defs[c.symbol], st.firstSprite + i, st.nonCollidable))
  }

  /** Every tile has a definition. */
  predicate Defined(p: Plan)
  {
    forall i :: 0 <= i < |p.tiles| ==> p.tiles[i].symbol in p.defs
  }

  /** The ids handed out were vacant before the load. */
  ghost predicate Fresh(w0: World, ids: seq<nat>)
  {
    forall i :: 0 <= i < |ids| ==> EM.SlotOf(w0, ids[i]) == EM.Vacant
  }

  /** The entities the tile loop creates, tile by tile. */
  function Targets(p: Plan, st: Settings): (t: seq<EM.Slot<Component>>)
    requires Defined(p)
    ensures |t| == |p.tiles|
    ensures forall i :: 0 <= i < |t| ==> t[i].Live?
  {
    seq(|p.tiles|, i requires 0 <= i < |p.tiles| && Defined(p) => TileSlot(p, st, i))
  }

  /** The entity of tile i holds want[i]. */
  ghost predicate Holds(w: World, ids: seq<nat>, want: seq<EM.Slot<Component>>)
  {
    |ids| <= |want| && forall i :: 0 <= i < |ids| ==> EM.SlotOf(w, ids[i]) == want[i]
  }

  predicate Distinct(ids: seq<nat>)
  {
    forall i, j :: 0 <= i < j < |ids| ==> ids[i] != ids[j]
  }

  /** Nothing but the new entities changed. */
  ghost predicate Untouched(w0: World, w: World, ids: seq<nat>)
  {
    forall x: nat :: x !in ids ==> EM.SlotOf(w, x) == EM.SlotOf(w0, x)
  }

  /** The registration of tile i: the resource path joined to the texture
      path of its definition, and its sprite rectangle. */
  function RegistrationOf(p: Plan, st: Settings, i: nat): Registration
    requires i < |p.tiles| && Defined(p)
  {
    var def := p.defs[p.tiles[i].symbol];
    Registration(st.resourcePath + def.texturePath, def.spriteRect)
  }

  predicate Registered(p: Plan, st: Settings, regs: seq<Registration>)
    requires |regs| <= |p.tiles| && Defined(p)
  {
    forall i :: 0 <= i < |regs| ==> regs[i] == RegistrationOf(p, st, i)
  }

  /** The state after the first n tiles. */
  ghost predicate PlacedUpTo(w0: World, p: Plan, st: Settings, n: nat, r: Loaded)
    requires n <= |p.tiles| && Defined(p)
  {
    && WF(r.world)
    && |r.ids| == n && |r.registrations| == n
    && Fresh(w0, r.ids)
    && Holds(r.world, r.ids, Targets(p, st))
    && Distinct(r.ids)
    && Untouched(w0, r.world, r.ids)
    && Registered(p, st, r.registrations)
  }

  /** One tile: create the entity with its components, register its
      texture, record it under its symbol. */
  function PlaceOne(p: Plan, st: Settings, n: nat, r: Loaded): (r': Loaded)
    requires n < |p.tiles| && Defined(p) && WF(r.world) && |r.ids| == n && |r.registrations| == n
    ensures WF(r'.world) && |r'.ids| == n + 1
    ensures r'.ids == r.ids + [r'.ids[n]] && EM.SlotOf(r.world, r'.ids[n]) == EM.Vacant
    ensures EM.SlotOf(r'.world, r'.ids[n]) == Targets(p, st)[n]
    ensures forall x :: x != r'.ids[n] ==> EM.SlotOf(r'.world, x) == EM.SlotOf(r.world, x)
    ensures r'.registrations == r.registrations + [RegistrationOf(p, st, n)]
    ensures r'.layer == AddEntity(r.layer, p.tiles[n].symbol, r'.ids[n])
  {
    var s := TileSlot(p, st, n);
    var cr := CreateWith(r.world, s.name, s.comps);
    Loaded(cr.manager, AddEntity(r.layer, p.tiles[n].symbol, cr.id), r.ids + [cr.id],
      r.registrations + [RegistrationOf(p, st, n)])
  }

  /** A vacant id is none of the ids already holding live entities. */
  lemma NewIdIsNew(w: World, ids: seq<nat>, want: seq<EM.Slot<Component>>, id: nat)
    requires Holds(w, ids, want) && EM.SlotOf(w, id) == EM.Vacant
    requires forall i :: 0 <= i < |want| ==> want[i].Live?
    ensures id !in ids
  {
    forall i | 0 <= i < |ids|
      ensures ids[i] != id
    {
      assert EM.SlotOf(w, ids[i]) == want[i];
    }
  }

  /** Tile n's new entity, vacant before and the only one changed, keeps
      the earlier tiles' entities as they were. */
  lemma HoldsStep(w: World, w': World, ids: seq<nat>, want: seq<EM.Slot<Component>>, id: nat)
    requires |ids| < |want| && Holds(w, ids, want) && id !in ids
    requires EM.SlotOf(w', id) == want[|ids|]
    requires forall x :: x != id ==> EM.SlotOf(w', x) == EM.SlotOf(w, x)
    ensures Holds(w', ids + [id], want)
  {
    var ids' := ids + [id];
    forall i | 0 <= i < |ids'|
      ensures EM.SlotOf(w', ids'[i]) == want[i]
    {
      if i < |ids| {
        assert ids'[i] == ids[i] && ids[i] != id;
      }
    }
  }

  /** A new id, vacant before, keeps the ids fresh, distinct, and the
      rest of the manager untouched. */
  lemma FreshStep(w0: World, w: World, w': World, ids: seq<nat>, id: nat)
    requires id !in ids && EM.SlotOf(w, id) == EM.Vacant
    requires Fresh(w0, ids) && Untouched(w0, w, ids)
    requires forall x :: x != id ==> EM.SlotOf(w', x) == EM.SlotOf(w, x)
    ensures Fresh(w0, ids + [id])
    ensures Untouched(w0, w', ids + [id])
    ensures Distinct(ids) ==> Distinct(ids + [id])
  {
    assert EM.SlotOf(w0, id) == EM.Vacant;
    forall x: nat | x !in ids + [id]
      ensures EM.SlotOf(w', x) == EM.SlotOf(w0, x)
    {
      assert x !in ids && x != id;
    }
  }

  /** One tile more keeps the placement invariant. */
  lemma PlaceStep(w0: World, p: Plan, st: Settings, n: nat, r: Loaded)
    requires n < |p.tiles| && Defined(p)
    requires PlacedUpTo(w0, p, st, n, r)
    ensures PlacedUpTo(w0, p, st, n + 1, PlaceOne(p, st, n, r))
  {
    var r' := PlaceOne(p, st, n, r);
    var id := r'.ids[n];
    NewIdIsNew(r.world, r.ids, Targets(p, st), id);
    HoldsStep(r.world, r'.world, r.ids, Targets(p, st), id);
    FreshStep(w0, r.world, r'.world, r.ids, id);
    RegisteredStep(p, st, r.registrations);
  }

  /** Registering tile n after the first n keeps the registrations. */
  lemma RegisteredStep(p: Plan, st: Settings, regs: seq<Registration>)
    requires |regs| < |p.tiles| && Defined(p)
    requires Registered(p, st, regs)
    ensures Registered(p, st, regs + [RegistrationOf(p, st, |regs|)])
  {
  }

  /** Recording tile n's id under its symbol keeps the symbol lists of the
      first n tiles and extends them by tile n. */
  lemma LayerStep(tiles: seq<Cell>, layer: Layer, ids: seq<nat>, id: nat)
    requires |ids| < |tiles|
    requires forall s :: GetEntities(layer, s) == IdsFor(tiles, ids, s, |ids|)
    ensures forall s :: GetEntities(AddEntity(layer, tiles[|ids|].symbol, id), s) == IdsFor(tiles, ids + [id], s, |ids| + 1)
  {
    forall s
      ensures GetEntities(AddEntity(layer, tiles[|ids|].symbol, id), s) == IdsFor(tiles, ids + [id], s, |ids| + 1)
    {
      IdsForPrefix(tiles, ids, ids + [id], s, |ids|);
    }
  }

  /** One tile more keeps both the invariant and the symbol lists. */
  lemma TileStep(w0: World, p: Plan, st: Settings, n: nat, r: Loaded)
    requires n < |p.tiles| && Defined(p)
    requires PlacedUpTo(w0, p, st, n, r)
    requires forall s :: GetEntities(r.layer, s) == IdsFor(p.tiles, r.ids, s, n)
    ensures PlacedUpTo(w0, p, st, n + 1, PlaceOne(p, st, n, r))
    ensures forall s :: GetEntities(PlaceOne(p, st, n, r).layer, s) == IdsFor(p.tiles, PlaceOne(p, st, n, r).ids, s, n + 1)
  {
    var r' := PlaceOne(p, st, n, r);
    PlaceStep(w0, p, st, n, r);
    LayerStep(p.tiles, r.layer, r.ids, r'.ids[n]);
  }

  /** The tile loop over the first n tiles. */
  function PlaceTiles(w0: World, p: Plan, st: Settings, n: nat): (r: Loaded)
    requires WF(w0) && n <= |p.tiles| && Defined(p)
    ensures WF(r.world) && |r.ids| == n && |r.registrations| == n
  {
    if n == 0 then Loaded(w0, EmptyLayer, [], [])
    else PlaceOne(p, st, n - 1, PlaceTiles(w0, p, st, n - 1))
  }

  /** After n tiles, each has its own new entity holding what the loop body
      gave it, nothing else changed, the textures are registered in tile
      order, and each symbol lists its tiles' ids in order. */
  lemma {:induction false} PlaceTilesPlaced(w0: World, p: Plan, st: Settings, n: nat)
    requires WF(w0) && n <= |p.tiles| && Defined(p)
    ensures PlacedUpTo(w0, p, st, n, PlaceTiles(w0, p, st, n))
    ensures forall s :: GetEntities(PlaceTiles(w0, p, st, n).layer, s) == IdsFor(p.tiles, PlaceTiles(w0, p, st, n).ids, s, n)
  {
    if n == 0 {
      PlaceNone(w0, p, st);
    } else {
      var r := PlaceTiles(w0, p, st, n - 1);
      PlaceTilesPlaced(w0, p, st, n - 1);
      TileStep(w0, p, st, n - 1, r);
    }
  }

  /** Before the first tile nothing is placed. */
  lemma PlaceNone(w0: World, p: Plan, st: Settings)
    requires WF(w0) && Defined(p)
    ensures PlacedUpTo(w0, p, st, 0, PlaceTiles(w0, p, st, 0))
    ensures forall s :: GetEntities(PlaceTiles(w0, p, st, 0).layer, s) == IdsFor(p.tiles, PlaceTiles(w0, p, st, 0).ids, s, 0)
  {
  }

  /** IdsFor only looks at the first n ids. */
  lemma {:induction false} IdsForPrefix(tiles: seq<Cell>, ids: seq<nat>, ids': seq<nat>, s: char, n: nat)
    requires n <= |tiles| && n <= |ids| && n <= |ids'|
    requires forall i :: 0 <= i < n ==> ids[i] == ids'[i]
    ensures IdsFor(tiles, ids, s, n) == IdsFor(tiles, ids', s, n)
  {
    if n > 0 {
      IdsForPrefix(tiles, ids, ids', s, n - 1);
    }
  }

  // ---------------------------------------------------------------------------
  // LoadMapLayer

  /** Everything the file decides before any entity is created, or None
      when the file is rejected and the layer stays empty. */
  function Parse(file: Option<MapFile>): (r: Option<Plan>)
    ensures r.Some? ==> file.Some? && ValidDictionary(file.value.first) && ValidMeta(r.value.meta)
    ensures r.Some? ==> Defined(r.value) && r.value.kind == file.value.first.kind
    ensures r.Some? ==> forall s :: s in r.value.defs ==> (r.value.defs[s].hasCollision <==> r.value.kind == 2)
  {
    match file
    case None => None
    case Some(f) =>
      if !ValidDictionary(f.first) then None
      else
        var lines := f.rest;
        var stop := MapLineIndex(lines, 0);
        if stop == |lines| || !ValidMeta(lines[stop].asMeta) then None
        else
          var meta := lines[stop].asMeta;
          var defs := Defs(lines, f.first.kind, stop);
          var grid := GridLines(lines[stop + 1..]);
          var tiles := Tiles(GridCells(grid, meta, 0), defs);
          Some(Plan(f.first.kind, defs, meta, tiles))
  }

  /** LoadMapLayer(path, resourcePath, entityManager, spriteManager,
      nonCollidableSymbols). */
  function LoadMapLayer(file: Option<MapFile>, w: World, st: Settings): (r: Loaded)
    requires WF(w)
    ensures WF(r.world)
    ensures Parse(file).None? ==> r == Loaded(w, EmptyLayer, [], [])
    ensures Parse(file).Some? ==> PlacedUpTo(w, Parse(file).value, st, |Parse(file).value.tiles|, r)
    ensures Parse(file).Some? ==>
      forall s :: GetEntities(r.layer, s) == IdsFor(Parse(file).value.tiles, r.ids, s, |Parse(file).value.tiles|)
  {
    match Parse(file)
    case None => Loaded(w, EmptyLayer, [], [])
    case Some(p) =>
      PlaceTilesPlaced(w, p, st, |p.tiles|);
      PlaceTiles(w, p, st, |p.tiles|)
  }

  // ---------------------------------------------------------------------------
  // Properties of a load

  /** A file whose first line is not a dictionary declaration, or whose
      metadata line is missing or malformed, creates nothing. */
  lemma RejectedFiles(file: MapFile, w: World, st: Settings)
    requires WF(w)
    requires !ValidDictionary(file.first)
      || MapLineIndex(file.rest, 0) == |file.rest|
      || !ValidMeta(file.rest[MapLineIndex(file.rest, 0)].asMeta)
    ensures LoadMapLayer(Some(file), w, st) == Loaded(w, EmptyLayer, [], [])
  {
  }

  /** Cell (col, row) gets an entity exactly when it lies inside both the
      declared size and the text, and its symbol is neither blank nor
      undefined. */
  lemma TileCells(f: MapFile, c: Cell)
    requires Parse(Some(f)).Some?
    ensures var p := Parse(Some(f)).value;
      var lines := f.rest;
      var grid := GridLines(lines[MapLineIndex(lines, 0) + 1..]);
      (c in p.tiles <==>
        (InGrid(grid, p.meta, c.col, c.row) && c.symbol == grid[c.row][c.col]
         && !Blank(c.symbol) && c.symbol in p.defs))
  {
    var p := Parse(Some(f)).value;
    var lines := f.rest;
    var grid := GridLines(lines[MapLineIndex(lines, 0) + 1..]);
    var cells := GridCells(grid, p.meta, 0);
    if InGrid(grid, p.meta, c.col, c.row) && c.symbol == grid[c.row][c.col] {
      assert Cell(c.col, c.row, grid[c.row][c.col]) in cells;
    }
    if c in p.tiles {
      assert c in cells;
      var i :| 0 <= i < |cells| && cells[i] == c;
    }
  }

  /** The entity of tile i sits at the bottom-left corner of its cell, is
      named after its symbol and cell, and has a collision component exactly
      when its definition came from dictionary 2 and its symbol is not
      non-collidable; that collision body is static and its box is the
      definition's box moved up by one tile height. */
  lemma TileEntities(file: Option<MapFile>, w: World, st: Settings, i: nat)
    requires WF(w) && Parse(file).Some? && i < |Parse(file).value.tiles|
    ensures EM.SlotOf(w, LoadMapLayer(file, w, st).ids[i]) == EM.Vacant
    ensures var p := Parse(file).value;
      var r := LoadMapLayer(file, w, st);
      TileShape(p.meta, p.kind, p.tiles[i], p.defs[p.tiles[i].symbol], st.firstSprite + i, st.nonCollidable,
        EM.SlotOf(r.world, r.ids[i]))
  {
    var p := Parse(file).value;
    var r := LoadMapLayer(file, w, st);
    assert Holds(r.world, r.ids, Targets(p, st)) && Fresh(w, r.ids);
    assert p.tiles[i].symbol in p.defs;
    TileEntity(p, st, r.world, r.ids, i);
  }

  /** What the loop body gives the entity of cell c: its name, its
      position at the bottom-left corner of the cell, its sprite id, and a
      static collision box exactly for a collidable gameplay tile. */
  predicate TileShape(m: MetaTokens, kind: int, c: Cell, def: TileDef, sprite: nat, nonCollidable: set<char>, s: EM.Slot<Component>)
  {
    && s.Live? && s.name == TileName(c)
    && LOCATION in s.comps && SPRITE in s.comps
    && s.comps[LOCATION] == CLocation(Location(Point(m.originX + c.col as real * m.tileWidth,
         m.originY + (c.row + 1) as real * m.tileHeight)))
    && s.comps[SPRITE].CSprite? && s.comps[SPRITE].sprite.spriteID == sprite
    && (COLLISION in s.comps <==> kind == 2 && c.symbol !in nonCollidable)
    && (COLLISION in s.comps ==>
          (s.comps[COLLISION].CCollision? && s.comps[COLLISION].collision.isStatic
           && s.comps[COLLISION].collision.boundingBoxOffset ==
              Point(def.boundingBox.topLeft.x, def.boundingBox.topLeft.y - m.tileHeight)))
  }

  /** The entity the loop body builds for a cell has that shape. */
  lemma TileSlotShape(m: MetaTokens, kind: int, c: Cell, def: TileDef, sprite: nat, nonCollidable: set<char>)
    requires def.hasCollision <==> kind == 2
    ensures TileShape(m, kind, c, def, sprite, nonCollidable, EM.Live(TileName(c), TileComps(m, c, def, sprite, nonCollidable)))
  {
  }

  /** The same for any manager the tile loop produced from a plan. */
  lemma TileEntity(p: Plan, st: Settings, w: World, ids: seq<nat>, i: nat)
    requires Defined(p) && i < |ids| && Holds(w, ids, Targets(p, st))
    requires p.defs[p.tiles[i].symbol].hasCollision <==> p.kind == 2
    ensures TileShape(p.meta, p.kind, p.tiles[i], p.defs[p.tiles[i].symbol], st.firstSprite + i, st.nonCollidable,
      EM.SlotOf(w, ids[i]))
  {
    assert EM.SlotOf(w, ids[i]) == Targets(p, st)[i] == TileSlot(p, st, i);
    var c := p.tiles[i];
    TileSlotShape(p.meta, p.kind, c, p.defs[c.symbol], st.firstSprite + i, st.nonCollidable);
  }

  /** Dictionary-1 layers are background: no tile gets a collision
      component. */
  lemma BackgroundHasNoCollision(file: Option<MapFile>, w: World, st: Settings, x: nat)
    requires WF(w) && Parse(file).Some? && Parse(file).value.kind == 1
    requires x in LoadMapLayer(file, w, st).ids
    ensures EM.SlotOf(LoadMapLayer(file, w, st).world, x).Live?
    ensures COLLISION !in EM.SlotOf(LoadMapLayer(file, w, st).world, x).comps
  {
    var r := LoadMapLayer(file, w, st);
    var i :| 0 <= i < |r.ids| && r.ids[i] == x;
    TileEntities(file, w, st, i);
  }

  /** GetEntities(s) lists exactly the entities created for symbol s, and a
      symbol no tile used has none. */
  lemma LayerLists(file: Option<MapFile>, w: World, st: Settings, s: char, x: nat)
    requires WF(w)
    ensures var r := LoadMapLayer(file, w, st);
      x in GetEntities(r.layer, s) <==>
        exists i :: 0 <= i < |r.ids| && r.ids[i] == x && Parse(file).value.tiles[i].symbol == s
    ensures var r := LoadMapLayer(file, w, st);
      (Parse(file).None? || forall i :: 0 <= i < |Parse(file).value.tiles| ==> Parse(file).value.tiles[i].symbol != s) ==>
        GetEntities(r.layer, s) == []
  {
    var r := LoadMapLayer(file, w, st);
    if Parse(file).Some? {
      var p := Parse(file).value;
      IdsForMembers(p.tiles, r.ids, s, |p.tiles|, x);
      if forall i :: 0 <= i < |p.tiles| ==> p.tiles[i].symbol != s {
        if GetEntities(r.layer, s) != [] {
          IdsForMembers(p.tiles, r.ids, s, |p.tiles|, GetEntities(r.layer, s)[0]);
        }
      }
    }
  }

  /** Every entity the load touched is new: the rest of the manager is
      unchanged. */
  lemma LoadOnlyCreates(file: Option<MapFile>, w: World, st: Settings, x: nat)
    requires WF(w)
    requires x !in LoadMapLayer(file, w, st).ids
    ensures EM.SlotOf(LoadMapLayer(file, w, st).world, x) == EM.SlotOf(w, x)
  {
  }

  /** A later definition of a symbol replaces an earlier one. */
  lemma LaterDefinitionWins(f: MapFile, j: nat)
    requires Parse(Some(f)).Some?
    requires j < MapLineIndex(f.rest, 0) && f.rest[j].text != []
    requires forall k :: j < k < MapLineIndex(f.rest, 0) ==> !Defines(f.rest[k], f.rest[j].asDef.symbol)
    ensures f.rest[j].asDef.symbol in Parse(Some(f)).value.defs
    ensures Parse(Some(f)).value.defs[f.rest[j].asDef.symbol] == DefOf(f.first.kind, f.rest[j].asDef)
  {
    DefsKeepLast(f.rest, f.first.kind, MapLineIndex(f.rest, 0), j);
  }
}

=== FILE: math_util.dfy ===
/** Points and axis-aligned rectangles of the engine's math utilities.
    Coordinates are real numbers (the engine uses single-precision floats, but
    only with + - * / min and max); a rectangle's width and height are integers,
    and every float-to-int assignment truncates toward zero, as in C++. */
module MathUtil {

  /** A point or a vector in the plane (Point2D). */
  datatype Point = Point(x: real, y: real)

  function Min(a: real, b: real): real { if a <= b then a else b }
  function Max(a: real, b: real): real { if a >= b then a else b }
  function Abs(a: real): real { if a >= 0.0 then a else -a }

  /** True when `x` has no fractional part. */
  predicate Integral(x: real) { x.Floor as real == x }

  /** The C++ float-to-int conversion: truncation toward zero. */
  function Trunc(x: real): (n: int)
    ensures x >= 0.0 ==> 0 <= n && n as real <= x < n as real + 1.0
    ensures x < 0.0 ==> n <= 0 && n as real - 1.0 < x <= n as real
  {
    if x >= 0.0 then x.Floor else -((-x).Floor)
  }

  lemma TruncIntegral(x: real)
    requires Integral(x)
    ensures Trunc(x) as real == x
  {
    if x < 0.0 {
      assert (-x).Floor == -(x.Floor);
    }
  }

  // ---------------------------------------------------------------------------
  // Point2D arithmetic

  /** Componentwise sum (operator+ on points); subtracting the summand undoes it. */
  function Add(p: Point, q: Point): (r: Point)
    ensures Sub(r, q) == p
  {
    Point(p.x + q.x, p.y + q.y)
  }

  /** Componentwise difference (operator- on points); adding back restores `p`. */
  function Sub(p: Point, q: Point): (r: Point)
    ensures Point(r.x + q.x, r.y + q.y) == p
  {
    Point(p.x - q.x, p.y - q.y)
  }

  /** operator+(float): shifts both coordinates by `s`; operator-(float) undoes it. */
  function AddScalar(p: Point, s: real): (r: Point)
    ensures SubScalar(r, s) == p
    ensures r == Add(p, Point(s, s))
  {
    Point(p.x + s, p.y + s)
  }

  /** operator-(float): shifts both coordinates by `-s`. */
  function SubScalar(p: Point, s: real): (r: Point)
    ensures Add(r, Point(s, s)) == p
  {
    Point(p.x - s, p.y - s)
  }

  /** operator*(float) and the free operator*(float, Point2D): uniform scaling. */
  function Scale(p: Point, s: real): (r: Point)
    ensures s == 1.0 ==> r == p
    ensures s == 0.0 ==> r == Point(0.0, 0.0)
  {
    Point(p.x * s, p.y * s)
  }

  /** Scaling is a linear map: 1 is the identity and 0 collapses every point
      to the origin, factors compose by multiplication, and it distributes
      over point sums and over sums of factors. */
  lemma ScaleLaws(p: Point, q: Point, a: real, b: real)
    ensures Scale(p, 1.0) == p && Scale(p, 0.0) == Point(0.0, 0.0)
    ensures Scale(Scale(p, a), b) == Scale(p, a * b)
    ensures Scale(Add(p, q), a) == Add(Scale(p, a), Scale(q, a))
    ensures Scale(p, a + b) == Add(Scale(p, a), Scale(p, b))
  {
    assert p.x * a * b == p.x * (a * b);
    assert p.y * a * b == p.y * (a * b);
    assert (p.x + q.x) * a == p.x * a + q.x * a;
    assert (p.y + q.y) * a == p.y * a + q.y * a;
    assert p.x * (a + b) == p.x * a + p.x * b;
    assert p.y * (a + b) == p.y * a + p.y * b;
  }

  /** operator*=(int): scaling by an integer factor. */
  function MulInt(p: Point, s: int): (r: Point)
  {
    Point(p.x * s as real, p.y * s as real)
  }

  /** Integer scaling is scaling by the factor: 1 is the identity, factors
      compose by multiplication, and it distributes over point sums. */
  lemma MulIntLaws(p: Point, q: Point, a: int, b: int)
    ensures MulInt(p, 1) == p
    ensures MulInt(MulInt(p, a), b) == MulInt(p, a * b)
    ensures MulInt(Add(p, q), a) == Add(MulInt(p, a), MulInt(q, a))
  {
    assert MulInt(p, a) == Scale(p, a as real);
    assert MulInt(MulInt(p, a), b) == Scale(Scale(p, a as real), b as real);
    assert MulInt(p, a * b) == Scale(p, a as real * b as real);
    assert MulInt(Add(p, q), a) == Scale(Add(p, q), a as real);
    assert MulInt(q, a) == Scale(q, a as real);
    ScaleLaws(p, q, a as real, b as real);
  }

  /** operator/=(int); the source asserts a non-zero divisor. */
  function DivInt(p: Point, s: int): (r: Point)
    requires s != 0
    ensures MulInt(r, s) == p
  {
    var d := s as real;
    var r := Point(p.x / d, p.y / d);
    assert r.x * d == p.x;
    assert r.y * d == p.y;
    r
  }

  /** The member Dot: the ordinary dot product. */
  function Dot(a: Point, b: Point): real
  {
    a.x * b.x + a.y * b.y
  }

  /** The member Cross: the z-component of the 3D cross product. */
  function Cross(a: Point, b: Point): real
  {
    a.x * b.y - a.y * b.x
  }

  /** The static Point2D::Dot as written: it mixes the coordinates and is not
      a dot product (see StaticDotIsNotDot). */
  function StaticDotAsWritten(a: Point, b: Point): real
  {
    a.x * b.y + a.y * b.x
  }

  /** The static Dot as evidently intended: agrees with the member Dot. */
  function StaticDot(a: Point, b: Point): (r: real)
    ensures r == Dot(a, b)
  {
    a.x * b.x + a.y * b.y
  }

  /** Symmetry laws of the products: Dot is symmetric, Cross antisymmetric,
      and the dot product of a vector with itself is never negative. */
  lemma ProductLaws(a: Point, b: Point)
    ensures Dot(a, b) == Dot(b, a)
    ensures Cross(a, b) == -Cross(b, a)
    ensures Dot(a, a) >= 0.0
  {
    assert a.x * a.x >= 0.0;
    assert a.y * a.y >= 0.0;
  }

  /** The unit vector (1,0) has squared length 1, yet the static Dot as
      written gives 0 for it. */
  lemma StaticDotIsNotDot()
    ensures StaticDotAsWritten(Point(1.0, 0.0), Point(1.0, 0.0)) == 0.0
    ensures StaticDot(Point(1.0, 0.0), Point(1.0, 0.0)) == 1.0
  {
    var e := Point(1.0, 0.0);
    assert e.x * e.y == 0.0;
    assert e.x * e.x == 1.0;
  }

  /** The static Cross: identical to the member Cross. */
  function StaticCross(a: Point, b: Point): (r: real)
    ensures r == Cross(a, b)
  {
    a.x * b.y - a.y * b.x
  }

  // ---------------------------------------------------------------------------
  // Rect

  /** An axis-aligned rectangle: top-left corner and integer extents. The
      y axis points down, so the bottom edge is topLeft.y + height. */
  datatype Rect = Rect(topLeft: Point, width: int, height: int)

  function Left(r: Rect): real { r.topLeft.x }
  function Top(r: Rect): real { r.topLeft.y }
  function Right(r: Rect): real { r.topLeft.x + r.width as real }
  function Bottom(r: Rect): real { r.topLeft.y + r.height as real }

  /** The default Rect: an empty rectangle at the origin. */
  const EmptyRect: Rect := Rect(Point(0.0, 0.0), 0, 0)

  /** Rect(float left, float top, float width, float height): the extents are
      truncated toward zero when stored. */
  function RectFromFloats(left: real, top: real, w: real, h: real): (r: Rect)
    ensures r.topLeft == Point(left, top)
    ensures w >= 0.0 ==> 0 <= r.width && r.width as real <= w < r.width as real + 1.0
    ensures w < 0.0 ==> r.width <= 0 && r.width as real - 1.0 < w <= r.width as real
    ensures h >= 0.0 ==> 0 <= r.height && r.height as real <= h < r.height as real + 1.0
    ensures h < 0.0 ==> r.height <= 0 && r.height as real - 1.0 < h <= r.height as real
  {
    Rect(Point(left, top), Trunc(w), Trunc(h))
  }

  /** Whole-number extents are stored exactly. */
  lemma RectFromFloatsExact(left: real, top: real, w: real, h: real)
    requires Integral(w) && Integral(h)
    ensures RectFromFloats(left, top, w, h).width as real == w
    ensures RectFromFloats(left, top, w, h).height as real == h
  {
    TruncIntegral(w);
    TruncIntegral(h);
  }

  /** Rect(Point2D p1, Point2D p2): the box spanned by two corner points. */
  function RectFromPoints(p1: Point, p2: Point): (r: Rect)
    ensures r.topLeft.x <= p1.x && r.topLeft.x <= p2.x
    ensures r.topLeft.x == p1.x || r.topLeft.x == p2.x
    ensures r.topLeft.y <= p1.y && r.topLeft.y <= p2.y
    ensures r.topLeft.y == p1.y || r.topLeft.y == p2.y
    ensures 0 <= r.width && 0 <= r.height
    ensures r.width as real <= Abs(p1.x - p2.x) < r.width as real + 1.0
    ensures r.height as real <= Abs(p1.y - p2.y) < r.height as real + 1.0
  {
    Rect(Point(Min(p1.x, p2.x), Min(p1.y, p2.y)), Trunc(Abs(p1.x - p2.x)), Trunc(Abs(p1.y - p2.y)))
  }

  /** Rect(Point2D center, float radius): the square of side 2*radius. */
  function RectAround(center: Point, radius: real): (r: Rect)
    ensures r.topLeft == Point(center.x - radius, center.y - radius)
    ensures r.width == r.height
    ensures radius >= 0.0 ==> 0 <= r.width && r.width as real <= 2.0 * radius < r.width as real + 1.0
    ensures radius < 0.0 ==> r.width <= 0 && r.width as real - 1.0 < 2.0 * radius <= r.width as real
  {
    Rect(Point(center.x - radius, center.y - radius), Trunc(2.0 * radius), Trunc(2.0 * radius))
  }

  /** Width and height are not negative. */
  predicate Proper(r: Rect) { r.width >= 0 && r.height >= 0 }

  /** `outer` covers `inner` (edges may coincide). */
  predicate Contains(outer: Rect, inner: Rect)
  {
    && Left(outer) <= Left(inner) && Right(inner) <= Right(outer)
    && Top(outer) <= Top(inner) && Bottom(inner) <= Bottom(outer)
  }

  /** The corners of a rectangle lie on the integer grid. */
  predicate OnGrid(r: Rect) { Integral(r.topLeft.x) && Integral(r.topLeft.y) }

  /** operator|=(Rect): grows the rectangle to include `o`; the new extents are
      truncated to int. */
  function Union(r: Rect, o: Rect): (u: Rect)
    ensures u.topLeft == Point(Min(Left(r), Left(o)), Min(Top(r), Top(o)))
    ensures Right(u) <= Max(Right(r), Right(o)) + 1.0 && Max(Right(r), Right(o)) - 1.0 <= Right(u)
    ensures Bottom(u) <= Max(Bottom(r), Bottom(o)) + 1.0 && Max(Bottom(r), Bottom(o)) - 1.0 <= Bottom(u)
  {
    var lowestY := Min(Top(r), Top(o));
    var lowestX := Min(Left(r), Left(o));
    var largestY := Max(Bottom(r), Bottom(o));
    var largestX := Max(Right(r), Right(o));
    Rect(Point(lowestX, lowestY), Trunc(largestX - lowestX), Trunc(largestY - lowestY))
  }

  lemma IntegralOfInt(k: int)
    ensures Integral(k as real)
  {
  }

  lemma IntegralArith(a: real, b: real, n: int)
    requires Integral(a) && Integral(b)
    ensures Integral(a - b) && Integral(a + n as real)
    ensures Integral(Min(a, b)) && Integral(Max(a, b))
  {
    var i, j := a.Floor, b.Floor;
    assert a - b == (i - j) as real;
    IntegralOfInt(i - j);
    assert a + n as real == (i + n) as real;
    IntegralOfInt(i + n);
  }

  /** With grid-aligned corners the union contains both operands exactly. */
  lemma UnionContainsBoth(r: Rect, o: Rect)
    requires OnGrid(r) && OnGrid(o)
    ensures Contains(Union(r, o), r) && Contains(Union(r, o), o)
  {
    var lowestX := Min(Left(r), Left(o));
    var largestX := Max(Right(r), Right(o));
    var lowestY := Min(Top(r), Top(o));
    var largestY := Max(Bottom(r), Bottom(o));
    IntegralArith(Left(r), Left(o), 0);
    IntegralArith(r.topLeft.x, 0.0, r.width);
    IntegralArith(o.topLeft.x, 0.0, o.width);
    IntegralArith(Right(r), Right(o), 0);
    IntegralArith(largestX, lowestX, 0);
    TruncIntegral(largestX - lowestX);
    IntegralArith(Top(r), Top(o), 0);
    IntegralArith(r.topLeft.y, 0.0, r.height);
    IntegralArith(o.topLeft.y, 0.0, o.height);
    IntegralArith(Bottom(r), Bottom(o), 0);
    IntegralArith(largestY, lowestY, 0);
    TruncIntegral(largestY - lowestY);
  }

  /** Off the grid the union can fall short: the 1x1 boxes at (0.25,0) and
      (0.5,0) span 0.25..1.5 horizontally, but the extent 1.25 is truncated
      to 1, so the union ends at 1.25 and misses the second box. */
  lemma UnionMayTruncate()
    ensures !Contains(Union(Rect(Point(0.25, 0.0), 1, 1), Rect(Point(0.5, 0.0), 1, 1)), Rect(Point(0.5, 0.0), 1, 1))
  {
    var u := Union(Rect(Point(0.25, 0.0), 1, 1), Rect(Point(0.5, 0.0), 1, 1));
    assert u.width == 1;
  }

  /** operator|=(Point2D): grows the rectangle to include the point. */
  function UnionPoint(r: Rect, p: Point): (u: Rect)
    ensures u.topLeft == Point(Min(Left(r), p.x), Min(Top(r), p.y))
    ensures Right(u) <= Max(Right(r), p.x) + 1.0 && Max(Right(r), p.x) - 1.0 <= Right(u)
    ensures Bottom(u) <= Max(Bottom(r), p.y) + 1.0 && Max(Bottom(r), p.y) - 1.0 <= Bottom(u)
  {
    var lowestY := Min(Top(r), p.y);
    var lowestX := Min(Left(r), p.x);
    var largestY := Max(Bottom(r), p.y);
    var largestX := Max(Right(r), p.x);
    Rect(Point(lowestX, lowestY), Trunc(largestX - lowestX), Trunc(largestY - lowestY))
  }

  /** With grid-aligned input the grown rectangle covers the point and the
      original rectangle. */
  lemma UnionPointContains(r: Rect, p: Point)
    requires OnGrid(r) && Integral(p.x) && Integral(p.y)
    ensures var u := UnionPoint(r, p);
      Left(u) <= p.x <= Right(u) && Top(u) <= p.y <= Bottom(u) && Contains(u, r)
  {
    var lowestY := Min(Top(r), p.y);
    var lowestX := Min(Left(r), p.x);
    var largestY := Max(Bottom(r), p.y);
    var largestX := Max(Right(r), p.x);
    IntegralArith(r.topLeft.x, 0.0, r.width);
    IntegralArith(r.topLeft.y, 0.0, r.height);
    IntegralArith(Right(r), p.x, 0);
    IntegralArith(Bottom(r), p.y, 0);
    IntegralArith(Left(r), p.x, 0);
    IntegralArith(Top(r), p.y, 0);
    IntegralArith(largestX, lowestX, 0);
    IntegralArith(largestY, lowestY, 0);
    TruncIntegral(largestX - lowestX);
    TruncIntegral(largestY - lowestY);
  }

  /** RectIntersect: open-interior overlap; touching edges do not count. */
  predicate RectIntersect(a: Rect, b: Rect)
  {
    !(Left(a) >= Right(b) || Left(b) >= Right(a) || Top(a) >= Bottom(b) || Top(b) >= Bottom(a))
  }

  lemma {:induction false} RectIntersectSymmetric(a: Rect, b: Rect)
    ensures RectIntersect(a, b) == RectIntersect(b, a)
  {
  }

  /** Two rectangles that only share a vertical or horizontal edge do not intersect. */
  lemma EdgeContactIsNotIntersection(a: Rect, b: Rect)
    requires Right(a) == Left(b) || Bottom(a) == Top(b)
    ensures !RectIntersect(a, b) && !RectIntersect(b, a)
  {
  }

  /** operator&=: becomes the common region when the rectangles intersect, and
      is left unchanged otherwise. */
  function Intersect(r: Rect, o: Rect): (c: Rect)
    ensures !RectIntersect(r, o) ==> c == r
    ensures RectIntersect(r, o) && Proper(r) && Proper(o) ==> Contains(r, c) && Contains(o, c) && Proper(c)
  {
    if RectIntersect(r, o) then
      var left := Max(Left(r), Left(o));
      var right := Min(Right(r), Right(o));
      var top := Max(Top(r), Top(o));
      var bottom := Min(Bottom(r), Bottom(o));
      Rect(Point(left, top), Trunc(right - left), Trunc(bottom - top))
    else
      r
  }

  /** Inset: shrinks every side by `d`, clamping the extents at zero. */
  function Inset(r: Rect, d: real): (s: Rect)
    ensures s.topLeft == Point(Left(r) + d, Top(r) + d)
    ensures s.width >= 0 && s.height >= 0
    ensures r.width as real - 2.0 * d >= 0.0 ==> s.width as real <= r.width as real - 2.0 * d < s.width as real + 1.0
    ensures r.height as real - 2.0 * d >= 0.0 ==> s.height as real <= r.height as real - 2.0 * d < s.height as real + 1.0
    ensures r.width as real - 2.0 * d <= 0.0 ==> s.width == 0
    ensures r.height as real - 2.0 * d <= 0.0 ==> s.height == 0
  {
    var newWidth := r.width as real - 2.0 * d;
    var newHeight := r.height as real - 2.0 * d;
    Rect(Point(Left(r) + d, Top(r) + d), Trunc(Max(0.0, newWidth)), Trunc(Max(0.0, newHeight)))
  }

  /** Rect::IsInside as written: its vertical test rejects every point once
      the height is not negative (see IsInsideAlwaysFalse). */
  predicate IsInsideAsWritten(r: Rect, p: Point)
  {
    if p.x >= Right(r) || p.x <= Left(r) then false
    else if p.y <= Bottom(r) || p.y >= Top(r) then false
    else true
  }

  lemma IsInsideAlwaysFalse(r: Rect, p: Point)
    requires r.height >= 0
    ensures !IsInsideAsWritten(r, p)
  {
  }

  /** The centre of a 10x10 box is reported outside of it. */
  lemma IsInsideCounterexample()
    ensures !IsInsideAsWritten(Rect(Point(0.0, 0.0), 10, 10), Point(5.0, 5.0))
    ensures IsInside(Rect(Point(0.0, 0.0), 10, 10), Point(5.0, 5.0))
  {
  }

  /** IsInside as evidently intended: strictly inside on both axes. */
  predicate IsInside(r: Rect, p: Point)
  {
    if p.x >= Right(r) || p.x <= Left(r) then false
    else if p.y >= Bottom(r) || p.y <= Top(r) then false
    else true
  }

  /** The intended test agrees with strict containment of the point, and a
      point strictly inside is inside any rectangle that contains this one. */
  lemma IsInsideMeansInterior(r: Rect, p: Point, outer: Rect)
    ensures IsInside(r, p) <==> Left(r) < p.x < Right(r) && Top(r) < p.y < Bottom(r)
    ensures IsInside(r, p) && Contains(outer, r) ==> IsInside(outer, p)
  {
  }
}

=== FILE: movement_system.dfy ===
/** MovementSystem: every visited entity that has both a location and a
    movement component is advanced along its velocity for one time step. */
module MovementSystem {
  import opened MathUtil
  import opened Components
  import opened World
  import EM = EntityManager

  /** The position after `dt` seconds at the given velocity. */
  function Moved(l: Location, m: Movement, dt: real): (r: Location)
    ensures Sub(r.position, l.position) == Scale(m.velocity, dt)
  {
    Location(Point(l.position.x + m.velocity.x * dt, l.position.y + m.velocity.y * dt))
  }

  /** Two steps at a constant velocity land where one step of the summed
      duration does, a zero step stays put, and a step backwards undoes a
      step forwards. */
  lemma MovedComposes(l: Location, m: Movement, a: real, b: real)
    ensures Moved(Moved(l, m, a), m, b) == Moved(l, m, a + b)
    ensures Moved(l, m, 0.0) == l
    ensures Moved(Moved(l, m, a), m, -a) == l
  {
    assert m.velocity.x * (a + b) == m.velocity.x * a + m.velocity.x * b;
    assert m.velocity.y * (a + b) == m.velocity.y * a + m.velocity.y * b;
  }

  /** The entities the loop moves. */
  predicate Moves(c: map<nat, Component>)
  {
    HasLocation(c) && HasMovement(c)
  }

  /** One iteration of the loop body on an entity's components: an entity
      with a location and a movement has its position advanced by velocity
      times dt, and every other component, the velocity included, keeps its
      value. */
  function MoveRule(c: map<nat, Component>, dt: real): (r: map<nat, Component>)
    ensures r.Keys == c.Keys
    ensures Moves(c) ==> r[LOCATION] == CLocation(Moved(c[LOCATION].location, c[MOVEMENT].movement, dt))
    ensures forall k :: k in c && (k != LOCATION || !Moves(c)) ==> r[k] == c[k]
  {
    if Moves(c) then c[LOCATION := CLocation(Moved(c[LOCATION].location, c[MOVEMENT].movement, dt))]
    else c
  }

  lemma MoveRuleOk(dt: real)
    ensures RuleOk(c => MoveRule(c, dt))
  {
  }

  /** What an id denotes after one iteration of the loop body. */
  function MoveSlot(s: EM.Slot<Component>, dt: real): EM.Slot<Component>
  {
    Apply(s, c => MoveRule(c, dt))
  }

  /** Slot-wise, moves compose and a zero move is the identity. */
  lemma MoveSlotComposes(s: EM.Slot<Component>, a: real, b: real)
    ensures MoveSlot(MoveSlot(s, a), b) == MoveSlot(s, a + b)
    ensures MoveSlot(s, 0.0) == s
  {
    if s.Live? && Moves(s.comps) {
      var c := s.comps;
      MovedComposes(c[LOCATION].location, c[MOVEMENT].movement, a, b);
      assert c[LOCATION := CLocation(c[LOCATION].location)] == c;
    }
  }

  /** MovementSystem(entityManager, deltaTime): the visited entities are
      moved, every other id keeps its meaning. */
  function Movement(w: World, dt: real): (r: World)
    requires WF(w)
    ensures WF(r) && SameSkeleton(w, r)
    ensures forall x: nat :: EM.SlotOf(r, x) == if Visited(w, x) then MoveSlot(EM.SlotOf(w, x), dt) else EM.SlotOf(w, x)
  {
    MoveRuleOk(dt);
    Pass(w, c => MoveRule(c, dt))
  }

  /** One pass of a + b seconds equals a pass of a seconds followed by one of
      b seconds, and a pass of zero seconds changes nothing. */
  lemma MovementComposes(w: World, a: real, b: real)
    requires WF(w)
    ensures forall x: nat :: EM.SlotOf(Movement(Movement(w, a), b), x) == EM.SlotOf(Movement(w, a + b), x)
    ensures forall x: nat :: EM.SlotOf(Movement(w, 0.0), x) == EM.SlotOf(w, x)
  {
    var w1 := Movement(w, a);
    forall x: nat
      ensures EM.SlotOf(Movement(w1, b), x) == EM.SlotOf(Movement(w, a + b), x)
      ensures EM.SlotOf(Movement(w, 0.0), x) == EM.SlotOf(w, x)
    {
      MoveSlotComposes(EM.SlotOf(w, x), a, b);
    }
  }
}

=== FILE: pack.dfy ===
/** The compile-time type list `Pack<Args...>` that fixes the component types
    of the engine. A pack is modelled as a sequence of type tags; the
    template recursions become recursive functions over that sequence. */
module Pack {

  /** packSize: one for each entry, computed by peeling the head off. */
  function Size<T>(p: seq<T>): (n: nat)
    ensures n == |p|
  {
    if p == [] then 0 else 1 + Size(p[1..])
  }

  /** _packTypeToIndex: walks the list while counting in `acc`; yields the
      accumulated position of the first entry equal to `q`, or -1 once the
      list is exhausted. */
  function IndexFrom<T(==)>(acc: int, q: T, p: seq<T>): (r: int)
    ensures q !in p ==> r == -1
    ensures q in p ==> acc <= r < acc + |p| && p[r - acc] == q
    ensures q in p ==> forall j :: 0 <= j < r - acc ==> p[j] != q
    decreases |p|
  {
    if p == [] then -1
    else if q == p[0] then acc
    else IndexFrom(acc + 1, q, p[1..])
  }

  /** Pack::index: the position of `q`, counted from zero, or -1 if absent. */
  function Index<T(==)>(q: T, p: seq<T>): (r: int)
    ensures -1 <= r < |p|
    ensures r == -1 <==> q !in p
    ensures r >= 0 ==> p[r] == q && forall j :: 0 <= j < r ==> p[j] != q
  {
    IndexFrom(0, q, p)
  }

  /** _packIndexToType: counts the index down while dropping the head; the
      template requires 0 <= i < size. */
  function TypeAt<T>(i: nat, p: seq<T>): (t: T)
    requires i < |p|
    ensures t == p[i]
  {
    if i == 0 then p[0] else TypeAt(i - 1, p[1..])
  }

  /** Pack::contains: the index is not -1. */
  predicate Contains<T(==)>(q: T, p: seq<T>)
  {
    Index(q, p) != -1
  }

  /** A pack of distinct types, as the engine's registry is. */
  predicate Distinct<T(==)>(p: seq<T>)
  {
    forall i, j :: 0 <= i < j < |p| ==> p[i] != p[j]
  }

  /** contains agrees with membership in the list. */
  lemma ContainsIsMembership<T>(q: T, p: seq<T>)
    ensures Contains(q, p) <==> q in p
  {
  }

  /** In a pack without repeats, index and type are inverse to each other. */
  lemma IndexTypeAtInverse<T>(p: seq<T>, i: nat, q: T)
    requires Distinct(p)
    ensures i < |p| ==> Index(TypeAt(i, p), p) == i
    ensures Contains(q, p) ==> TypeAt(Index(q, p), p) == q
  {
    if i < |p| {
      var r := Index(TypeAt(i, p), p);
      assert p[r] == p[i];
    }
  }

  /** With repeats, index names the first occurrence. */
  lemma IndexOfRepeat()
    ensures Index(1, [0, 1, 1]) == 1
    ensures TypeAt(2, [0, 1, 1]) == 1
  {
    assert [0, 1, 1][0] != 1;
  }
}

=== FILE: score_system.dfy ===
/** ScoreSystem: the first entity holding a score with at least one display
    entity shows its score, capped at 999, one decimal digit per display
    entity, most significant first and padded with leading zeros; each live
    display entity with a sprite gets the sprite of its digit. */
module ScoreSystem {
  import opened Components
  import opened Wrappers
  import opened World
  import EM = EntityManager

  const SCORE_CAP: int := 999

  // ---------------------------------------------------------------------------
  // C++ integer division

  /** `a / b` on int: rounds toward zero. */
  function Quot(a: int, b: int): int
    requires b > 0
  {
    if a >= 0 then a / b else -((-a) / b)
  }

  /** `a % b` on int: takes the sign of a. */
  function Rem(a: int, b: int): int
    requires b > 0
  {
    a - b * Quot(a, b)
  }

  lemma MulNonNeg(a: int, b: int)
    requires a >= 0 && b >= 0
    ensures a * b >= 0
  {
  }

  lemma Distrib(a: int, x: int, y: int)
    ensures a * (x + y) == a * x + a * y
    ensures a * (x - y) == a * x - a * y
  {
  }

  lemma Assoc(a: int, b: int, c: int)
    ensures a * (b * c) == (a * b) * c
  {
  }

  /** A multiple of d strictly between -d and d is zero. */
  lemma SmallMultiple(d: int, k: int)
    requires d > 0 && -d < d * k < d
    ensures k == 0
  {
    if k >= 1 {
      Distrib(d, k, 1);
      MulNonNeg(d, k - 1);
    } else if k <= -1 {
      Distrib(d, -k, 1);
      MulNonNeg(d, -k - 1);
    }
  }

  /** Euclidean division is determined by its quotient and remainder. */
  lemma DivUnique(a: int, d: int, q: int, r: int)
    requires d > 0 && a == d * q + r && 0 <= r < d
    ensures a / d == q && a % d == r
  {
    var q' := a / d;
    var r' := a % d;
    assert a == d * q' + r';
    Distrib(d, q', q);
    SmallMultiple(d, q' - q);
  }

  /** On non-negative numbers C++ division is Euclidean division; on
      negative numbers the remainder is not positive. */
  lemma QuotRem(a: int, b: int)
    requires b > 0
    ensures a >= 0 ==> Quot(a, b) == a / b && Rem(a, b) == a % b && 0 <= Rem(a, b) < b && Quot(a, b) >= 0
    ensures a < 0 ==> -b < Rem(a, b) <= 0
    ensures a == b * Quot(a, b) + Rem(a, b)
  {
    if a < 0 {
      var n := -a;
      assert n == b * (n / b) + n % b;
      assert Rem(a, b) == -(n % b) by {
        assert b * Quot(a, b) == -(b * (n / b));
      }
    }
  }

  /** (n / b) / c == n / (b * c) for n >= 0. */
  lemma DivDiv(n: int, b: int, c: int)
    requires n >= 0 && b > 0 && c > 0
    ensures (n / b) / c == n / (b * c)
  {
    var q1 := n / b;
    var r1 := n % b;
    var q2 := q1 / c;
    var r2 := q1 % c;
    assert n == b * q1 + r1;
    assert q1 == c * q2 + r2;
    Distrib(b, c * q2, r2);
    Assoc(b, c, q2);
    assert n == (b * c) * q2 + (b * r2 + r1);
    Distrib(b, c - 1, r2);
    MulNonNeg(b, c - 1 - r2);
    Distrib(b, c, 1);
    MulNonNeg(b, r2);
    assert 0 <= b * r2 + r1 < b * c;
    MulNonNeg(b, c);
    DivUnique(n, b * c, q2, b * r2 + r1);
  }

  /** Dividing by b and then by c is dividing by b * c. */
  lemma QuotQuot(a: int, b: int, c: int)
    requires b > 0 && c > 0
    ensures Quot(Quot(a, b), c) == Quot(a, b * c)
  {
    MulNonNeg(b, c);
    if a >= 0 {
      DivDiv(a, b, c);
    } else {
      DivDiv(-a, b, c);
      var m := (-a) / b;
      if m == 0 {
        assert Quot(a, b) == 0;
      }
    }
  }

  function Pow10(k: nat): (p: int)
    ensures p >= 1
  {
    if k == 0 then 1 else 10 * Pow10(k - 1)
  }

  // ---------------------------------------------------------------------------
  // Digits

  /** The value shown: the score capped at 999. */
  function Shown(score: int): (v: int)
    ensures v <= 999 && (v == score || v == 999)
    ensures score <= 999 ==> v == score
  {
    if score < SCORE_CAP then score else SCORE_CAP
  }

  /** Display i of n shows (v / 10^(n-1-i)) % 10. */
  function DigitAt(v: int, n: nat, i: nat): int
    requires i < n
  {
    Rem(Quot(v, Pow10(n - 1 - i)), 10)
  }

  function DigitSeq(v: int, n: nat): (d: seq<int>)
    ensures |d| == n
    ensures forall i :: 0 <= i < n ==> d[i] == DigitAt(v, n, i)
  {
    seq(n, i requires 0 <= i < n => DigitAt(v, n, i))
  }

  /** A non-negative value has decimal digits. */
  lemma DigitsInRange(v: int, n: nat)
    requires v >= 0
    ensures forall i :: 0 <= i < n ==> 0 <= DigitSeq(v, n)[i] <= 9
  {
    forall i | 0 <= i < n
      ensures 0 <= DigitAt(v, n, i) <= 9
    {
      QuotRem(v, Pow10(n - 1 - i));
      QuotRem(Quot(v, Pow10(n - 1 - i)), 10);
    }
  }

  /** The digits read as a decimal number, most significant first. */
  function Value(d: seq<int>): int
  {
    if |d| == 0 then 0 else 10 * Value(d[..|d| - 1]) + d[|d| - 1]
  }

  /** The leading n - 1 digits of n are the digits of v / 10. */
  lemma DigitSeqPrefix(v: int, n: nat)
    requires n > 0
    ensures DigitSeq(v, n)[..n - 1] == DigitSeq(Quot(v, 10), n - 1)
    ensures DigitSeq(v, n)[n - 1] == Rem(v, 10)
  {
    forall i | 0 <= i < n - 1
      ensures DigitAt(v, n, i) == DigitAt(Quot(v, 10), n - 1, i)
    {
      assert Pow10(n - 1 - i) == 10 * Pow10(n - 2 - i);
      QuotQuot(v, 10, Pow10(n - 2 - i));
    }
    assert Quot(v, Pow10(0)) == v;
  }

  /** Peeling the last decimal digit off a remainder. */
  lemma ModTen(v: int, p: int)
    requires v >= 0 && p >= 1
    ensures v % (10 * p) == 10 * ((v / 10) % p) + v % 10
  {
    var q := v / 10;
    var r := v % 10;
    var hi := q / p;
    var lo := q % p;
    assert v == 10 * q + r;
    assert q == p * hi + lo;
    Distrib(10, p * hi, lo);
    Assoc(10, p, hi);
    assert v == (10 * p) * hi + (10 * lo + r);
    Distrib(10, p - 1, lo);
    MulNonNeg(10, p - 1 - lo);
    Distrib(10, p, 1);
    assert 0 <= 10 * lo + r < 10 * p;
    DivUnique(v, 10 * p, hi, 10 * lo + r);
  }

  /** The digits of v are the digits of v / 10 followed by v % 10. */
  lemma ValueStep(v: int, n: nat)
    requires n > 0
    ensures Value(DigitSeq(v, n)) == 10 * Value(DigitSeq(Quot(v, 10), n - 1)) + Rem(v, 10)
  {
    DigitSeqPrefix(v, n);
  }

  /** Read back, the digits of a non-negative value give the value modulo
      10^n: all of it when it fits, its low digits otherwise. */
  lemma {:induction false} DigitsRebuild(v: int, n: nat)
    requires v >= 0
    ensures Value(DigitSeq(v, n)) == v % Pow10(n)
  {
    if n > 0 {
      ValueStep(v, n);
      QuotRem(v, 10);
      DigitsRebuild(Quot(v, 10), n - 1);
      ModTen(v, Pow10(n - 1));
    }
  }

  /** Three displays show a score between 0 and 999 exactly. */
  lemma ThreeDisplaysShowScore(score: int)
    requires 0 <= score
    ensures Value(DigitSeq(Shown(score), 3)) == Shown(score)
  {
    DigitsRebuild(Shown(score), 3);
    assert Pow10(3) == 1000;
  }

  function Reverse(s: seq<int>): (r: seq<int>)
    ensures |r| == |s|
    ensures forall i :: 0 <= i < |s| ==> r[i] == s[|s| - 1 - i]
  {
    if |s| == 0 then [] else Reverse(s[1..]) + [s[0]]
  }

  /** The digit loop of the source: the least significant digit first, one
      division by ten per step, then reversed. */
  method ExtractDigits(score: int, n: nat) returns (digits: seq<int>)
    ensures digits == DigitSeq(Shown(score), n)
  {
    var v := Shown(score);
    var value := v;
    var rev: seq<int> := [];
    var i := 0;
    while i < n
      invariant 0 <= i <= n && |rev| == i
      invariant value == Quot(v, Pow10(i))
      invariant forall j :: 0 <= j < i ==> rev[j] == Rem(Quot(v, Pow10(j)), 10)
    {
      rev := rev + [Rem(value, 10)];
      QuotQuot(v, Pow10(i), 10);
      assert Pow10(i + 1) == Pow10(i) * 10;
      value := Quot(value, 10);
      i := i + 1;
    }
    digits := Reverse(rev);
    forall k | 0 <= k < n
      ensures digits[k] == DigitAt(v, n, k)
    {
      assert digits[k] == rev[n - 1 - k];
    }
  }

  // ---------------------------------------------------------------------------
  // The pass

  /** An entity the outer loop stops at: not id 0, live, holding a score
      with at least one display entity. */
  predicate ScorerAt(w: World, x: nat)
  {
    x != 0 && EM.SlotOf(w, x).Live? && HasScore(EM.SlotOf(w, x).comps)
    && |EM.SlotOf(w, x).comps[SCORE].score.displayEntities| > 0
  }

  /** The first scorer at or after id e. */
  function FirstScorerFrom(w: World, e: nat): (r: Option<nat>)
    ensures r.Some? ==> e <= r.value && ScorerAt(w, r.value)
    ensures forall x: nat :: e <= x && ScorerAt(w, x) && (r.Some? ==> x != r.value) ==> r.Some? && r.value < x
    decreases |w.entities| - e
  {
    if e >= |w.entities| then None
    else if ScorerAt(w, e) then Some(e)
    else FirstScorerFrom(w, e + 1)
  }

  /** The entity ScoreSystem processes: a score component with no display
      entity is passed over, not stopped at. */
  function FirstScorer(w: World): (r: Option<nat>)
    ensures r.Some? ==> ScorerAt(w, r.value) && forall x: nat :: x < r.value ==> !ScorerAt(w, x)
    ensures r.None? ==> forall x: nat :: !ScorerAt(w, x)
  {
    FirstScorerFrom(w, 0)
  }

  function ScoreOf(w: World, x: nat): Score
    requires ScorerAt(w, x)
  {
    EM.SlotOf(w, x).comps[SCORE].score
  }

  /** A display entity the inner loop writes to: live, with a sprite. */
  predicate Shows(s: EM.Slot<Component>)
  {
    s.Live? && HasSprite(s.comps)
  }

  /** A display entity after its sprite id was set. */
  function WithSprite(s: EM.Slot<Component>, sprite: nat): (r: EM.Slot<Component>)
    requires Shows(s)
    ensures Shows(r) && r.name == s.name && r.comps.Keys == s.comps.Keys
    ensures r.comps[SPRITE].sprite == s.comps[SPRITE].sprite.(spriteID := sprite)
    ensures forall k :: k in s.comps && k != SPRITE ==> r.comps[k] == s.comps[k]
    ensures Typed(s.comps) ==> Typed(r.comps)
  {
    EM.Live(s.name, s.comps[SPRITE := CSprite(s.comps[SPRITE].sprite.(spriteID := sprite))])
  }

  /** The last index below i holding x, or -1. */
  function LastBefore(ids: seq<nat>, x: nat, i: nat): (j: int)
    requires i <= |ids|
    ensures -1 <= j < i
    ensures j >= 0 ==> ids[j] == x
    ensures forall k :: j < k < i ==> ids[k] != x
  {
    if i == 0 then -1 else if ids[i - 1] == x then i - 1 else LastBefore(ids, x, i - 1)
  }

  /** The meaning of id x once the first i display entities were written:
      a display entity shows the digit of its last position. */
  function Written(w0: World, ids: seq<nat>, digits: seq<int>, sprites: seq<nat>, i: nat, x: nat): EM.Slot<Component>
    requires i <= |ids| == |digits|
    requires forall j :: 0 <= j < |ids| && Shows(EM.SlotOf(w0, ids[j])) ==> 0 <= digits[j] < |sprites|
  {
    var j := LastBefore(ids, x, i);
    if j >= 0 && Shows(EM.SlotOf(w0, x)) then WithSprite(EM.SlotOf(w0, x), sprites[digits[j]])
    else EM.SlotOf(w0, x)
  }

  /** Writes one sprite id. */
  function SetSprite(w: World, x: nat, sprite: nat): (r: World)
    requires WF(w) && Shows(EM.SlotOf(w, x))
    ensures WF(r) && r.entities == w.entities
    ensures EM.SlotOf(r, x) == WithSprite(EM.SlotOf(w, x), sprite)
    ensures forall y :: y != x ==> EM.SlotOf(r, y) == EM.SlotOf(w, y)
  {
    var c := EM.Comps(w, x);
    var s := WithSprite(EM.SlotOf(w, x), sprite);
    assert s.comps == c[SPRITE := s.comps[SPRITE]];
    Set(w, x, SPRITE, s.comps[SPRITE])
  }

  /** The display loop leaves every id live or vacant as it was, so
      whether an id shows a digit does not change. */
  lemma WrittenShows(w0: World, ids: seq<nat>, digits: seq<int>, sprites: seq<nat>, i: nat, x: nat)
    requires i <= |ids| == |digits|
    requires forall j :: 0 <= j < |ids| && Shows(EM.SlotOf(w0, ids[j])) ==> 0 <= digits[j] < |sprites|
    ensures Shows(Written(w0, ids, digits, sprites, i, x)) == Shows(EM.SlotOf(w0, x))
  {
  }

  /** Setting the sprite id twice keeps the second. */
  lemma WithSpriteTwice(s: EM.Slot<Component>, a: nat, b: nat)
    requires Shows(s)
    ensures WithSprite(WithSprite(s, a), b) == WithSprite(s, b)
  {
    assert WithSprite(WithSprite(s, a), b).comps == WithSprite(s, b).comps;
  }

  /** One iteration of the display loop: display entity i gets the sprite
      of digit i when it is live and has a sprite. */
  function Step(w0: World, w: World, ids: seq<nat>, digits: seq<int>, sprites: seq<nat>, i: nat): (r: World)
    requires WF(w) && i < |ids| == |digits|
    requires forall j :: 0 <= j < |ids| && Shows(EM.SlotOf(w0, ids[j])) ==> 0 <= digits[j] < |sprites|
    requires forall x: nat :: EM.SlotOf(w, x) == Written(w0, ids, digits, sprites, i, x)
    ensures WF(r) && r.entities == w.entities
  {
    WrittenShows(w0, ids, digits, sprites, i, ids[i]);
    if Shows(EM.SlotOf(w, ids[i])) then SetSprite(w, ids[i], sprites[digits[i]]) else w
  }

  /** One step of the display loop moves the meaning on by one position. */
  lemma WrittenStep(w0: World, w: World, ids: seq<nat>, digits: seq<int>, sprites: seq<nat>, i: nat)
    requires WF(w) && i < |ids| == |digits|
    requires forall j :: 0 <= j < |ids| && Shows(EM.SlotOf(w0, ids[j])) ==> 0 <= digits[j] < |sprites|
    requires forall x: nat :: EM.SlotOf(w, x) == Written(w0, ids, digits, sprites, i, x)
    ensures forall x: nat :: EM.SlotOf(Step(w0, w, ids, digits, sprites, i), x) == Written(w0, ids, digits, sprites, i + 1, x)
  {
    var r := Step(w0, w, ids, digits, sprites, i);
    var d := ids[i];
    WrittenShows(w0, ids, digits, sprites, i, d);
    forall x: nat
      ensures EM.SlotOf(r, x) == Written(w0, ids, digits, sprites, i + 1, x)
    {
      if x == d {
        assert LastBefore(ids, x, i + 1) == i;
        if Shows(EM.SlotOf(w0, x)) {
          var j := LastBefore(ids, x, i);
          if j >= 0 {
            WithSpriteTwice(EM.SlotOf(w0, x), sprites[digits[j]], sprites[digits[i]]);
          }
        }
      } else {
        assert LastBefore(ids, x, i + 1) == LastBefore(ids, x, i);
      }
    }
  }

  /** The digits the first scorer's displays need lie in the ten sprite
      slots; the source asserts this before indexing. */
  ghost predicate DigitsFit(w: World)
  {
    FirstScorer(w).Some? ==>
      var sc := ScoreOf(w, FirstScorer(w).value);
      var ds := DigitSeq(Shown(sc.score), |sc.displayEntities|);
      forall j :: 0 <= j < |sc.displayEntities| && Shows(EM.SlotOf(w, sc.displayEntities[j])) ==>
        0 <= ds[j] < |sc.digitSprites|
  }

  /** A scorer with a non-negative score always fits. */
  lemma NonNegativeFits(w: World)
    requires WF(w)
    requires FirstScorer(w).Some? ==> ScoreOf(w, FirstScorer(w).value).score >= 0
    ensures DigitsFit(w)
  {
    if FirstScorer(w).Some? {
      var sc := ScoreOf(w, FirstScorer(w).value);
      assert ComponentOk(EM.SlotOf(w, FirstScorer(w).value).comps[SCORE]);
      DigitsInRange(Shown(sc.score), |sc.displayEntities|);
    }
  }

  /** ScoreSystem(entityManager). */
  method ScoreStep(w: World) returns (r: World)
    requires WF(w) && DigitsFit(w)
    ensures WF(r)
    ensures FirstScorer(w).None? ==> r == w
    ensures FirstScorer(w).Some? ==>
      var sc := ScoreOf(w, FirstScorer(w).value);
      var ds := DigitSeq(Shown(sc.score), |sc.displayEntities|);
      forall x: nat :: EM.SlotOf(r, x) == Written(w, sc.displayEntities, ds, sc.digitSprites, |sc.displayEntities|, x)
  {
    var first := FirstScorer(w);
    if first.None? {
      return w;
    }
    var sc := ScoreOf(w, first.value);
    var ids := sc.displayEntities;
    var ds := ExtractDigits(sc.score, |ids|);
    r := w;
    var i := 0;
    while i < |ids|
      invariant 0 <= i <= |ids|
      invariant WF(r)
      invariant forall x: nat :: EM.SlotOf(r, x) == Written(w, ids, ds, sc.digitSprites, i, x)
    {
      WrittenStep(w, r, ids, ds, sc.digitSprites, i);
      r := Step(w, r, ids, ds, sc.digitSprites, i);
      i := i + 1;
    }
  }

  /** What the pass does, id by id: an id that is not a live display entity
      with a sprite keeps its meaning; a display entity shows the digit of
      its last position among the display entities, and only its sprite id
      changes. */
  lemma ScoreStepShows(w: World, r: World)
    requires WF(w) && DigitsFit(w) && FirstScorer(w).Some?
    requires var sc := ScoreOf(w, FirstScorer(w).value);
      var ds := DigitSeq(Shown(sc.score), |sc.displayEntities|);
      forall x: nat :: EM.SlotOf(r, x) == Written(w, sc.displayEntities, ds, sc.digitSprites, |sc.displayEntities|, x)
    ensures var sc := ScoreOf(w, FirstScorer(w).value);
      forall x: nat :: x !in sc.displayEntities || !Shows(EM.SlotOf(w, x)) ==> EM.SlotOf(r, x) == EM.SlotOf(w, x)
    ensures var sc := ScoreOf(w, FirstScorer(w).value);
      var n := |sc.displayEntities|;
      forall i :: (0 <= i < n && Shows(EM.SlotOf(w, sc.displayEntities[i]))
        && (forall j :: i < j < n ==> sc.displayEntities[j] != sc.displayEntities[i])) ==>
        EM.SlotOf(r, sc.displayEntities[i]) ==
          WithSprite(EM.SlotOf(w, sc.displayEntities[i]), sc.digitSprites[DigitAt(Shown(sc.score), n, i)])
  {
    var sc := ScoreOf(w, FirstScorer(w).value);
    var ids := sc.displayEntities;
    var n := |ids|;
    var ds := DigitSeq(Shown(sc.score), n);
    forall x: nat | x !in ids || !Shows(EM.SlotOf(w, x))
      ensures EM.SlotOf(r, x) == EM.SlotOf(w, x)
    {
      var j := LastBefore(ids, x, n);
      assert j >= 0 ==> ids[j] == x;
    }
    forall i | 0 <= i < n && Shows(EM.SlotOf(w, ids[i])) && (forall j :: i < j < n ==> ids[j] != ids[i])
      ensures EM.SlotOf(r, ids[i]) == WithSprite(EM.SlotOf(w, ids[i]), sc.digitSprites[DigitAt(Shown(sc.score), n, i)])
    {
      LastIsLast(ids, ids[i], n, i);
    }
  }

  lemma LastIsLast(ids: seq<nat>, x: nat, n: nat, i: nat)
    requires n <= |ids| && i < n && ids[i] == x && forall j :: i < j < n ==> ids[j] != x
    ensures LastBefore(ids, x, n) == i
  {
  }
}

=== FILE: spawn_system.dfy ===
/** SpawnSystem: every spawner counts down; when its time is up and its
    quota allows, it creates one entity of its type at its own position
    (location, movement with a random velocity, a world-space sprite and a
    dynamic collision box of the sprite's size), then restarts its timer and
    counts the spawn. The pass walks the ids present when it starts; the
    entities it creates carry no spawner, so walking them too would change
    nothing. */
module SpawnSystem {
  import opened MathUtil
  import opened Components
  import opened Wrappers
  import opened World
  import EM = EntityManager
  import Pack

  const MAX_STAR_VELOCITY: real := 50.0

  /** The texture size the sprite manager reports for a sprite id. */
  datatype Size = Size(width: int, height: int)

  // ---------------------------------------------------------------------------
  // One spawner

  /** The countdown has run out this frame. */
  predicate Due(s: Spawn, dt: real)
  {
    s.timeToNextSpawn - dt <= 0.0
  }

  /** The quota allows another spawn; maxSpawns -1 means no quota. */
  predicate UnderQuota(s: Spawn)
  {
    s.maxSpawns == -1 || s.spawnCount < s.maxSpawns
  }

  predicate Fires(s: Spawn, dt: real)
  {
    Due(s, dt) && UnderQuota(s)
  }

  /** The spawner's component after one iteration of the loop body. */
  function Countdown(s: Spawn, dt: real): (r: Spawn)
    ensures r.entityType == s.entityType && r.spriteID == s.spriteID && r.entityID == s.entityID
    ensures r.spawnInterval == s.spawnInterval && r.maxSpawns == s.maxSpawns
  {
    var s1 := s.(timeToNextSpawn := s.timeToNextSpawn - dt);
    if Fires(s, dt) then s1.(timeToNextSpawn := s.spawnInterval, spawnCount := s.spawnCount + 1)
    else s1
  }

  /** The timer either runs down by dt or, on a spawn, restarts at the
      interval; the count grows by one exactly on a spawn. */
  lemma CountdownTimer(s: Spawn, dt: real)
    ensures Fires(s, dt) ==> Countdown(s, dt).timeToNextSpawn == s.spawnInterval
    ensures !Fires(s, dt) ==> Countdown(s, dt).timeToNextSpawn == s.timeToNextSpawn - dt
    ensures Countdown(s, dt).spawnCount == s.spawnCount + (if Fires(s, dt) then 1 else 0)
  {
  }

  /** No spawn while time is left. */
  lemma NoSpawnWhileWaiting(s: Spawn, dt: real)
    requires s.timeToNextSpawn - dt > 0.0
    ensures !Fires(s, dt) && Countdown(s, dt).spawnCount == s.spawnCount
  {
  }

  /** The quota: a limited spawner has not spawned more than its limit. */
  predicate WithinQuota(s: Spawn)
  {
    s.maxSpawns == -1 || s.spawnCount <= s.maxSpawns
  }

  lemma CountdownKeepsQuota(s: Spawn, dt: real)
    requires WithinQuota(s)
    ensures WithinQuota(Countdown(s, dt))
    ensures s.maxSpawns != -1 && s.spawnCount >= s.maxSpawns ==> Countdown(s, dt).spawnCount == s.spawnCount
  {
  }

  /** n frames of the same length. */
  function CountdownN(s: Spawn, dt: real, n: nat): Spawn
  {
    if n == 0 then s else Countdown(CountdownN(s, dt, n - 1), dt)
  }

  /** Over any number of frames a spawner spawns at most once per frame and
      never beyond its quota. */
  lemma {:induction false} QuotaOverFrames(s: Spawn, dt: real, n: nat)
    requires WithinQuota(s)
    ensures WithinQuota(CountdownN(s, dt, n))
    ensures s.spawnCount <= CountdownN(s, dt, n).spawnCount <= s.spawnCount + n
    ensures CountdownN(s, dt, n).maxSpawns == s.maxSpawns
  {
    if n > 0 {
      QuotaOverFrames(s, dt, n - 1);
      CountdownKeepsQuota(CountdownN(s, dt, n - 1), dt);
    }
  }

  // ---------------------------------------------------------------------------
  // The spawned entity

  /** Rect(0, -h, w, h): the box above the entity's bottom-left position. */
  function Footprint(size: Size): (r: Rect)
    ensures Left(r) == 0.0 && Bottom(r) == 0.0
    ensures r.width == size.width && r.height == size.height
  {
    Rect(Point(0.0, -(size.height as real)), size.width, size.height)
  }

  /** The components of a spawned entity. */
  function Offspring(position: Point, sprite: nat, size: Size, velocity: Point): (c: map<nat, Component>)
    ensures Typed(c)
    ensures c.Keys == {LOCATION, MOVEMENT, SPRITE, COLLISION}
    ensures c[LOCATION] == CLocation(Location(position))
    ensures c[MOVEMENT] == CMovement(Movement(velocity, 50.0))
    ensures c[SPRITE].CSprite? && c[SPRITE].sprite.spriteID == sprite
    ensures c[SPRITE].sprite.worldSpace && c[SPRITE].sprite.isAlive
    ensures c[COLLISION].CCollision? && !c[COLLISION].collision.isStatic
    ensures c[COLLISION].collision.currentBoundingBox == c[SPRITE].sprite.spriteRect
    ensures c[COLLISION].collision.boundingBoxOffset == c[SPRITE].sprite.spriteRect.topLeft
  {
    var box := Footprint(size);
    map[LOCATION := CLocation(Location(position)),
        MOVEMENT := CMovement(Movement(velocity, MAX_STAR_VELOCITY)),
        SPRITE := CSprite(Sprite(sprite, box, true, true)),
        COLLISION := CCollision(NewCollision(box, false))]
  }

  // ---------------------------------------------------------------------------
  // The pass

  /** An id the loop acts on: not id 0, live and holding a spawner. */
  predicate SpawnerAt(w: World, x: nat)
  {
    x != 0 && EM.SlotOf(w, x).Live? && HasSpawn(EM.SlotOf(w, x).comps)
  }

  /** It is the loop guard: a visited entity with a SpawnComponent. */
  lemma SpawnerAtIsGuard(w: World, x: nat)
    requires WF(w)
    ensures SpawnerAt(w, x) <==> Visited(w, x) && HasSpawn(EM.Comps(w, x))
  {
    VisitedIsLiveNonZero(w, x);
  }

  function SpawnOf(w: World, x: nat): Spawn
    requires SpawnerAt(w, x)
  {
    EM.SlotOf(w, x).comps[SPAWN].spawn
  }

  /** The spawner's components after its iteration. */
  function Counted(c: map<nat, Component>, dt: real): (r: map<nat, Component>)
    requires HasSpawn(c)
    ensures r.Keys == c.Keys && HasSpawn(r)
    ensures r[SPAWN].spawn == Countdown(c[SPAWN].spawn, dt)
    ensures forall k :: k in c && k != SPAWN ==> r[k] == c[k]
    ensures Typed(c) ==> Typed(r)
  {
    c[SPAWN := CSpawn(Countdown(c[SPAWN].spawn, dt))]
  }

  /** Every spawner that fires this frame has a position to spawn at; the
      source asserts it. */
  ghost predicate Ready(w: World, dt: real)
  {
    forall x: nat :: SpawnerAt(w, x) && Fires(SpawnOf(w, x), dt) ==> HasLocation(EM.SlotOf(w, x).comps)
  }

  /** What spawner x of `w` creates this frame; the random velocity is
      drawn per spawner and the texture size is looked up per sprite. */
  function Child(w: World, x: nat, size: nat -> Size, velocity: nat -> Point): (s: EM.Slot<Component>)
    requires SpawnerAt(w, x) && HasLocation(EM.SlotOf(w, x).comps)
  {
    var sp := SpawnOf(w, x);
    EM.Live(sp.entityType, Offspring(EM.SlotOf(w, x).comps[LOCATION].location.position, sp.spriteID, size(sp.spriteID), velocity(x)))
  }

  /** One iteration: the timer runs down, and a firing spawner creates its
      child and restarts. */
  datatype Visit = Visit(world: World, child: Option<nat>)

  /** The spawner's own write-back. */
  function Recount(w: World, e: nat, dt: real): (r: World)
    requires WF(w) && EM.SlotOf(w, e).Live? && HasSpawn(EM.SlotOf(w, e).comps)
    ensures WF(r) && r.entities == w.entities
    ensures EM.SlotOf(r, e) == EM.Live(EM.SlotOf(w, e).name, Counted(EM.SlotOf(w, e).comps, dt))
    ensures forall x :: x != e ==> EM.SlotOf(r, x) == EM.SlotOf(w, x)
  {
    var c := EM.Comps(w, e);
    assert Counted(c, dt) == c[SPAWN := Counted(c, dt)[SPAWN]];
    Set(w, e, SPAWN, Counted(c, dt)[SPAWN])
  }

  /** The child is created first; its components are those of Child. */
  function Birth(w: World, e: nat, size: nat -> Size, velocity: nat -> Point): (r: EM.Created<Component>)
    requires WF(w) && SpawnerAt(w, e) && HasLocation(EM.SlotOf(w, e).comps)
    ensures WF(r.manager) && |r.manager.entities| >= |w.entities|
    ensures r.id != e && EM.SlotOf(w, r.id).Vacant?
    ensures EM.SlotOf(r.manager, r.id) == Child(w, e, size, velocity)
    ensures forall x :: x != r.id ==> EM.SlotOf(r.manager, x) == EM.SlotOf(w, x)
  {
    var ch := Child(w, e, size, velocity);
    CreateWith(w, ch.name, ch.comps)
  }

  function VisitSpawner(w: World, e: nat, dt: real, size: nat -> Size, velocity: nat -> Point): (r: Visit)
    requires WF(w) && SpawnerAt(w, e)
    requires Fires(SpawnOf(w, e), dt) ==> HasLocation(EM.SlotOf(w, e).comps)
    ensures WF(r.world) && |r.world.entities| >= |w.entities|
    ensures r.child.Some? <==> Fires(SpawnOf(w, e), dt)
    ensures EM.SlotOf(r.world, e) == EM.Live(EM.SlotOf(w, e).name, Counted(EM.SlotOf(w, e).comps, dt))
    ensures r.child.Some? ==>
      && r.child.value != e && EM.SlotOf(w, r.child.value).Vacant?
      && EM.SlotOf(r.world, r.child.value) == Child(w, e, size, velocity)
    ensures forall x :: x != e && r.child != Some(x) ==> EM.SlotOf(r.world, x) == EM.SlotOf(w, x)
  {
    if Fires(SpawnOf(w, e), dt) then
      var cr := Birth(w, e, size, velocity);
      assert EM.SlotOf(cr.manager, e) == EM.SlotOf(w, e);
      Visit(Recount(cr.manager, e, dt), Some(cr.id))
    else
      Visit(Recount(w, e, dt), None)
  }

  /** What an id that was live at the start means after its iteration. */
  function Walked(w0: World, x: nat, dt: real): (s: EM.Slot<Component>)
  {
    if SpawnerAt(w0, x) then EM.Live(EM.SlotOf(w0, x).name, Counted(EM.SlotOf(w0, x).comps, dt)) else EM.SlotOf(w0, x)
  }

  /** The ids live at the start: those below e were walked, the rest are as
      they were. */
  ghost predicate Kept(w0: World, w: World, dt: real, e: nat)
  {
    forall x: nat :: EM.SlotOf(w0, x).Live? ==>
      EM.SlotOf(w, x) == if x < e then Walked(w0, x, dt) else EM.SlotOf(w0, x)
  }

  /** The children, aligned with their spawners, were vacant ids and now
      hold what their spawner creates. */
  ghost predicate Born(w0: World, w: World, spawners: seq<nat>, children: seq<nat>,
                       size: nat -> Size, velocity: nat -> Point)
  {
    && |spawners| == |children|
    && (forall i :: 0 <= i < |children| ==>
          && SpawnerAt(w0, spawners[i]) && HasLocation(EM.SlotOf(w0, spawners[i]).comps)
          && EM.SlotOf(w0, children[i]).Vacant?
          && EM.SlotOf(w, children[i]) == Child(w0, spawners[i], size, velocity))
  }

  /** A vacant id that is not a child stays vacant. */
  ghost predicate StillVacant(w0: World, w: World, children: seq<nat>)
  {
    forall x: nat :: EM.SlotOf(w0, x).Vacant? && x !in children ==> EM.SlotOf(w, x).Vacant?
  }

  /** The spawners below e that fired, in loop order. */
  ghost predicate FiredBelow(w0: World, dt: real, e: nat, spawners: seq<nat>)
  {
    && (forall x: nat :: x in spawners <==> x < e && SpawnerAt(w0, x) && Fires(SpawnOf(w0, x), dt))
    && (forall i, j :: 0 <= i < j < |spawners| ==> spawners[i] < spawners[j])
  }

  /** The state of the pass once the ids below e were walked. */
  ghost predicate Progress(w0: World, w: World, dt: real, e: nat, spawners: seq<nat>, children: seq<nat>,
                           size: nat -> Size, velocity: nat -> Point)
  {
    && WF(w) && |w.entities| >= |w0.entities|
    && Kept(w0, w, dt, e) && Born(w0, w, spawners, children, size, velocity)
    && StillVacant(w0, w, children) && FiredBelow(w0, dt, e, spawners)
    && Pack.Distinct(children)
  }

  lemma ProgressStart(w0: World, dt: real, size: nat -> Size, velocity: nat -> Point)
    requires WF(w0)
    ensures Progress(w0, w0, dt, 0, [], [], size, velocity)
  {
  }

  /** Before its own iteration an id of the snapshot means what it meant at
      the start, or it is a child, which holds no spawner. */
  lemma SpawnerUnchanged(w0: World, w: World, dt: real, e: nat, spawners: seq<nat>, children: seq<nat>,
                         size: nat -> Size, velocity: nat -> Point)
    requires Kept(w0, w, dt, e) && Born(w0, w, spawners, children, size, velocity)
    requires StillVacant(w0, w, children)
    ensures SpawnerAt(w, e) <==> SpawnerAt(w0, e)
    ensures EM.SlotOf(w0, e).Live? ==> EM.SlotOf(w, e) == EM.SlotOf(w0, e)
  {
    if EM.SlotOf(w0, e).Live? {
      assert EM.SlotOf(w, e) == EM.SlotOf(w0, e);
    } else if e in children {
      var i :| 0 <= i < |children| && children[i] == e;
      ChildHoldsNoSpawner(w0, spawners[i], size, velocity);
    } else {
      assert EM.SlotOf(w, e).Vacant?;
    }
  }

  lemma ChildHoldsNoSpawner(w: World, x: nat, size: nat -> Size, velocity: nat -> Point)
    requires SpawnerAt(w, x) && HasLocation(EM.SlotOf(w, x).comps)
    ensures SPAWN !in Child(w, x, size, velocity).comps
  {
  }

  /** Every child is live. */
  lemma ChildrenLive(w0: World, w: World, spawners: seq<nat>, children: seq<nat>,
                     size: nat -> Size, velocity: nat -> Point, c: nat)
    requires Born(w0, w, spawners, children, size, velocity) && EM.SlotOf(w, c).Vacant?
    ensures c !in children
  {
    forall i | 0 <= i < |children|
      ensures children[i] != c
    {
      assert EM.SlotOf(w, children[i]) == Child(w0, spawners[i], size, velocity);
    }
  }

  /** A fresh id keeps the children distinct. */
  lemma DistinctAppend(children: seq<nat>, c: nat)
    requires Pack.Distinct(children) && c !in children
    ensures Pack.Distinct(children + [c])
  {
    var ch := children + [c];
    forall i, j | 0 <= i < j < |ch|
      ensures ch[i] != ch[j]
    {
      if j == |children| {
        assert ch[i] == children[i];
      }
    }
  }

  /** An id live at the start stays live. */
  lemma KeptLive(w0: World, w: World, dt: real, e: nat, x: nat)
    requires Kept(w0, w, dt, e)
    ensures EM.SlotOf(w0, x).Live? ==> EM.SlotOf(w, x).Live?
  {
  }

  lemma KeptStep(w0: World, w: World, w': World, dt: real, e: nat, child: Option<nat>)
    requires Kept(w0, w, dt, e)
    requires EM.SlotOf(w0, e).Live? ==> EM.SlotOf(w', e) == Walked(w0, e, dt)
    requires child.Some? ==> EM.SlotOf(w0, child.value).Vacant?
    requires forall x :: x != e && child != Some(x) ==> EM.SlotOf(w', x) == EM.SlotOf(w, x)
    ensures Kept(w0, w', dt, e + 1)
  {
  }

  lemma BornStep(w0: World, w: World, w': World, e: nat, spawners: seq<nat>, children: seq<nat>,
                 size: nat -> Size, velocity: nat -> Point, child: nat)
    requires Born(w0, w, spawners, children, size, velocity)
    requires SpawnerAt(w0, e) && HasLocation(EM.SlotOf(w0, e).comps)
    requires EM.SlotOf(w0, child).Vacant? && child !in children && child != e
    requires EM.SlotOf(w', child) == Child(w0, e, size, velocity)
    requires forall x :: x != e && x != child ==> EM.SlotOf(w', x) == EM.SlotOf(w, x)
    ensures Born(w0, w', spawners + [e], children + [child], size, velocity)
  {
    var sp := spawners + [e];
    var ch := children + [child];
    forall i | 0 <= i < |ch|
      ensures SpawnerAt(w0, sp[i]) && HasLocation(EM.SlotOf(w0, sp[i]).comps)
      ensures EM.SlotOf(w0, ch[i]).Vacant?
      ensures EM.SlotOf(w', ch[i]) == Child(w0, sp[i], size, velocity)
    {
      if i < |children| {
        var c := children[i];
        assert ch[i] == c && sp[i] == spawners[i];
        assert c != e by {
          assert EM.SlotOf(w0, c).Vacant?;
        }
        assert c != child by {
          assert children[i] in children;
        }
        assert EM.SlotOf(w', c) == EM.SlotOf(w, c);
      } else {
        assert ch[i] == child && sp[i] == e;
      }
    }
  }

  lemma BornKeep(w0: World, w: World, w': World, e: nat, spawners: seq<nat>, children: seq<nat>,
                 size: nat -> Size, velocity: nat -> Point)
    requires Born(w0, w, spawners, children, size, velocity)
    requires EM.SlotOf(w0, e).Live?
    requires forall x :: x != e ==> EM.SlotOf(w', x) == EM.SlotOf(w, x)
    ensures Born(w0, w', spawners, children, size, velocity)
  {
  }

  lemma VacantStep(w0: World, w: World, w': World, e: nat, children: seq<nat>, child: Option<nat>)
    requires StillVacant(w0, w, children)
    requires EM.SlotOf(w0, e).Live?
    requires forall x :: x != e && child != Some(x) ==> EM.SlotOf(w', x) == EM.SlotOf(w, x)
    ensures StillVacant(w0, w', children + Opt(child))
  {
  }

  lemma FiredStep(w0: World, dt: real, e: nat, spawners: seq<nat>, fired: bool)
    requires FiredBelow(w0, dt, e, spawners)
    requires fired <==> SpawnerAt(w0, e) && Fires(SpawnOf(w0, e), dt)
    ensures FiredBelow(w0, dt, e + 1, spawners + Opt(if fired then Some(e) else None))
  {
    forall i | 0 <= i < |spawners|
      ensures spawners[i] < e
    {
      assert spawners[i] in spawners;
    }
  }

  /** One visited spawner that fires: its child is a fresh id. */
  lemma ProgressFire(w0: World, w: World, w': World, dt: real, e: nat, spawners: seq<nat>, children: seq<nat>,
                     size: nat -> Size, velocity: nat -> Point, c: nat)
    requires Progress(w0, w, dt, e, spawners, children, size, velocity)
    requires SpawnerAt(w0, e) && HasLocation(EM.SlotOf(w0, e).comps) && Fires(SpawnOf(w0, e), dt)
    requires EM.SlotOf(w, e) == EM.SlotOf(w0, e) && SpawnerAt(w, e)
    requires WF(w') && |w'.entities| >= |w.entities|
    requires EM.SlotOf(w', e) == EM.Live(EM.SlotOf(w, e).name, Counted(EM.SlotOf(w, e).comps, dt))
    requires EM.SlotOf(w, c).Vacant? && c != e && EM.SlotOf(w', c) == Child(w, e, size, velocity)
    requires forall x :: x != e && x != c ==> EM.SlotOf(w', x) == EM.SlotOf(w, x)
    ensures Progress(w0, w', dt, e + 1, spawners + [e], children + [c], size, velocity)
  {
    assert EM.SlotOf(w', e) == Walked(w0, e, dt);
    assert Child(w, e, size, velocity) == Child(w0, e, size, velocity);
    ChildrenLive(w0, w, spawners, children, size, velocity, c);
    DistinctAppend(children, c);
    KeptLive(w0, w, dt, e, c);
    BornStep(w0, w, w', e, spawners, children, size, velocity, c);
    KeptStep(w0, w, w', dt, e, Some(c));
    VacantStep(w0, w, w', e, children, Some(c));
    FiredStep(w0, dt, e, spawners, true);
  }

  /** One visited spawner that only counts down. */
  lemma ProgressQuiet(w0: World, w: World, w': World, dt: real, e: nat, spawners: seq<nat>, children: seq<nat>,
                      size: nat -> Size, velocity: nat -> Point)
    requires Progress(w0, w, dt, e, spawners, children, size, velocity)
    requires SpawnerAt(w0, e) && !Fires(SpawnOf(w0, e), dt)
    requires EM.SlotOf(w, e) == EM.SlotOf(w0, e)
    requires WF(w') && |w'.entities| >= |w.entities|
    requires EM.SlotOf(w', e) == EM.Live(EM.SlotOf(w, e).name, Counted(EM.SlotOf(w, e).comps, dt))
    requires forall x :: x != e ==> EM.SlotOf(w', x) == EM.SlotOf(w, x)
    ensures Progress(w0, w', dt, e + 1, spawners, children, size, velocity)
  {
    assert EM.SlotOf(w', e) == Walked(w0, e, dt);
    BornKeep(w0, w, w', e, spawners, children, size, velocity);
    KeptStep(w0, w, w', dt, e, None);
    VacantStep(w0, w, w', e, children, None);
    FiredStep(w0, dt, e, spawners, false);
  }

  /** One id that holds no spawner. */
  lemma ProgressSkip(w0: World, w: World, dt: real, e: nat, spawners: seq<nat>, children: seq<nat>,
                     size: nat -> Size, velocity: nat -> Point)
    requires WF(w0) && Progress(w0, w, dt, e, spawners, children, size, velocity)
    requires !SpawnerAt(w0, e) && (EM.SlotOf(w0, e).Live? ==> EM.SlotOf(w, e) == EM.SlotOf(w0, e))
    ensures Progress(w0, w, dt, e + 1, spawners, children, size, velocity)
  {
    KeptStep(w0, w, w, dt, e, None);
    FiredStep(w0, dt, e, spawners, false);
  }

  /** Once every id of the snapshot was walked, every spawner was. */
  lemma ProgressDone(w0: World, w: World, dt: real, spawners: seq<nat>, children: seq<nat>,
                     size: nat -> Size, velocity: nat -> Point)
    requires Progress(w0, w, dt, |w0.entities|, spawners, children, size, velocity)
    ensures WF(w)
    ensures forall x: nat :: EM.SlotOf(w0, x).Live? ==> EM.SlotOf(w, x) == Walked(w0, x, dt)
    ensures forall x: nat :: EM.SlotOf(w0, x).Vacant? && x !in children ==> EM.SlotOf(w, x).Vacant?
    ensures |spawners| == |children|
    ensures forall x: nat :: x in spawners <==> SpawnerAt(w0, x) && Fires(SpawnOf(w0, x), dt)
    ensures forall i, j :: 0 <= i < j < |spawners| ==> spawners[i] < spawners[j]
    ensures forall i :: 0 <= i < |children| ==>
      && SpawnerAt(w0, spawners[i]) && HasLocation(EM.SlotOf(w0, spawners[i]).comps)
      && EM.SlotOf(w0, children[i]).Vacant?
      && EM.SlotOf(w, children[i]) == Child(w0, spawners[i], size, velocity)
    ensures Pack.Distinct(children)
  {
  }

  /** The zero- or one-element sequence of an option. */
  function Opt<T>(o: Option<T>): (s: seq<T>)
    ensures |s| == (if o.Some? then 1 else 0)
    ensures o.Some? ==> s[0] == o.value
  {
    if o.Some? then [o.value] else []
  }

  /** What the pass has produced so far. */
  datatype Tally = Tally(world: World, spawners: seq<nat>, children: seq<nat>)

  /** One iteration of the loop, on id e. */
  function Iterate(w0: World, t: Tally, e: nat, dt: real, size: nat -> Size, velocity: nat -> Point): (r: Tally)
    requires WF(w0) && Ready(w0, dt)
    requires Progress(w0, t.world, dt, e, t.spawners, t.children, size, velocity)
    ensures Progress(w0, r.world, dt, e + 1, r.spawners, r.children, size, velocity)
  {
    var w := t.world;
    SpawnerUnchanged(w0, w, dt, e, t.spawners, t.children, size, velocity);
    if SpawnerAt(w, e) then
      var v := VisitSpawner(w, e, dt, size, velocity);
      if v.child.Some? then
        ProgressFire(w0, w, v.world, dt, e, t.spawners, t.children, size, velocity, v.child.value);
        Tally(v.world, t.spawners + [e], t.children + [v.child.value])
      else
        ProgressQuiet(w0, w, v.world, dt, e, t.spawners, t.children, size, velocity);
        Tally(v.world, t.spawners, t.children)
    else
      ProgressSkip(w0, w, dt, e, t.spawners, t.children, size, velocity);
      t
  }

  /** SpawnSystem(entityManager, spriteManager, deltaTime): walks the ids
      present at the start; returns the new world, the spawners that fired
      in loop order and, aligned with them, the ids of their children. */
  method Spawns(w0: World, dt: real, size: nat -> Size, velocity: nat -> Point)
    returns (w: World, spawners: seq<nat>, children: seq<nat>)
    requires WF(w0) && Ready(w0, dt)
    ensures WF(w)
    ensures forall x: nat :: EM.SlotOf(w0, x).Live? ==> EM.SlotOf(w, x) == Walked(w0, x, dt)
    ensures forall x: nat :: EM.SlotOf(w0, x).Vacant? && x !in children ==> EM.SlotOf(w, x).Vacant?
    ensures |spawners| == |children|
    ensures forall x: nat :: x in spawners <==> SpawnerAt(w0, x) && Fires(SpawnOf(w0, x), dt)
    ensures forall i, j :: 0 <= i < j < |spawners| ==> spawners[i] < spawners[j]
    ensures forall i :: 0 <= i < |children| ==>
      && SpawnerAt(w0, spawners[i]) && HasLocation(EM.SlotOf(w0, spawners[i]).comps)
      && EM.SlotOf(w0, children[i]).Vacant?
      && EM.SlotOf(w, children[i]) == Child(w0, spawners[i], size, velocity)
    ensures forall i, j :: 0 <= i < j < |children| ==> children[i] != children[j]
  {
    var n := |w0.entities|;
    var t := Tally(w0, [], []);
    ProgressStart(w0, dt, size, velocity);
    var e := 0;
    while e < n
      invariant e <= n
      invariant Progress(w0, t.world, dt, e, t.spawners, t.children, size, velocity)
    {
      t := Iterate(w0, t, e, dt, size, velocity);
      e := e + 1;
    }
    ProgressDone(w0, t.world, dt, t.spawners, t.children, size, velocity);
    w, spawners, children := t.world, t.spawners, t.children;
  }
}

=== FILE: time_system.dfy ===
/** TimeSystem: every running timer of a visited entity counts down; a timer
    that runs out is refilled, and stops unless it restarts itself. */
module TimeSystem {
  import opened Components
  import opened World
  import EM = EntityManager

  /** One iteration of the loop body on a timer. */
  function Tick(t: Time, dt: real): (r: Time)
    ensures r.totalDuration == t.totalDuration && r.restart == t.restart
    ensures !t.isRunning ==> r == t
    ensures t.isRunning && t.timeRemaining - dt > 0.0 ==> r == t.(timeRemaining := t.timeRemaining - dt)
    ensures t.isRunning && t.timeRemaining - dt <= 0.0 ==>
      r.timeRemaining == t.totalDuration && (r.isRunning <==> t.restart)
  {
    if !t.isRunning then t
    else
      var left := t.timeRemaining - dt;
      if left <= 0.0 then
        if t.restart then t.(timeRemaining := t.totalDuration)
        else t.(isRunning := false, timeRemaining := t.totalDuration)
      else t.(timeRemaining := left)
  }

  /** A timer whose remaining time lies in (0, total] keeps it there for any
      non-negative step. */
  predicate Charged(t: Time)
  {
    0.0 < t.timeRemaining <= t.totalDuration
  }

  lemma TickKeepsCharged(t: Time, dt: real)
    requires Charged(t) && dt >= 0.0
    ensures Charged(Tick(t, dt))
  {
  }

  /** A running one-shot timer stops exactly when the step reaches its
      remaining time; a restarting timer never stops; a stopped timer is a
      fixed point. */
  lemma TickStops(t: Time, dt: real)
    ensures t.isRunning && !t.restart ==> (!Tick(t, dt).isRunning <==> dt >= t.timeRemaining)
    ensures t.isRunning && t.restart ==> Tick(t, dt).isRunning
    ensures !Tick(t, dt).isRunning ==> Tick(Tick(t, dt), dt) == Tick(t, dt)
  {
  }

  /** n frames of the same length dt. */
  function TickN(t: Time, dt: real, n: nat): Time
  {
    if n == 0 then t else Tick(TickN(t, dt, n - 1), dt)
  }

  /** A timer built by TimeComponent(d, restart) with d > 0, after n frames
      of length dt > 0 that do not run it out, has d - n * dt left. */
  lemma {:induction false} CountDown(d: real, restart: bool, dt: real, n: nat)
    requires d > 0.0 && dt > 0.0 && (n as real) * dt < d
    ensures TickN(NewTime(d, restart), dt, n) == NewTime(d, restart).(timeRemaining := d - (n as real) * dt)
  {
    if n > 0 {
      assert ((n - 1) as real) * dt < d by {
        assert ((n - 1) as real) * dt == (n as real) * dt - dt;
      }
      CountDown(d, restart, dt, n - 1);
      assert d - ((n - 1) as real) * dt - dt == d - (n as real) * dt;
    }
  }

  /** The loop body on an entity's components. */
  function TimeRule(c: map<nat, Component>, dt: real): (r: map<nat, Component>)
    ensures r.Keys == c.Keys
    ensures forall k :: k in c && k != TIME ==> r[k] == c[k]
    ensures HasTime(c) ==> r[TIME] == CTime(Tick(c[TIME].time, dt))
    ensures !HasTime(c) ==> r == c
  {
    if HasTime(c) then c[TIME := CTime(Tick(c[TIME].time, dt))] else c
  }

  lemma TimeRuleOk(dt: real)
    ensures RuleOk(c => TimeRule(c, dt))
  {
  }

  /** TimeSystem(entityManager, deltaTime). */
  function TimeStep(w: World, dt: real): (r: World)
    requires WF(w)
    ensures WF(r) && SameSkeleton(w, r)
    ensures forall x: nat :: EM.SlotOf(r, x) == if Visited(w, x) then Apply(EM.SlotOf(w, x), c => TimeRule(c, dt)) else EM.SlotOf(w, x)
  {
    TimeRuleOk(dt);
    Pass(w, c => TimeRule(c, dt))
  }
}

=== FILE: window.dfy ===
/** WindowManager: the camera of the game window, an affine map between
    world coordinates and window pixels. The window centre (width / 2,
    height / 2) shows the world point `center`, and one pixel spans `scale`
    world units. The SFML window itself is not part of this model. */
module Window {
  import opened MathUtil

  /** The window's size in pixels and the camera. */
  datatype Window = Window(width: nat, height: nat, center: Point, scale: real)

  /** What the constructor and SetWorldScale guarantee: a non-empty window
      and a positive scale. */
  predicate Valid(win: Window)
  {
    win.width > 0 && win.height > 0 && win.scale > 0.0
  }

  /** The window centre in pixels. */
  function ScreenCenter(win: Window): Point
  {
    Point(win.width as real / 2.0, win.height as real / 2.0)
  }

  /** A new window: the camera looks at the world origin, one world unit
      per pixel. */
  function Create(width: nat, height: nat): (win: Window)
    requires width > 0 && height > 0
    ensures Valid(win)
    ensures WorldToWindow(win, Point(0.0, 0.0)) == ScreenCenter(win)
    ensures forall p :: WindowToWorld(win, p) == Sub(p, ScreenCenter(win))
  {
    Window(width, height, Point(0.0, 0.0), 1.0)
  }

  // ---------------------------------------------------------------------------
  // Conversions

  function WindowToWorldX(win: Window, x: real): real
  {
    win.center.x + (x - win.width as real / 2.0) * win.scale
  }

  function WorldToWindowX(win: Window, x: real): real
    requires win.scale > 0.0
  {
    win.width as real / 2.0 + (x - win.center.x) / win.scale
  }

  function WindowToWorldY(win: Window, y: real): real
  {
    win.center.y + (y - win.height as real / 2.0) * win.scale
  }

  function WorldToWindowY(win: Window, y: real): real
    requires win.scale > 0.0
  {
    win.height as real / 2.0 + (y - win.center.y) / win.scale
  }

  function WindowToWorld(win: Window, p: Point): Point
  {
    Point(WindowToWorldX(win, p.x), WindowToWorldY(win, p.y))
  }

  function WorldToWindow(win: Window, p: Point): Point
    requires win.scale > 0.0
  {
    Point(WorldToWindowX(win, p.x), WorldToWindowY(win, p.y))
  }

  /** The two horizontal conversions undo each other. */
  lemma RoundTripX(win: Window, x: real)
    requires win.scale > 0.0
    ensures WindowToWorldX(win, WorldToWindowX(win, x)) == x
    ensures WorldToWindowX(win, WindowToWorldX(win, x)) == x
  {
    var s := win.scale;
    assert (x - win.center.x) / s * s == x - win.center.x;
    assert (x - win.width as real / 2.0) * s / s == x - win.width as real / 2.0;
  }

  /** The two vertical conversions undo each other. */
  lemma RoundTripY(win: Window, y: real)
    requires win.scale > 0.0
    ensures WindowToWorldY(win, WorldToWindowY(win, y)) == y
    ensures WorldToWindowY(win, WindowToWorldY(win, y)) == y
  {
    var s := win.scale;
    assert (y - win.center.y) / s * s == y - win.center.y;
    assert (y - win.height as real / 2.0) * s / s == y - win.height as real / 2.0;
  }

  /** The point conversions are each other's inverse. */
  lemma RoundTrip(win: Window, p: Point)
    requires win.scale > 0.0
    ensures WindowToWorld(win, WorldToWindow(win, p)) == p
    ensures WorldToWindow(win, WindowToWorld(win, p)) == p
  {
    RoundTripX(win, p.x);
    RoundTripY(win, p.y);
  }

  /** The camera centre shows at the window centre, and distances in the
      world are distances on screen divided by the scale. */
  lemma WorldToWindowAffine(win: Window, p: Point, q: Point)
    requires win.scale > 0.0
    ensures WorldToWindow(win, win.center) == ScreenCenter(win)
    ensures Sub(WorldToWindow(win, p), WorldToWindow(win, q)) ==
      Point((p.x - q.x) / win.scale, (p.y - q.y) / win.scale)
  {
  }

  // ---------------------------------------------------------------------------
  // Camera

  /** SetCamera(worldPt, screenPt): moves the camera so that `world` shows at
      pixel `screen`; the scale and window size stay. */
  function SetCamera(win: Window, world: Point, screen: Point): (r: Window)
    ensures r.width == win.width && r.height == win.height && r.scale == win.scale
    ensures Valid(win) ==> Valid(r)
    ensures win.scale > 0.0 ==> WorldToWindow(r, world) == screen
  {
    var offset := Sub(screen, ScreenCenter(win));
    var r := win.(center := Point(world.x - offset.x * win.scale, world.y - offset.y * win.scale));
    if win.scale > 0.0 then
      assert (offset.x * win.scale) / win.scale == offset.x;
      assert (offset.y * win.scale) / win.scale == offset.y;
      r
    else r
  }

  /** The camera it sets is the only one with that property: any camera of
      the same size and scale that shows `world` at `screen` is this one. */
  lemma SetCameraUnique(win: Window, world: Point, screen: Point, other: Window)
    requires win.scale > 0.0
    requires other.width == win.width && other.height == win.height && other.scale == win.scale
    requires WorldToWindow(other, world) == screen
    ensures other == SetCamera(win, world, screen)
  {
    var r := SetCamera(win, world, screen);
    RoundTrip(other, world);
    assert WindowToWorld(other, screen) == world;
    assert other.center.x == r.center.x;
    assert other.center.y == r.center.y;
  }

  /** SetCamera(worldPt): centres the camera on `world`. */
  function CenterOn(win: Window, world: Point): (r: Window)
    ensures r.width == win.width && r.height == win.height && r.scale == win.scale
    ensures Valid(win) ==> Valid(r)
    ensures win.scale > 0.0 ==> WorldToWindow(r, world) == ScreenCenter(win)
  {
    win.(center := world)
  }

  /** Centring on a point is placing it at the window centre. */
  lemma CenterOnIsSetCamera(win: Window, world: Point)
    ensures CenterOn(win, world) == SetCamera(win, world, ScreenCenter(win))
  {
  }

  /** SetWorldScale: the source asserts a positive scale; the camera centre
      keeps its place on screen. */
  function SetWorldScale(win: Window, scale: real): (r: Window)
    requires scale > 0.0
    ensures r.scale == scale && r.width == win.width && r.height == win.height
    ensures Valid(win) ==> Valid(r)
    ensures WorldToWindow(r, win.center) == ScreenCenter(win)
  {
    win.(scale := scale)
  }

  // ---------------------------------------------------------------------------
  // Rectangles

  /** WindowToWorld(Rect): the top-left corner is converted as a point; width
      and height are scaled and truncated to int. */
  function WindowToWorldRect(win: Window, r: Rect): (o: Rect)
    ensures o.topLeft == WindowToWorld(win, r.topLeft)
    ensures Proper(r) && win.scale >= 0.0 ==> Proper(o)
    ensures Proper(r) && win.scale >= 0.0 ==>
      o.width as real <= r.width as real * win.scale < o.width as real + 1.0
    ensures Proper(r) && win.scale >= 0.0 ==>
      o.height as real <= r.height as real * win.scale < o.height as real + 1.0
  {
    var w := r.width as real * win.scale;
    var h := r.height as real * win.scale;
    assert Proper(r) && win.scale >= 0.0 ==> w >= 0.0 && h >= 0.0;
    Rect(WindowToWorld(win, r.topLeft), Trunc(w), Trunc(h))
  }

  /** WorldToWindow(Rect): the same with division by the scale. */
  function WorldToWindowRect(win: Window, r: Rect): (o: Rect)
    requires win.scale > 0.0
    ensures o.topLeft == WorldToWindow(win, r.topLeft)
    ensures Proper(r) ==> Proper(o)
    ensures Proper(r) ==> o.width as real <= r.width as real / win.scale < o.width as real + 1.0
    ensures Proper(r) ==> o.height as real <= r.height as real / win.scale < o.height as real + 1.0
  {
    var w := r.width as real / win.scale;
    var h := r.height as real / win.scale;
    assert Proper(r) ==> w >= 0.0 && h >= 0.0;
    Rect(WorldToWindow(win, r.topLeft), Trunc(w), Trunc(h))
  }

  /** Converting a proper rectangle there and back keeps its corner and can
      only shrink it: truncation loses the fractional pixels. */
  lemma RectRoundTrip(win: Window, r: Rect)
    requires win.scale > 0.0 && Proper(r)
    ensures WorldToWindowRect(win, WindowToWorldRect(win, r)).topLeft == r.topLeft
    ensures 0 <= WorldToWindowRect(win, WindowToWorldRect(win, r)).width <= r.width
    ensures 0 <= WorldToWindowRect(win, WindowToWorldRect(win, r)).height <= r.height
  {
    RoundTrip(win, r.topLeft);
    var s := win.scale;
    var o := WindowToWorldRect(win, r);
    ShrinkBack(r.width, o.width, s);
    ShrinkBack(r.height, o.height, s);
  }

  /** An integer at most n * s, divided by s, is at most n. */
  lemma ShrinkBack(n: int, m: int, s: real)
    requires s > 0.0 && 0 <= m && m as real <= n as real * s
    ensures m as real / s <= n as real
  {
    assert m as real / s * s == m as real;
  }

  /** When the scaled sizes are whole numbers w and h nothing is lost. */
  lemma RectRoundTripExact(win: Window, r: Rect, w: int, h: int)
    requires win.scale > 0.0
    requires r.width as real * win.scale == w as real && r.height as real * win.scale == h as real
    ensures WindowToWorldRect(win, r).width == w && WindowToWorldRect(win, r).height == h
    ensures WorldToWindowRect(win, WindowToWorldRect(win, r)) == r
  {
    RoundTrip(win, r.topLeft);
    var s := win.scale;
    IntegralOfInt(w);
    IntegralOfInt(h);
    TruncIntegral(w as real);
    TruncIntegral(h as real);
    assert w as real / s == r.width as real;
    assert h as real / s == r.height as real;
    IntegralOfInt(r.width);
    IntegralOfInt(r.height);
    TruncIntegral(r.width as real);
    TruncIntegral(r.height as real);
  }
}

=== FILE: world.dfy ===
/** The game's entity manager instantiated with the component registry, and
    the loop shape shared by the per-entity systems: walk the entity vector
    in order, skip every slot whose stored id is 0, and rewrite the
    components of the rest. */
module World {
  import opened Components
  import opened MathUtil
  import EM = EntityManager

  type World = EM.Manager<Component>

  /** The manager invariant, twelve storages, and every live entity's
      components stored under their own type index. */
  ghost predicate WF(w: World)
  {
    && EM.Inv(w) && |w.stores| == K
    && (forall x: nat :: EM.SlotOf(w, x).Live? ==> Typed(EM.SlotOf(w, x).comps))
  }

  /** The systems' loop guard `entity.id != 0`: live entities other than
      id 0 (entity 0 records id 0 while alive, so no system visits it). */
  predicate Visited(w: World, x: nat)
  {
    x < |w.entities| && w.entities[x].id != 0
  }

  lemma VisitedIsLiveNonZero(w: World, x: nat)
    requires WF(w)
    ensures Visited(w, x) <==> x != 0 && EM.ValidEntity(w, x)
  {
  }

  /** The managers differ at most in component values. */
  ghost predicate SameSkeleton(a: World, b: World)
  {
    a.entities == b.entities && a.valid == b.valid && a.free == b.free && a.table == b.table
  }

  // ---------------------------------------------------------------------------
  // Typed access to a components map

  predicate HasLocation(c: map<nat, Component>) { LOCATION in c && c[LOCATION].CLocation? }
  predicate HasMovement(c: map<nat, Component>) { MOVEMENT in c && c[MOVEMENT].CMovement? }
  predicate HasAcceleration(c: map<nat, Component>) { ACCELERATION in c && c[ACCELERATION].CAcceleration? }
  predicate HasCollision(c: map<nat, Component>) { COLLISION in c && c[COLLISION].CCollision? }
  predicate HasSprite(c: map<nat, Component>) { SPRITE in c && c[SPRITE].CSprite? }
  predicate HasSpawn(c: map<nat, Component>) { SPAWN in c && c[SPAWN].CSpawn? }
  predicate HasInput(c: map<nat, Component>) { INPUT in c && c[INPUT].CInput? }
  predicate HasScore(c: map<nat, Component>) { SCORE in c && c[SCORE].CScore? }
  predicate HasTime(c: map<nat, Component>) { TIME in c && c[TIME].CTime? }

  /** In a typed map, holding a type index means holding that type. */
  lemma TypedHas(c: map<nat, Component>)
    requires Typed(c)
    ensures HasLocation(c) <==> LOCATION in c
    ensures HasMovement(c) <==> MOVEMENT in c
    ensures HasAcceleration(c) <==> ACCELERATION in c
    ensures HasCollision(c) <==> COLLISION in c
    ensures HasSprite(c) <==> SPRITE in c
    ensures HasSpawn(c) <==> SPAWN in c
    ensures HasInput(c) <==> INPUT in c
    ensures HasScore(c) <==> SCORE in c
    ensures HasTime(c) <==> TIME in c
  {
  }

  /** The contacts of the previous frame as the input and gravity systems
      read them: from the collision component when there is one, none
      otherwise. */
  datatype Contact = Contact(grounded: bool, leftWall: bool, rightWall: bool)

  function ContactOf(c: map<nat, Component>): (t: Contact)
    ensures !HasCollision(c) ==> t == Contact(false, false, false)
  {
    if HasCollision(c) then
      var col := c[COLLISION].collision;
      Contact(col.collidedBottom, col.collidedLeft, col.collidedRight)
    else Contact(false, false, false)
  }

  /** Holding A against a wall on the left or D against one on the right. */
  predicate PushingIntoWall(t: Contact, keys: set<Key>)
  {
    (t.leftWall && KeyA in keys) || (t.rightWall && KeyD in keys)
  }

  // ---------------------------------------------------------------------------
  // Replacing the values of one entity's components

  /** `base` with every key from `k` upward taken from `c`. */
  function Merge(base: map<nat, Component>, c: map<nat, Component>, k: nat): (m: map<nat, Component>)
    requires base.Keys == c.Keys
    ensures m.Keys == base.Keys
  {
    map j | j in base :: if j >= k then c[j] else base[j]
  }

  lemma MergeStep(base: map<nat, Component>, c: map<nat, Component>, k: nat)
    requires base.Keys == c.Keys
    ensures k in c ==> Merge(base[k := c[k]], c, k + 1) == Merge(base, c, k)
    ensures k !in c ==> Merge(base, c, k + 1) == Merge(base, c, k)
  {
  }

  lemma MergeEnds(base: map<nat, Component>, c: map<nat, Component>)
    requires base.Keys == c.Keys && forall j :: j in c ==> j < K
    ensures Merge(base, c, K) == base && Merge(base, c, 0) == c
  {
  }

  /** Writing one component value that fits its type keeps the world typed. */
  function Set(w: World, e: nat, k: nat, v: Component): (r: World)
    requires WF(w) && EM.ValidEntity(w, e) && k in EM.Comps(w, e) && Typed(EM.Comps(w, e)[k := v])
    ensures WF(r) && SameSkeleton(w, r)
    ensures EM.SlotOf(r, e) == EM.Live(w.entities[e].name, EM.Comps(w, e)[k := v])
    ensures EM.Comps(r, e) == EM.Comps(w, e)[k := v]
    ensures forall x :: x != e ==> EM.SlotOf(r, x) == EM.SlotOf(w, x)
  {
    EM.HasComponentMeansHeld(w, e, k);
    var r := EM.SetComponent(w, e, k, v);
    OneChangeTyped(w, r, e);
    r
  }

  /** A manager that differs from a typed world at one id, where it holds a
      typed map, is a typed world. */
  lemma OneChangeTyped(w: World, r: World, e: nat)
    requires WF(w) && EM.Inv(r) && |r.stores| == K
    requires EM.SlotOf(r, e).Live? ==> Typed(EM.SlotOf(r, e).comps)
    requires forall x :: x != e ==> EM.SlotOf(r, x) == EM.SlotOf(w, x)
    ensures WF(r)
  {
    forall x: nat | EM.SlotOf(r, x).Live?
      ensures Typed(EM.SlotOf(r, x).comps)
    {
      if x != e {
        assert EM.SlotOf(r, x) == EM.SlotOf(w, x);
      }
    }
  }

  /** Entries taken from a typed map of the same keys keep a map typed. */
  lemma TypedUpdate(w: World, e: nat, c: map<nat, Component>, k: nat)
    requires WF(w) && EM.ValidEntity(w, e) && Typed(c) && c.Keys == EM.Comps(w, e).Keys && k in c
    ensures Typed(EM.Comps(w, e)[k := c[k]])
  {
    assert EM.SlotOf(w, e).Live?;
    TypedMapUpdate(EM.Comps(w, e), c, k);
  }

  lemma TypedMapUpdate(a: map<nat, Component>, c: map<nat, Component>, k: nat)
    requires Typed(a) && Typed(c) && k in c
    ensures Typed(a[k := c[k]])
  {
  }

  /** Writes the values of `c` into the components of `e` with type index
      k, k+1, .., K-1, one SetComponent per held type. */
  function ReplaceFrom(w: World, e: nat, c: map<nat, Component>, k: nat): (r: World)
    requires WF(w) && EM.ValidEntity(w, e) && Typed(c) && c.Keys == EM.Comps(w, e).Keys && k <= K
    ensures WF(r) && SameSkeleton(w, r)
    ensures EM.SlotOf(r, e) == EM.Live(w.entities[e].name, Merge(EM.Comps(w, e), c, k))
    ensures forall x :: x != e ==> EM.SlotOf(r, x) == EM.SlotOf(w, x)
    decreases K - k
  {
    if k == K then
      MergeEnds(EM.Comps(w, e), c);
      w
    else if k in c then
      TypedUpdate(w, e, c, k);
      var w1 := Set(w, e, k, c[k]);
      MergeStep(EM.Comps(w, e), c, k);
      ReplaceFrom(w1, e, c, k + 1)
    else
      MergeStep(EM.Comps(w, e), c, k);
      ReplaceFrom(w, e, c, k + 1)
  }

  /** Replaces the components of a live entity by `c`, which holds the same
      types. */
  function Replace(w: World, e: nat, c: map<nat, Component>): (r: World)
    requires WF(w) && EM.ValidEntity(w, e) && Typed(c) && c.Keys == EM.Comps(w, e).Keys
    ensures WF(r) && SameSkeleton(w, r)
    ensures EM.SlotOf(r, e) == EM.Live(w.entities[e].name, c)
    ensures forall x :: x != e ==> EM.SlotOf(r, x) == EM.SlotOf(w, x)
  {
    MergeEnds(EM.Comps(w, e), c);
    ReplaceFrom(w, e, c, 0)
  }

  /** RemoveEntity on the game's manager keeps it typed. */
  function Remove(w: World, e: nat): (r: World)
    requires WF(w)
    ensures WF(r)
    ensures EM.SlotOf(r, e) == EM.Vacant
    ensures forall x :: x != e ==> EM.SlotOf(r, x) == EM.SlotOf(w, x)
    ensures |r.entities| == |w.entities|
  {
    var r := EM.RemoveEntity(w, e);
    forall x: nat | EM.SlotOf(r, x).Live?
      ensures Typed(EM.SlotOf(r, x).comps)
    {
      assert EM.SlotOf(r, x) == EM.SlotOf(w, x);
    }
    r
  }

  /** AddComponent with a value of the type's own kind keeps the world typed. */
  function AddTyped(w: World, e: nat, k: nat, v: Component): (r: World)
    requires WF(w) && EM.ValidEntity(w, e) && k !in EM.Comps(w, e) && Typed(EM.Comps(w, e)[k := v])
    ensures WF(r) && r.entities == w.entities && r.free == w.free
    ensures EM.SlotOf(r, e) == EM.Live(w.entities[e].name, EM.Comps(w, e)[k := v])
    ensures forall x :: x != e ==> EM.SlotOf(r, x) == EM.SlotOf(w, x)
  {
    assert EM.SlotOf(w, e).Live?;
    assert k in EM.Comps(w, e)[k := v];
    var r := EM.AddComponent(w, e, k, v);
    forall x: nat | EM.SlotOf(r, x).Live?
      ensures Typed(EM.SlotOf(r, x).comps)
    {
      if x != e {
        assert EM.SlotOf(r, x) == EM.SlotOf(w, x);
      }
    }
    r
  }

  /** The entries of `c` below type index k. */
  function Below(c: map<nat, Component>, k: nat): (b: map<nat, Component>)
    ensures forall j :: j in b <==> j in c && j < k
    ensures forall j :: j in b ==> b[j] == c[j]
  {
    map j | j in c && j < k :: c[j]
  }

  lemma BelowStep(c: map<nat, Component>, k: nat)
    ensures k in c ==> Below(c, k)[k := c[k]] == Below(c, k + 1)
    ensures k !in c ==> Below(c, k) == Below(c, k + 1)
    ensures Typed(c) ==> Typed(Below(c, k + 1))
  {
  }

  lemma BelowAll(c: map<nat, Component>)
    requires Typed(c)
    ensures Below(c, K) == c
  {
  }

  /** Adds the entries of `c` from type index k upward to an entity that
      holds exactly the entries below k. */
  function AddFrom(w: World, e: nat, c: map<nat, Component>, k: nat): (r: World)
    requires WF(w) && EM.ValidEntity(w, e) && Typed(c) && k <= K
    requires EM.Comps(w, e) == Below(c, k)
    ensures WF(r) && r.entities == w.entities && r.free == w.free
    ensures EM.SlotOf(r, e) == EM.Live(w.entities[e].name, c)
    ensures forall x :: x != e ==> EM.SlotOf(r, x) == EM.SlotOf(w, x)
    decreases K - k
  {
    BelowStep(c, k);
    if k == K then
      BelowAll(c);
      w
    else if k in c then
      var w1 := AddTyped(w, e, k, c[k]);
      AddFrom(w1, e, c, k + 1)
    else
      AddFrom(w, e, c, k + 1)
  }

  /** CreateEntity followed by one AddComponent per entry of `c`. The
      storages are separate, so the order of the additions does not matter. */
  function CreateWith(w: World, name: string, c: map<nat, Component>): (r: EM.Created<Component>)
    requires WF(w) && Typed(c)
    ensures WF(r.manager)
    ensures EM.SlotOf(w, r.id) == EM.Vacant
    ensures EM.SlotOf(r.manager, r.id) == EM.Live(name, c)
    ensures forall x :: x != r.id ==> EM.SlotOf(r.manager, x) == EM.SlotOf(w, x)
    ensures |w.free| > 0 ==> r.id == w.free[|w.free| - 1]
    ensures |w.free| == 0 ==> r.id == |w.entities|
    ensures r.manager.entities[r.id] == EM.Entity(r.id, name) && |r.manager.entities| >= |w.entities|
  {
    var cr := EM.CreateEntity(w, name);
    var m := cr.manager;
    forall x: nat | EM.SlotOf(m, x).Live?
      ensures Typed(EM.SlotOf(m, x).comps)
    {
      if x != cr.id {
        assert EM.SlotOf(m, x) == EM.SlotOf(w, x);
      }
    }
    assert EM.Comps(m, cr.id) == Below(c, 0);
    EM.Created(AddFrom(m, cr.id, c, 0), cr.id)
  }

  // ---------------------------------------------------------------------------
  // The per-entity pass

  /** A rule that rewrites component values and keeps the set of types. */
  ghost predicate RuleOk(rule: map<nat, Component> -> map<nat, Component>)
  {
    forall c {:trigger rule(c)} :: Typed(c) ==> rule(c).Keys == c.Keys && Typed(rule(c))
  }

  /** The ids from e up to n, in increasing order, that satisfy keep: what
      a loop over the entity vector collects. */
  function Select(keep: nat -> bool, n: nat, e: nat): (s: seq<nat>)
    ensures forall i :: 0 <= i < |s| ==> e <= s[i] < n && keep(s[i])
    ensures forall x: nat :: e <= x < n && keep(x) ==> x in s
    ensures forall i, j :: 0 <= i < j < |s| ==> s[i] < s[j]
    decreases n - e
  {
    if e >= n then []
    else if keep(e) then [e] + Select(keep, n, e + 1)
    else Select(keep, n, e + 1)
  }

  /** The meaning of an id after a rule was applied to it. */
  function Apply(s: EM.Slot<Component>, rule: map<nat, Component> -> map<nat, Component>): EM.Slot<Component>
  {
    match s
    case Vacant => EM.Vacant
    case Live(n, c) => EM.Live(n, rule(c))
  }

  /** The entity loop from index e on: every visited entity gets the rule,
      in order, and nothing else changes. */
  function PassFrom(w: World, rule: map<nat, Component> -> map<nat, Component>, e: nat): (r: World)
    requires WF(w) && RuleOk(rule)
    ensures WF(r) && SameSkeleton(w, r)
    ensures forall x: nat ::
      EM.SlotOf(r, x) == if e <= x && Visited(w, x) then Apply(EM.SlotOf(w, x), rule) else EM.SlotOf(w, x)
    decreases |w.entities| - e
  {
    if e >= |w.entities| then w
    else if Visited(w, e) then
      var c := EM.Comps(w, e);
      assert EM.SlotOf(w, e).Live?;
      var w1 := Replace(w, e, rule(c));
      PassFrom(w1, rule, e + 1)
    else
      PassFrom(w, rule, e + 1)
  }

  /** A whole system pass over the entity vector. */
  function Pass(w: World, rule: map<nat, Component> -> map<nat, Component>): (r: World)
    requires WF(w) && RuleOk(rule)
    ensures WF(r) && SameSkeleton(w, r)
    ensures forall x: nat :: EM.SlotOf(r, x) == if Visited(w, x) then Apply(EM.SlotOf(w, x), rule) else EM.SlotOf(w, x)
  {
    PassFrom(w, rule, 0)
  }
}

=== FILE: wrappers.dfy ===
/** An optional value: a component an entity may or may not hold. */
module Wrappers {
  datatype Option<T> = None | Some(value: T)
}
